=== FILE: README.md ===
# Parallel-Maximum-Flow in Dafny

This project models the sequential core of the Parallel-Maximum-Flow solvers
and proves properties of that model. The core consists of:

- the push-relabel solver of `push-relabel.cc`:
  - the active-vertex queue in its four compile-time variants (QTYPE 0 FIFO ring,
    QTYPE 1 max-heap on height with `vertexPtr`, QTYPE 2 max-heap on initial
    distance, QTYPE 3 max-heap on a layer label);
  - `push`, `relabel` and `discharge`, and the loop that pops and discharges
    vertices;
  - the driver, which builds the capacity matrix and the symmetrised neighbour
    lists, runs a breadth-first search from T along arcs u->v with non-zero
    residual that labels each vertex it reaches with its depth, leaving INT_MAX
    on the rest, floods the arcs out of S, and reads the flow off the residual
    matrix;
- the single-threaded parts of `parallel-push-relabel.cc`:
  - its queue, which has no `inqueue` flags and adds a QTYPE 4 min-heap;
  - `swap` and `min`;
  - the guarded `push` (it queues v only when v is not queued, not S and not T);
  - `relabel`, the initialisation, the preflow and the extraction;
- the Ford-Fulkerson solver of `ford-fulkerson.cc`: `getcf`, `getPath`, the
  augmentation loop and the extraction;
- the two feasibility checkers:
  - `check` of `graph.cc`, which credits each scanned flow to the reverse cell of
    its working copy;
  - `verify` of `tools/verify.cc`, which only debits.

Matrices are sequences of rows, and integers are unbounded. `INT_MAX` is a named
constant (`Base.INT_MAX`). Three loops take a `fuel` bound here and report
whether they finished: the "while excess" loop of `discharge`, the loop that pops
and discharges vertices, and the Ford-Fulkerson augmentation loop. The
breadth-first searches, the scans and the checkers are proved to terminate
without one.

Modules:

- `Base`, `Reach`: shared vocabulary, and reachability along an arc relation.
- `Network`: the input graph, the capacity matrix, the neighbour lists and flow
  extraction.
- `Preflow`: the cell and excess bookkeeping of a push, and the relabel minimum.
- `Ring`, `Heap`, `VertexQueue`, `ParallelQueue`: the queue variants.
- `Labelling`: the breadth-first search from T that sets the initial heights.
- `PushRelabel`, `ParallelPushRelabel`: the two push-relabel engines.
- `Flow`: what a settled residual matrix and a feasible flow are.
- `FordFulkerson`: the augmenting-path solver.
- `FlowCheck`: both checkers, as one scan parameterised by a `Variant`.

Terms used below:

- A residual matrix is *settled* when:
  - it is non-negative;
  - each of its antiparallel pairs sums to the capacities' pair;
  - every inner vertex has equal capacity and residual column sums.
- A flow is *feasible* when:
  - its diagonal is zero;
  - every other cell lies in [0, capacity];
  - inflow equals outflow at every vertex other than S and T.

## Model

| member | source | states |
|---|---|---|
| Base.Min | parallel-push-relabel.cc:46-51 | the result is one of the two arguments and no larger than either |
| Heap.Swap | parallel-push-relabel.cc:53-57 | the two cells are exchanged, every other cell is unchanged, and the multiset of cells is kept |
| Ring.Empty | push-relabel.cc:271-276 | a fresh ring of V+1 cells is well formed and holds no vertex |
| Ring.Append | push-relabel.cc:42-48 | below capacity the queued vertices become the old ones followed by u; at capacity (possible only in the unguarded parallel queue) u overwrites the front cell |
| Ring.Dequeue | push-relabel.cc:93-99 | an empty ring yields -1 and is unchanged; otherwise it yields the first queued vertex and keeps the rest in order |
| Heap.SiftUp | push-relabel.cc:53-61 | the cells are a permutation of the input; a heap broken only upward at `start` becomes a heap; with tracking, the moved vertex's pointer names its final cell |
| Heap.Insert | push-relabel.cc:50-62 | the heap gains exactly u and keeps heap order; with tracking, `vertexPtr[u]` names the cell holding u |
| Heap.SiftDown | push-relabel.cc:104-128 | the items are kept as a multiset, and a heap broken only at the root becomes a heap again |
| Heap.RemoveTop | push-relabel.cc:101-129 | an empty heap yields -1; otherwise the result is the former root, whose key is above every queued key, and the heap loses exactly that vertex and keeps heap order |
| Heap.RootAbove | push-relabel.cc:102 | in a heap, the root's key is above the key of every cell |
| Heap.IncreaseKey | push-relabel.cc:185-197 | sifting a raised cell up keeps the items and restores heap order |
| Heap.RaisedKey | push-relabel.cc:185-194 | raising one queued vertex's key breaks heap order only upward from its cell |
| Heap.KeyOutside | push-relabel.cc:221-223 | changing the key of a vertex that is not queued keeps heap order |
| VertexQueue.Empty | push-relabel.cc:271-283 | the fresh queue holds no vertex and is valid for every height vector |
| VertexQueue.Push | push-relabel.cc:41-89 | a queued vertex is ignored; otherwise the queue gains exactly u and flags it, and in FIFO order u goes to the back |
| VertexQueue.PopFront | push-relabel.cc:93-99 | the FIFO variant yields the front vertex, unflags it and keeps the rest in order |
| VertexQueue.PopRoot | push-relabel.cc:100-180 | a heap variant yields a flagged vertex whose key is at least every queued key, and removes exactly it |
| VertexQueue.Pop | push-relabel.cc:91-183 | an empty queue yields -1 and is unchanged; otherwise the result is removed and unflagged, and it is the front (FIFO) or has the largest key (heaps) |
| VertexQueue.IncreaseKey | push-relabel.cc:185-197 | only QTYPE 1 with u queued changes anything; it keeps the items, and when the pointer of u is exact it restores heap order for the raised height |
| VertexQueue.RelabelOutside | push-relabel.cc:213-225 | relabelling a vertex that is not queued keeps every queue variant valid |
| ParallelQueue.Push | parallel-push-relabel.cc:59-81 | below capacity the queue gains exactly u (at the back of the ring, or with max- or min-heap order kept); a full ring overwrites its front cell |
| ParallelQueue.Pop | parallel-push-relabel.cc:83-131 | an empty queue yields -1; otherwise the result was queued and is removed once, and it is the front (FIFO), has the largest key (QTYPE 1-3) or has the smallest key (QTYPE 4) |
| ParallelQueue.RelabelOutside | parallel-push-relabel.cc:148-157 | relabelling a vertex that is not queued keeps the queue valid |
| Network.LastCapSource | push-relabel.cc:301 | a capacity cell is 0 when no edge u->v is listed, and otherwise equals the capacity of one listed u->v edge |
| Network.BuildCapacity | push-relabel.cc:287-303 | cell (u, v) holds the capacity of the last listed edge u->v, and 0 when there is none |
| Network.BuildAdjacency | push-relabel.cc:293-300 | v is a neighbour of u exactly when the input lists u->v or v->u |
| Network.ExtractFlow | push-relabel.cc:366-373 | for every listed edge the flow is capacity minus residual; every other cell keeps the caller's value |
| Network.ExtractFlowByEdge | parallel-push-relabel.cc:331-338 | reading each edge's own capacity gives the same flow as reading the capacity matrix |
| Preflow.MoveCells | push-relabel.cc:204-207 | moving d along u->v changes only the two residual cells and the two excesses, by d in opposite directions |
| Preflow.MoveKeepsBalance | push-relabel.cc:200-210 | a move keeps every residual pair's sum, keeps excess equal to net inflow, and keeps the total excess |
| Preflow.MoveNonNegative | push-relabel.cc:202 | a move of at most min(excess, residual) leaves no residual or excess negative |
| Preflow.LowestNeighbour | push-relabel.cc:215-220 | the minimum height over neighbours with positive residual, or INT_MAX when there are none |
| Preflow.NewHeight | push-relabel.cc:213-221 | the new height is one above a lowest neighbour with positive residual |
| Labelling.Discover | push-relabel.cc:326-328 | labelling a newly reached vertex one above its discoverer keeps the search invariant, and the discovered set grows by one |
| Labelling.Label | push-relabel.cc:314-332 | height[T] is 0; each height is INT_MAX or below V; a labelled vertex is one above a labelled vertex that reaches it; v is labelled exactly when T reaches v through arcs with non-zero residual |
| PushRelabel.Push | push-relabel.cc:200-210 | moves min(excess[u], residual[u][v]): u or the arc ends empty; only the pair (u, v) changes; v is queued when anything moved; a preflow stays a preflow |
| PushRelabel.Relabel | push-relabel.cc:213-225 | the new height is one above a lowest neighbour with positive residual and at most one above every such neighbour; other heights are unchanged |
| PushRelabel.PushAll | push-relabel.cc:200-241 | after the scan u has no excess or no lower neighbour with positive residual; each push goes to a listed neighbour strictly below u that had positive residual; the row and column of u change only at pushed neighbours, no residual cell outside them changes, and excess of other vertices changes only at pushed neighbours |
| PushRelabel.Discharge | push-relabel.cc:227-243 | reports Drained exactly when u ends with no excess, and Stuck only when no neighbour with positive residual has a height below INT_MAX; other heights are unchanged; the ghost trace runs from the initial to the final state, one entry per relabel-and-scan round and no more rounds than fuel; in each round u had excess, its new height is one above its lowest neighbour with positive residual, the row and column of u and the other vertices' excess change only at neighbours that had positive residual and stand exactly one below u's new height, and no residual cell outside row and column u changes; over the whole call no residual cell outside row and column u changes |
| PushRelabel.Rounded | push-relabel.cc:200-241 | a relabel of u followed by its scan is one round of `discharge`: u's new height is one above its lowest neighbour with positive residual; every arc the scan pushes along had positive residual and leads exactly one below that height; the row and column of u change only along those arcs, and no residual cell outside them changes |
| PushRelabel.Run | push-relabel.cc:245-255 | a finished run leaves the queue empty and no excess at any vertex other than S and T; a preflow stays a preflow |
| PushRelabel.Idle | push-relabel.cc:250-253 | when the queue is empty, no vertex other than S and T holds excess |
| PushRelabel.Setup | push-relabel.cc:285-353 | the network is the input's; residual equals capacity; S holds INT_MAX at height V-1; any other vertex has a finite height exactly when T reaches it |
| PushRelabel.Flood | push-relabel.cc:350-358 | afterwards S has no excess left, or every arc out of S has no residual left |
| PushRelabel.Settle | push-relabel.cc:362-373 | a preflow with no excess at inner vertices has a settled residual matrix |
| PushRelabel.Solve | push-relabel.cc:259-374 | the flow is read off the final residual; when the run finishes the residual is settled, and on an input with no antiparallel edges the flow is feasible |
| ParallelPushRelabel.Enqueue | parallel-push-relabel.cc:141-144 | v is flagged and queued exactly when it is unflagged, not S and not T; the queue never holds a vertex twice |
| ParallelPushRelabel.Move | parallel-push-relabel.cc:136-140 | the unconditional move of min(excess[u], residual[u][v]) along u->v keeps a preflow a preflow |
| ParallelPushRelabel.Push | parallel-push-relabel.cc:134-145 | the move plus the guarded enqueue: exactly the pair (u, v) and the two excesses change |
| ParallelPushRelabel.Relabel | parallel-push-relabel.cc:148-157 | the same height rule as the sequential relabel, with no change to the queue |
| ParallelPushRelabel.Setup | parallel-push-relabel.cc:235-301 | as the sequential setup, with no vertex flagged |
| ParallelPushRelabel.Flood | parallel-push-relabel.cc:302-307 | the guarded push along every arc out of S with positive residual leaves S empty or every such arc saturated |
| Flow.PairDifference | push-relabel.cc:370 | on an input with no antiparallel edges, the flow difference of each pair equals capacity minus residual |
| Flow.ExtractFeasible | push-relabel.cc:366-373 | the flow read off a settled residual of an input with no antiparallel edges is feasible |
| Flow.AntiparallelNegative | push-relabel.cc:366-373 | with edges 0->1 and 1->0 of capacity 5, a settled residual yields flow -5 on 1->0, which is infeasible |
| Flow.ExtractClipped | push-relabel.cc:366-373 | every listed edge gets capacity minus residual clipped at 0; other cells keep their values |
| Flow.ClippedFeasible | push-relabel.cc:366-373 | the clipped flow of any settled residual is feasible, with or without antiparallel edges |
| FordFulkerson.Successors | ford-fulkerson.cc:85-92 | each vertex's list is the heads of its listed out-edges, in input order |
| FordFulkerson.Getcf | ford-fulkerson.cc:28-37 | walking `rpath` back from T gives an augmenting S-T walk whose bottleneck is cf, in 1 .. INT_MAX; cf is INT_MAX when S = T, is at most the residual of T's parent arc, and is INT_MAX or equals one arc's residual |
| FordFulkerson.Scan | ford-fulkerson.cc:54-64 | scanning u's out-edges keeps the search tree rooted at S, and stops as soon as T is reached |
| FordFulkerson.GetPath | ford-fulkerson.cc:39-68 | cf > 0 exactly when S != T and T can be reached from S along listed out-edges with positive residual; then `rpath` encodes such a walk with bottleneck cf |
| FordFulkerson.Augment | ford-fulkerson.cc:100-103 | every arc of the path loses cf and its reverse gains cf; S's residual column sum rises by cf, T's falls by cf, and the others are unchanged |
| FordFulkerson.AugmentKeeps | ford-fulkerson.cc:99-104 | augmenting keeps residual pair sums, and keeps the residual non-negative when cf is the bottleneck |
| FordFulkerson.Round | ford-fulkerson.cc:99-104 | a round either stops with T unreachable along listed out-edges, or raises the flow value while keeping conservation |
| FordFulkerson.Rounds | ford-fulkerson.cc:99-104 | the loop keeps conservation with flow value f >= 0, and on finishing T is unreachable along listed out-edges |
| FordFulkerson.ConservingSettled | ford-fulkerson.cc:99-104 | a conserving non-negative residual is settled |
| FordFulkerson.Solve | ford-fulkerson.cc:70-111 | the flow is read off a settled residual, and is feasible on an input with no antiparallel edges; on finishing, T is unreachable along listed out-edges only |
| FordFulkerson.ForwardOnlyStops | ford-fulkerson.cc:85-92 | on a six-vertex graph, the first augmentation leaves T reachable in the residual graph but not along listed out-edges, at flow 1 of a possible 2 |
| FordFulkerson.ReachListed | push-relabel.cc:296-300 | a positive-residual S-T path of a settled residual uses only arcs in the symmetrised neighbour lists |
| FordFulkerson.SolveWithReverse | ford-fulkerson.cc:39-111 | the same loop searching the symmetrised lists finishes only when no S-T path with positive residual remains |
| FlowCheck.Leftover | tools/verify.cc:27 | after the scan each working cell is capacity minus its own flow, plus the reverse flow for `check` only |
| FlowCheck.ScanCells | graph.cc:81-97 | the scan stops exactly when some cell is bad, names the first bad cell in row-major order and its verdict, and otherwise returns the working copy and the net sums |
| FlowCheck.ZeroSumsConserve | graph.cc:94-103 | zero net sums at every inner vertex mean the flow is conserved there |
| FlowCheck.ConserveZeroSums | graph.cc:94-103 | a conserved flow has zero net sums at every inner vertex |
| FlowCheck.NetCheck | graph.cc:99-103 | succeeds exactly when every vertex other than S and T has zero net sum |
| FlowCheck.Reaches | graph.cc:105-123 | reports reaching T exactly when S != T and T can be reached from S through positive working cells; the log of queued vertices starts at S, has no vertex twice and so at most V entries, holds only vertices S reaches, ends at T when T is reached, and otherwise holds every vertex S reaches |
| FlowCheck.Judge | graph.cc:99-123 | NETFLOW_NONZERO exactly when conservation fails; REACHED_TARGET exactly when the flow is conserved and T can be reached; SUCCESS otherwise |
| FlowCheck.Check | graph.cc:79-124 | each verdict holds exactly under its condition: a bad-cell verdict names the first bad cell; NETFLOW_NONZERO means all cells pass but conservation fails; REACHED_TARGET means an augmenting path remains; SUCCESS means none of these |
| FlowCheck.FeasiblePasses | graph.cc:81-103 | a feasible flow passes the cell scan of every variant and conservation |
| FlowCheck.StrictPassesIffFeasible | tools/verify.cc:17-38 | without credit, passing the cell scan and conservation is the same as being feasible |
| FlowCheck.LeftoverIsResidual | graph.cc:91-92 | for a flow read off a settled residual, the credited working copy equals that residual |
| FlowCheck.SettledAccepted | graph.cc:79-124 | a flow read off a settled residual with no S-T path is feasible, and `check` and its corrected form accept it |
| FlowCheck.CreditAcceptsOverCapacity | graph.cc:89-92 | `check` accepts one unit on 1->0 where that arc has no capacity; the other variants reject it at (1, 0); swapping the edge makes `check` reject it at (0, 1) |
| FlowCheck.BounceRejected | tools/verify.cc:25-26 | without credit, the over-capacity flow is rejected at cell (1, 0) |
| FlowCheck.UndoArcsIgnored | tools/verify.cc:27 | `verify` accepts the one-unit flow on the six-vertex graph, which is feasible but not maximum; `check` reports REACHED_TARGET for it |

## Left out

- Threads: the parallel `discharge` and the thread loop (parallel-push-relabel.cc:159-196), the locks and the `pthread` calls are not modelled. The parallel model covers the single-threaded setup, push, relabel, queue and extraction.
- `cnt` and its printout (parallel-push-relabel.cc:322-328): output only. The QTYPE 4 key is a frozen `rank` vector given by the caller, so the pop count that feeds it is not modelled.
- The QTYPE 3 layer labels (push-relabel.cc:341-347, parallel-push-relabel.cc:289-295): the label vector is a parameter (`layer`). The source indexes `num` with `height[u]`, which is INT_MAX for a vertex T cannot reach; that construction is not modelled.
- Graph generation, file reading and writing, timing and `main`: I/O.
- `malloc`/`free`: memory management.
- PushRelabel.Relabel: 32-bit overflow is not modelled. Integers are unbounded, and relabel requires a neighbour with positive residual below INT_MAX (`CanRelabel`), where the source would compute INT_MAX + 1. Discharge reports that case as `Stuck` instead.
- ParallelPushRelabel.Relabel: 32-bit overflow is not modelled either. It requires the same `CanRelabel` as the sequential relabel, so the case where the source computes INT_MAX + 1 is excluded rather than modelled.
- PushRelabel.Discharge: the loop "while excess" is bounded by `fuel`, so termination is not proved. It requires `u` not to be queued, which holds at its only call site, right after a pop.
- PushRelabel.Run: each pop uses fuel, so termination is not proved.
- FordFulkerson.Rounds: each augmentation uses fuel, so termination is not proved.
- PushRelabel.Solve: the ensures state settledness and feasibility, not that the flow is maximum. Maximality is stated through the checker (`FlowCheck.SettledAccepted`), which requires that no S-T path with positive residual remains. The push-relabel loop is not shown to establish that.
- VertexQueue.IncreaseKey: `vertexPtr` is not kept exact. The source moves the last cell to the root on pop without updating its pointer, and sifts up on increase-key without updating pointers. The model makes heap order after increase-key conditional on an exact pointer. In the sequential solver increase-key only runs on a popped vertex, so it never changes the queue.
- The flat `edge` array with stride V: neighbour lists are per-vertex sequences. The source's rows can overflow into the next vertex's row when both u->v and v->u are input edges.
- FlowCheck.Check: the source overwrites the caller's capacity buffer with the working copy. The model returns the verdict only and keeps the working copy local.
- FlowCheck.Reaches: the queue's history is returned as a `log` sequence, which the source does not keep; the source only bounds its queue through the `visit` array.

## Findings

| source | as written | input that shows it | evidently intended | confidence | as-written member | corrected member |
|---|---|---|---|---|---|---|
| push-relabel.cc:366-373 | flow[u][v] = capacity − residual for every listed edge | edges 0->1 and 1->0 of capacity 5, S = 0, T = 1: the settled residual [[0,0],[10,0]] gives flow[1][0] = −5 | a non-negative flow within capacity | high, not executed | Flow.AntiparallelNegative | Flow.ClippedFeasible |
| ford-fulkerson.cc:85-92 | the search follows only listed out-edges, never the reverse (undo) arcs | edges 0->1, 0->2, 1->3, 1->4, 2->3, 3->5, 4->5 of capacity 1, S = 0, T = 5: after augmenting along 0,1,3,5 the search stops at flow 1; the maximum is 2 | search every arc with positive residual | high, not executed | FordFulkerson.ForwardOnlyStops | FordFulkerson.SolveWithReverse |
| graph.cc:89-92 | cell (r, c) is compared against a working copy already credited with the flow of (c, r) | capacity only on 0->1 (1), flow one unit on 0->1 and one on 1->0, S = 0, T = 2: `check` answers SUCCESS | compare each cell with its input capacity | medium, not executed | FlowCheck.CreditAcceptsOverCapacity | FlowCheck.StrictPassesIffFeasible |
| tools/verify.cc:27 | only debits, so the final search ignores undo arcs | the six-vertex graph above with its one-unit flow: `verify` answers SUCCESS on a flow that is not maximum | credit the reverse cell, as `check` does | high, not executed | FlowCheck.UndoArcsIgnored | FlowCheck.SettledAccepted |

=== FILE: base.dfy ===
/** Shared vocabulary of the max-flow solvers: the 32-bit sentinel, `min`,
    square matrices stored as rows, and sums over sequences. */
module Base {

  /** The sentinel the solvers use for an infinite height or excess (INT_MAX of a 32-bit int). */
  const INT_MAX: int := 0x7fff_ffff

  /** The `min` helper shared by every solver. */
  function Min(x: int, y: int): (r: int)
    ensures r <= x && r <= y
    ensures r == x || r == y
  {
    if x < y then x else y
  }

  /** A V×V integer matrix; the source stores it flat in row-major order, here it is a sequence of rows. */
  type Matrix = seq<seq<int>>

  predicate IsSquare(m: Matrix, n: int)
  {
    |m| == n && forall u :: 0 <= u < n ==> |m[u]| == n
  }

  /** No cell of the square matrix is negative. */
  predicate NonNegativeCells(m: Matrix, n: int)
    requires IsSquare(m, n)
  {
    forall u, v :: 0 <= u < n && 0 <= v < n ==> m[u][v] >= 0
  }

  /** The matrix with every cell equal to `x`. */
  function Filled(n: nat, x: int): (m: Matrix)
    ensures IsSquare(m, n)
    ensures forall u, v :: 0 <= u < n && 0 <= v < n ==> m[u][v] == x
  {
    seq(n, _ => seq(n, _ => x))
  }

  /** `m` with cell (u, v) replaced by `x`. */
  function Put(m: Matrix, u: int, v: int, x: int): (r: Matrix)
    requires 0 <= u < |m| && 0 <= v < |m[u]|
    ensures |r| == |m| && forall w :: 0 <= w < |m| ==> |r[w]| == |m[w]|
    ensures r[u][v] == x
    ensures forall a, b :: 0 <= a < |m| && 0 <= b < |m[a]| && (a != u || b != v) ==> r[a][b] == m[a][b]
  {
    m[u := m[u][v := x]]
  }

  /** Sum of a sequence, accumulated from the back. */
  function Sum(s: seq<int>): int
  {
    if |s| == 0 then 0 else Sum(s[..|s| - 1]) + s[|s| - 1]
  }

  lemma {:induction false} SumUpdate(s: seq<int>, i: int, x: int)
    requires 0 <= i < |s|
    ensures Sum(s[i := x]) == Sum(s) - s[i] + x
    decreases |s|
  {
    var t := s[i := x];
    if i == |s| - 1 {
      assert t[..|t| - 1] == s[..|s| - 1];
    } else {
      assert t[..|t| - 1] == s[..|s| - 1][i := x];
      SumUpdate(s[..|s| - 1], i, x);
    }
  }

  /** Moving `d` from cell i to cell j of a sequence leaves its sum unchanged. */
  lemma SumTransfer(s: seq<int>, i: int, j: int, d: int)
    requires 0 <= i < |s| && 0 <= j < |s|
    ensures Sum(s[i := s[i] - d][j := s[i := s[i] - d][j] + d]) == Sum(s)
  {
    SumUpdate(s, i, s[i] - d);
    SumUpdate(s[i := s[i] - d], j, s[i := s[i] - d][j] + d);
  }

  lemma SumSnoc(s: seq<int>, k: int)
    requires 0 <= k < |s|
    ensures Sum(s[..k + 1]) == Sum(s[..k]) + s[k]
  {
    assert s[..k + 1][..k] == s[..k];
  }

  /** Sequences with equal pointwise differences have equal differences of sums. */
  lemma {:induction false} SumPairs(a: seq<int>, b: seq<int>, c: seq<int>, d: seq<int>)
    requires |a| == |b| == |c| == |d|
    requires forall i :: 0 <= i < |a| ==> a[i] - b[i] == c[i] - d[i]
    ensures Sum(a) - Sum(b) == Sum(c) - Sum(d)
    decreases |a|
  {
    if |a| > 0 {
      var k := |a| - 1;
      SumPairs(a[..k], b[..k], c[..k], d[..k]);
    }
  }

  predicate Distinct(s: seq<int>)
  {
    forall i, j :: 0 <= i < j < |s| ==> s[i] != s[j]
  }

  /** A sequence is duplicate-free exactly when no element occurs twice in its multiset. */
  lemma {:induction false} DistinctMultiset(s: seq<int>)
    ensures Distinct(s) <==> forall x :: multiset(s)[x] <= 1
  {
    if |s| > 0 {
      var r := s[1..];
      assert s == [s[0]] + r;
      assert multiset(s) == multiset{s[0]} + multiset(r);
      DistinctMultiset(r);
      if Distinct(s) {
        assert Distinct(r) && s[0] !in r;
        assert multiset(r)[s[0]] == 0;
      } else {
        var i, j :| 0 <= i < j < |s| && s[i] == s[j];
        if i == 0 {
          assert s[j] == r[j - 1];
          assert multiset(r)[s[0]] >= 1;
          assert multiset(s)[s[0]] >= 2;
        } else {
          assert r[i - 1] == r[j - 1];
          assert !Distinct(r);
          var x :| multiset(r)[x] > 1;
          assert multiset(s)[x] > 1;
        }
      }
    }
  }

  /** Every element of `s` is a vertex of a graph with `n` vertices. */
  predicate AllBelow(s: seq<int>, n: int)
  {
    forall i :: 0 <= i < |s| ==> 0 <= s[i] < n
  }

  /** The vertices 0 .. n-1, with exactly n members. */
  function Range(n: nat): (r: set<int>)
    ensures forall x :: x in r <==> 0 <= x < n
    ensures |r| == n
  {
    if n == 0 then {} else Range(n - 1) + {n - 1}
  }

  lemma SubsetCard(a: set<int>, b: set<int>)
    requires a <= b
    ensures |a| <= |b|
  {
    assert b == a + (b - a);
    assert a * (b - a) == {};
  }

  lemma {:induction false} DistinctCard(s: seq<int>)
    requires Distinct(s)
    ensures |set x | x in s| == |s|
  {
    if |s| > 0 {
      var t := s[1..];
      assert (set x | x in s) == (set x | x in t) + {s[0]};
      assert s[0] !in (set x | x in t);
      DistinctCard(t);
    }
  }

  /** The entries of a sequence, as a set. */
  ghost function Elems(s: seq<int>): set<int>
  {
    set x | x in s
  }

  /** A sequence has no more distinct entries than it has entries. */
  lemma {:induction false} ElemsBound(s: seq<int>)
    ensures |Elems(s)| <= |s|
  {
    if |s| > 0 {
      var t := s[1..];
      assert Elems(s) == Elems(t) + {s[0]};
      ElemsBound(t);
    }
  }

  /** A sequence with as many distinct entries as entries has no duplicate. */
  lemma {:induction false} CardDistinct(s: seq<int>)
    requires |Elems(s)| == |s|
    ensures Distinct(s)
  {
    if |s| > 0 {
      var t := s[1..];
      assert Elems(s) == Elems(t) + {s[0]};
      ElemsBound(t);
      if s[0] in Elems(t) {
        assert false;
      }
      CardDistinct(t);
      forall i, j | 0 <= i < j < |s|
        ensures s[i] != s[j]
      {
        assert s[j] == t[j - 1];
        if i > 0 {
          assert s[i] == t[i - 1];
        }
      }
    }
  }

  /** A duplicate-free sequence of vertices below `n` has at most n entries. */
  lemma DistinctBelow(s: seq<int>, n: nat)
    requires Distinct(s) && AllBelow(s, n)
    ensures |s| <= n
  {
    DistinctCard(s);
    var elems := set x | x in s;
    SubsetCard(elems, Range(n));
  }

  /** Pigeonhole: a duplicate-free sequence of vertices below `n` missing some vertex `u` is shorter than `n`. */
  lemma RoomFor(s: seq<int>, n: nat, u: int)
    requires Distinct(s) && AllBelow(s, n)
    requires 0 <= u < n && u !in s
    ensures |s| < n
  {
    var t := s + [u];
    assert Distinct(t);
    DistinctCard(t);
    var elems := set x | x in t;
    SubsetCard(elems, Range(n));
  }
}

=== FILE: flow.dfy ===
/** What a finished run leaves behind, and what the extracted flow matrix is then
    worth: the residual matrix of a finished solver is settled, and the flow
    read off it is a feasible S-T flow when no input edge has an antiparallel
    twin. With antiparallel edges `capacity - residual` can be negative; the
    clipped extraction is feasible on every input. */
module Flow {
  import opened Base
  import opened Network
  import opened Preflow

  /** Every input edge has a non-negative capacity. */
  predicate NonNegCaps(g: Graph)
  {
    forall u, i :: 0 <= u < |g.edge| && 0 <= i < |g.edge[u]| ==> g.edge[u][i].cap >= 0
  }

  /** No two distinct vertices are joined by input edges in both directions. */
  predicate OneWay(g: Graph)
    requires WellFormed(g)
  {
    forall u, v :: 0 <= u < g.V && 0 <= v < g.V && u != v && IsEdge(g, u, v) ==> !IsEdge(g, v, u)
  }

  /** The residual matrix of a finished run: every pair sum at its capacity pair sum,
      no negative residual, and every vertex other than S and T with as much
      residual into it as capacity. */
  predicate Settled(V: int, S: int, T: int, cap: Matrix, res: Matrix)
  {
    && V >= 1 && IsSquare(cap, V) && IsSquare(res, V) && Paired(V, cap, res)
    && NonNegativeCells(res, V)
    && forall v :: 0 <= v < V && v != S && v != T ==> ColSum(cap, V, v) == ColSum(res, V, v)
  }

  /** A flow matrix the checkers accept cell by cell and vertex by vertex: nothing on
      the diagonal, every other cell between 0 and its capacity, and as much into
      every vertex other than S and T as out of it. */
  predicate Feasible(V: int, S: int, T: int, cap: Matrix, flow: Matrix)
  {
    && V >= 1 && IsSquare(cap, V) && IsSquare(flow, V)
    && (forall v :: 0 <= v < V ==> flow[v][v] == 0)
    && (forall u, v :: 0 <= u < V && 0 <= v < V && u != v ==> 0 <= flow[u][v] <= cap[u][v])
    && forall v :: 0 <= v < V && v != S && v != T ==> ColSum(flow, V, v) == Sum(flow[v])
  }

  /** The capacity matrix of an input with non-negative capacities is non-negative,
      and zero off the input edges. */
  lemma CapacityCells(g: Graph, cap: Matrix, u: int, v: int)
    requires WellFormed(g) && CapacityOf(g, cap) && NonNegCaps(g) && 0 <= u < g.V && 0 <= v < g.V
    ensures cap[u][v] >= 0
    ensures !IsEdge(g, u, v) ==> cap[u][v] == 0
  {
    LastCapSource(g.edge[u], v);
  }

  /** With non-negative edge capacities every cell of the capacity matrix is non-negative. */
  lemma CapacitiesNonNeg(g: Graph, cap: Matrix)
    requires WellFormed(g) && CapacityOf(g, cap) && NonNegCaps(g)
    ensures forall u, v :: 0 <= u < g.V && 0 <= v < g.V ==> cap[u][v] >= 0
  {
    forall u, v | 0 <= u < g.V && 0 <= v < g.V
      ensures cap[u][v] >= 0
    {
      CapacityCells(g, cap, u, v);
    }
  }

  /** In the extracted matrix, flow[w][v] - flow[v][w] is the net flow
      capacity - residual of w -> v. */
  lemma PairDifference(g: Graph, cap: Matrix, res: Matrix, flow: Matrix, w: int, v: int)
    requires WellFormed(g) && CapacityOf(g, cap) && NonNegCaps(g) && OneWay(g)
    requires Settled(g.V, g.S, g.T, cap, res)
    requires ExtractedFrom(g, cap, res, Filled(g.V, 0), flow)
    requires 0 <= w < g.V && 0 <= v < g.V
    ensures flow[w][v] - flow[v][w] == cap[w][v] - res[w][v]
  {
    CapacityCells(g, cap, w, v);
    CapacityCells(g, cap, v, w);
    assert res[w][v] + res[v][w] == cap[w][v] + cap[v][w];
  }

  /** A flow matrix whose every pair differs by the net flow capacity - residual
      balances every vertex the settled residual matrix balances. */
  lemma NetConserved(V: int, S: int, T: int, cap: Matrix, res: Matrix, flow: Matrix, v: int)
    requires Settled(V, S, T, cap, res) && IsSquare(flow, V) && 0 <= v < V && v != S && v != T
    requires forall w :: 0 <= w < V ==> flow[w][v] - flow[v][w] == cap[w][v] - res[w][v]
    ensures ColSum(flow, V, v) == Sum(flow[v])
  {
    forall w | 0 <= w < V
      ensures Column(flow, V, v)[w] - flow[v][w] == Column(cap, V, v)[w] - Column(res, V, v)[w]
    {
    }
    SumPairs(Column(flow, V, v), flow[v], Column(cap, V, v), Column(res, V, v));
    assert ColSum(cap, V, v) == ColSum(res, V, v);
  }

  /** The cell bounds of the extracted matrix. */
  lemma ExtractCell(g: Graph, cap: Matrix, res: Matrix, flow: Matrix, u: int, v: int)
    requires WellFormed(g) && CapacityOf(g, cap) && NonNegCaps(g) && OneWay(g)
    requires Settled(g.V, g.S, g.T, cap, res)
    requires ExtractedFrom(g, cap, res, Filled(g.V, 0), flow)
    requires 0 <= u < g.V && 0 <= v < g.V
    ensures u == v ==> flow[u][v] == 0
    ensures u != v ==> 0 <= flow[u][v] <= cap[u][v]
  {
    CapacityCells(g, cap, u, v);
    CapacityCells(g, cap, v, u);
    assert res[u][v] + res[v][u] == cap[u][v] + cap[v][u];
  }

  /** A settled residual matrix of an input without antiparallel edges, read off
      into a zeroed buffer, is a feasible flow. */
  lemma ExtractFeasible(g: Graph, cap: Matrix, res: Matrix, flow: Matrix)
    requires WellFormed(g) && CapacityOf(g, cap) && NonNegCaps(g) && OneWay(g)
    requires Settled(g.V, g.S, g.T, cap, res)
    requires ExtractedFrom(g, cap, res, Filled(g.V, 0), flow)
    ensures Feasible(g.V, g.S, g.T, cap, flow)
  {
    forall u, v | 0 <= u < g.V && 0 <= v < g.V
      ensures u == v ==> flow[u][v] == 0
      ensures u != v ==> 0 <= flow[u][v] <= cap[u][v]
    {
      ExtractCell(g, cap, res, flow, u, v);
    }
    forall v | 0 <= v < g.V && v != g.S && v != g.T
      ensures ColSum(flow, g.V, v) == Sum(flow[v])
    {
      forall w | 0 <= w < g.V
        ensures flow[w][v] - flow[v][w] == cap[w][v] - res[w][v]
      {
        PairDifference(g, cap, res, flow, w, v);
      }
      NetConserved(g.V, g.S, g.T, cap, res, flow, v);
    }
  }

  /** The larger of two integers. */
  function Max(x: int, y: int): (r: int)
    ensures r >= x && r >= y && (r == x || r == y)
  {
    if x >= y then x else y
  }

  /** The extraction with each edge's flow clipped at zero: the backward half of an
      antiparallel pair carries nothing. */
  predicate ClippedFrom(g: Graph, cap: Matrix, res: Matrix, flow0: Matrix, flow: Matrix)
    requires WellFormed(g) && IsSquare(cap, g.V) && IsSquare(res, g.V) && IsSquare(flow0, g.V)
  {
    && IsSquare(flow, g.V)
    && forall u, v :: 0 <= u < g.V && 0 <= v < g.V ==>
      flow[u][v] == (if IsEdge(g, u, v) then Max(0, cap[u][v] - res[u][v]) else flow0[u][v])
  }

  /** The clipped extraction loop. */
  method ExtractClipped(g: Graph, cap: Matrix, res: Matrix, flow0: Matrix) returns (flow: Matrix)
    requires WellFormed(g) && IsSquare(cap, g.V) && IsSquare(res, g.V) && IsSquare(flow0, g.V)
    ensures ClippedFrom(g, cap, res, flow0, flow)
  {
    flow := flow0;
    var u := 0;
    while u < g.V
      invariant 0 <= u <= g.V && IsSquare(flow, g.V)
      invariant forall x, y :: 0 <= x < u && 0 <= y < g.V ==>
        flow[x][y] == (if IsEdge(g, x, y) then Max(0, cap[x][y] - res[x][y]) else flow0[x][y])
      invariant forall x, y :: u <= x < g.V && 0 <= y < g.V ==> flow[x][y] == flow0[x][y]
    {
      var i := 0;
      while i < |g.edge[u]|
        invariant 0 <= i <= |g.edge[u]| && IsSquare(flow, g.V)
        invariant forall x, y :: 0 <= x < u && 0 <= y < g.V ==>
          flow[x][y] == (if IsEdge(g, x, y) then Max(0, cap[x][y] - res[x][y]) else flow0[x][y])
        invariant forall y :: 0 <= y < g.V ==>
          flow[u][y] == (if y in Heads(g.edge[u][..i]) then Max(0, cap[u][y] - res[u][y]) else flow0[u][y])
        invariant forall x, y :: u < x < g.V && 0 <= y < g.V ==> flow[x][y] == flow0[x][y]
      {
        var v := g.edge[u][i].to;
        HeadsPrefix(g.edge[u], i);
        flow := Put(flow, u, v, Max(0, cap[u][v] - res[u][v]));
        i := i + 1;
      }
      assert g.edge[u][..i] == g.edge[u];
      u := u + 1;
    }
  }

  /** The clipped flow pairs up like the net flow: flow[w][v] - flow[v][w] is
      capacity - residual of w -> v, antiparallel edges included. */
  lemma ClippedDifference(g: Graph, cap: Matrix, res: Matrix, flow: Matrix, w: int, v: int)
    requires WellFormed(g) && CapacityOf(g, cap) && NonNegCaps(g)
    requires Settled(g.V, g.S, g.T, cap, res)
    requires ClippedFrom(g, cap, res, Filled(g.V, 0), flow)
    requires 0 <= w < g.V && 0 <= v < g.V
    ensures flow[w][v] - flow[v][w] == cap[w][v] - res[w][v]
  {
    CapacityCells(g, cap, w, v);
    CapacityCells(g, cap, v, w);
    assert res[w][v] + res[v][w] == cap[w][v] + cap[v][w];
  }

  /** The cell bounds of the clipped matrix. */
  lemma ClippedCell(g: Graph, cap: Matrix, res: Matrix, flow: Matrix, u: int, v: int)
    requires WellFormed(g) && CapacityOf(g, cap) && NonNegCaps(g)
    requires Settled(g.V, g.S, g.T, cap, res)
    requires ClippedFrom(g, cap, res, Filled(g.V, 0), flow)
    requires 0 <= u < g.V && 0 <= v < g.V
    ensures u == v ==> flow[u][v] == 0
    ensures u != v ==> 0 <= flow[u][v] <= cap[u][v]
  {
    CapacityCells(g, cap, u, v);
    CapacityCells(g, cap, v, u);
    assert res[u][v] + res[v][u] == cap[u][v] + cap[v][u];
  }

  /** A settled residual matrix read off with clipping is a feasible flow on every
      input with non-negative capacities. */
  lemma ClippedFeasible(g: Graph, cap: Matrix, res: Matrix, flow: Matrix)
    requires WellFormed(g) && CapacityOf(g, cap) && NonNegCaps(g)
    requires Settled(g.V, g.S, g.T, cap, res)
    requires ClippedFrom(g, cap, res, Filled(g.V, 0), flow)
    ensures Feasible(g.V, g.S, g.T, cap, flow)
  {
    forall u, v | 0 <= u < g.V && 0 <= v < g.V
      ensures u == v ==> flow[u][v] == 0
      ensures u != v ==> 0 <= flow[u][v] <= cap[u][v]
    {
      ClippedCell(g, cap, res, flow, u, v);
    }
    forall v | 0 <= v < g.V && v != g.S && v != g.T
      ensures ColSum(flow, g.V, v) == Sum(flow[v])
    {
      forall w | 0 <= w < g.V
        ensures flow[w][v] - flow[v][w] == cap[w][v] - res[w][v]
      {
        ClippedDifference(g, cap, res, flow, w, v);
      }
      NetConserved(g.V, g.S, g.T, cap, res, flow, v);
    }
  }

  /** Two vertices joined by edges of capacity 5 both ways, S = 0, T = 1. The
      sequential solver floods 0 -> 1 and finishes with residual[0][1] = 0 and
      residual[1][0] = 10, a settled matrix; reading it off as written gives
      flow[1][0] = 5 - 10 = -5, which no checker accepts. */
  lemma AntiparallelNegative()
    ensures var g := Graph(2, 0, 1, [[Arc(1, 5)], [Arc(0, 5)]]);
      var cap := [[0, 5], [5, 0]];
      var res := [[0, 0], [10, 0]];
      && WellFormed(g) && NonNegCaps(g) && CapacityOf(g, cap) && Settled(2, 0, 1, cap, res)
      && forall flow :: ExtractedFrom(g, cap, res, Filled(2, 0), flow) ==>
           flow[1][0] == -5 && !Feasible(2, 0, 1, cap, flow)
  {
    AntiparallelInput();
    AntiparallelSettled();
    var g := Graph(2, 0, 1, [[Arc(1, 5)], [Arc(0, 5)]]);
    forall flow | ExtractedFrom(g, [[0, 5], [5, 0]], [[0, 0], [10, 0]], Filled(2, 0), flow)
      ensures flow[1][0] == -5 && !Feasible(2, 0, 1, [[0, 5], [5, 0]], flow)
    {
      AntiparallelRead(flow);
    }
  }

  lemma AntiparallelSettled()
    ensures Settled(2, 0, 1, [[0, 5], [5, 0]], [[0, 0], [10, 0]])
  {
    var cap: Matrix, res: Matrix := [[0, 5], [5, 0]], [[0, 0], [10, 0]];
    assert IsSquare(cap, 2) && IsSquare(res, 2);
    assert Paired(2, cap, res);
    assert NonNegativeCells(res, 2);
  }

  lemma AntiparallelRead(flow: Matrix)
    requires var g := Graph(2, 0, 1, [[Arc(1, 5)], [Arc(0, 5)]]);
      WellFormed(g) && IsEdge(g, 1, 0) && ExtractedFrom(g, [[0, 5], [5, 0]], [[0, 0], [10, 0]], Filled(2, 0), flow)
    ensures flow[1][0] == -5 && !Feasible(2, 0, 1, [[0, 5], [5, 0]], flow)
  {
  }

  /** The two-vertex input with edges both ways and its capacity matrix. */
  lemma AntiparallelInput()
    ensures var g := Graph(2, 0, 1, [[Arc(1, 5)], [Arc(0, 5)]]);
      && WellFormed(g) && NonNegCaps(g) && CapacityOf(g, [[0, 5], [5, 0]]) && IsEdge(g, 1, 0)
  {
    var g := Graph(2, 0, 1, [[Arc(1, 5)], [Arc(0, 5)]]);
    var cap := [[0, 5], [5, 0]];
    assert Heads(g.edge[0]) == [1] && Heads(g.edge[1]) == [0];
    assert IsEdge(g, 1, 0) && IsEdge(g, 0, 1) && !IsEdge(g, 0, 0) && !IsEdge(g, 1, 1);
    assert LastCap(g.edge[0], 1) == 5 && LastCap(g.edge[1], 0) == 5;
    assert LastCap(g.edge[0], 0) == 0 && LastCap(g.edge[1], 1) == 0;
    assert CapacityOf(g, cap);
  }
}

=== FILE: flow_check.dfy ===
/** The flow checkers: `check` of graph.cc and `verify` of tools/verify.cc. Both
    scan the flow matrix cell by cell in row-major order against a working copy
    of the capacity matrix, stop at the first bad cell, then test conservation at
    every vertex other than S and T, then search the leftover capacities for an
    S-T path. `check` also credits each scanned flow to the reverse cell of its
    working copy, so later cells are compared against a raised bound; `verify`
    only debits. */
module FlowCheck {
  import opened Base
  import opened Reach
  import opened Network
  import opened Preflow
  import Flow
  import FordFulkerson

  /** The verdicts, in the order the checkers test for them. */
  datatype Outcome = Success | SelfCycle | NegativeFlow | CapacityExceed | NetflowNonzero | ReachedTarget

  /** graph.cc `check`; tools/verify.cc `verify`; and `check` with each cell
      compared against its input capacity. */
  datatype Variant = GraphCheck | ToolVerify | GraphCheckFixed

  /** The variant adds each scanned flow to the reverse cell of its working copy. */
  predicate Credits(k: Variant)
  {
    k != ToolVerify
  }

  /** In a row-major scan standing at cell (r, c), cell (x, y) is already scanned. */
  predicate Scanned(x: int, y: int, r: int, c: int)
  {
    x < r || (x == r && y < c)
  }

  /** The working-copy cell (x, y) once the cells before (r, c) are scanned: its
      capacity, less its own flow once scanned, plus the reverse flow once that is
      scanned when the variant credits. */
  function BufferCell(V: int, cap: Matrix, flow: Matrix, k: Variant, x: int, y: int, r: int, c: int): int
    requires IsSquare(cap, V) && IsSquare(flow, V) && 0 <= x < V && 0 <= y < V
  {
    cap[x][y] - (if x != y && Scanned(x, y, r, c) then flow[x][y] else 0)
      + (if Credits(k) && x != y && Scanned(y, x, r, c) then flow[y][x] else 0)
  }

  /** The working copy after the whole scan. */
  function Leftover(V: int, cap: Matrix, flow: Matrix, k: Variant): (m: Matrix)
    requires IsSquare(cap, V) && IsSquare(flow, V)
    ensures IsSquare(m, V)
    ensures forall x, y :: 0 <= x < V && 0 <= y < V ==>
      m[x][y] == cap[x][y] - (if x != y then flow[x][y] else 0) + (if Credits(k) && x != y then flow[y][x] else 0)
  {
    seq(V, x requires 0 <= x < V => seq(V, y requires 0 <= y < V => BufferCell(V, cap, flow, k, x, y, V, 0)))
  }

  /** The bound an off-diagonal cell (r, c) is compared against. `check` has by then
      credited the flow of (c, r) when that cell lies in an earlier row; `verify`
      and the corrected check use the input capacity. */
  function Allowance(V: int, cap: Matrix, flow: Matrix, k: Variant, r: int, c: int): int
    requires IsSquare(cap, V) && IsSquare(flow, V) && 0 <= r < V && 0 <= c < V
  {
    cap[r][c] + (if k == GraphCheck && c < r then flow[c][r] else 0)
  }

  /** The per-cell test: nothing on the diagonal, otherwise between 0 and the allowance. */
  predicate CellOk(V: int, cap: Matrix, flow: Matrix, k: Variant, r: int, c: int)
    requires IsSquare(cap, V) && IsSquare(flow, V) && 0 <= r < V && 0 <= c < V
  {
    if r == c then flow[r][c] == 0 else 0 <= flow[r][c] <= Allowance(V, cap, flow, k, r, c)
  }

  /** The verdict of a cell that fails its test. */
  function Verdict(V: int, flow: Matrix, r: int, c: int): Outcome
    requires IsSquare(flow, V) && 0 <= r < V && 0 <= c < V
  {
    if r == c then SelfCycle else if flow[r][c] < 0 then NegativeFlow else CapacityExceed
  }

  /** Every cell before (r, c) in row-major order passes its test. */
  predicate OkBefore(V: int, cap: Matrix, flow: Matrix, k: Variant, r: int, c: int)
    requires IsSquare(cap, V) && IsSquare(flow, V)
  {
    forall x, y :: 0 <= x < V && 0 <= y < V && Scanned(x, y, r, c) ==> CellOk(V, cap, flow, k, x, y)
  }

  predicate CellsOk(V: int, cap: Matrix, flow: Matrix, k: Variant)
    requires IsSquare(cap, V) && IsSquare(flow, V)
  {
    OkBefore(V, cap, flow, k, V, 0)
  }

  /** (r, c) is the first cell in row-major order that fails its test. */
  predicate FirstBad(V: int, cap: Matrix, flow: Matrix, k: Variant, r: int, c: int)
  {
    IsSquare(cap, V) && IsSquare(flow, V) && 0 <= r < V && 0 <= c < V && !CellOk(V, cap, flow, k, r, c) && OkBefore(V, cap, flow, k, r, c)
  }

  /** Every vertex other than S and T has as much flow in as out. */
  predicate Conserves(V: int, S: int, T: int, flow: Matrix)
    requires IsSquare(flow, V)
  {
    forall v :: 0 <= v < V && v != S && v != T ==> ColSum(flow, V, v) == Sum(flow[v])
  }

  /** `sum[v]` once the cells before (r, c) are scanned: the flow into v over the
      scanned cells less the flow out of v over them. */
  function Partial(V: int, flow: Matrix, r: int, c: int, v: int): int
    requires IsSquare(flow, V) && 0 <= r <= V && 0 <= c <= V && 0 <= v < V
  {
    Sum(Column(flow, V, v)[..r]) + (if r < V && v < c then flow[r][v] else 0)
      - (if v < r then Sum(flow[v]) else if v == r then Sum(flow[r][..c]) else 0)
  }

  /** The working copy reflects exactly the cells before (r, c). */
  predicate BufferAt(V: int, cap: Matrix, flow: Matrix, k: Variant, buf: Matrix, r: int, c: int)
    requires IsSquare(cap, V) && IsSquare(flow, V)
  {
    IsSquare(buf, V) && forall x, y :: 0 <= x < V && 0 <= y < V ==> buf[x][y] == BufferCell(V, cap, flow, k, x, y, r, c)
  }

  /** The sums reflect exactly the cells before (r, c). */
  predicate SumsAt(V: int, flow: Matrix, sum: seq<int>, r: int, c: int)
    requires IsSquare(flow, V) && 0 <= r <= V && 0 <= c <= V
  {
    |sum| == V && forall v :: 0 <= v < V ==> sum[v] == Partial(V, flow, r, c, v)
  }

  /** The state of the scan at cell (r, c): every earlier cell passed, the working
      copy and the sums reflect exactly the scanned cells. */
  predicate Scanning(V: int, cap: Matrix, flow: Matrix, k: Variant, buf: Matrix, sum: seq<int>, r: int, c: int)
    requires IsSquare(cap, V) && IsSquare(flow, V) && 0 <= r <= V && 0 <= c <= V
  {
    OkBefore(V, cap, flow, k, r, c) && BufferAt(V, cap, flow, k, buf, r, c) && SumsAt(V, flow, sum, r, c)
  }

  /** The end of row r is the start of row r + 1. */
  lemma RowDone(V: int, cap: Matrix, flow: Matrix, k: Variant, buf: Matrix, sum: seq<int>, r: int)
    requires IsSquare(cap, V) && IsSquare(flow, V) && 0 <= r < V
    requires Scanning(V, cap, flow, k, buf, sum, r, V)
    ensures Scanning(V, cap, flow, k, buf, sum, r + 1, 0)
  {
    forall v | 0 <= v < V
      ensures Partial(V, flow, r, V, v) == Partial(V, flow, r + 1, 0, v)
    {
      SumSnoc(Column(flow, V, v), r);
      assert flow[r][..V] == flow[r];
    }
  }

  /** The working copy after scanning cell (r, c) with flow f: an off-diagonal cell
      is debited, and (c, r) is credited when the variant credits. */
  function Debit(buf: Matrix, k: Variant, r: int, c: int, f: int): (b: Matrix)
    requires 0 <= r < |buf| && 0 <= c < |buf| && |buf[r]| == |buf[c]| == |buf|
    ensures |b| == |buf| && forall w :: 0 <= w < |buf| ==> |b[w]| == |buf[w]|
  {
    if r == c then buf
    else
      var b := Put(buf, r, c, buf[r][c] - f);
      if Credits(k) then Put(b, c, r, b[c][r] + f) else b
  }

  lemma BufferStep(V: int, cap: Matrix, flow: Matrix, k: Variant, buf: Matrix, r: int, c: int)
    requires IsSquare(cap, V) && IsSquare(flow, V) && 0 <= r < V && 0 <= c < V
    requires BufferAt(V, cap, flow, k, buf, r, c)
    ensures BufferAt(V, cap, flow, k, Debit(buf, k, r, c, flow[r][c]), r, c + 1)
  {
  }

  /** Scanning cell (r, c) moves its flow out of r's sum into c's. */
  lemma SumsStep(V: int, flow: Matrix, sum: seq<int>, r: int, c: int)
    requires IsSquare(flow, V) && 0 <= r < V && 0 <= c < V
    requires SumsAt(V, flow, sum, r, c)
    ensures var s := sum[r := sum[r] - flow[r][c]]; SumsAt(V, flow, s[c := s[c] + flow[r][c]], r, c + 1)
  {
    SumSnoc(flow[r], c);
  }

  /** The scan of one cell that passes its test. */
  method Cell(V: int, cap: Matrix, flow: Matrix, k: Variant, buf: Matrix, sum: seq<int>, r: int, c: int)
    returns (buf': Matrix, sum': seq<int>)
    requires IsSquare(cap, V) && IsSquare(flow, V) && 0 <= r < V && 0 <= c < V
    requires Scanning(V, cap, flow, k, buf, sum, r, c) && CellOk(V, cap, flow, k, r, c)
    ensures OkBefore(V, cap, flow, k, r, c + 1)
    ensures BufferAt(V, cap, flow, k, buf', r, c + 1)
    ensures SumsAt(V, flow, sum', r, c + 1)
  {
    var f := flow[r][c];
    BufferStep(V, cap, flow, k, buf, r, c);
    buf' := Debit(buf, k, r, c, f);
    SumsStep(V, flow, sum, r, c);
    var s := sum[r := sum[r] - f];
    sum' := s[c := s[c] + f];
    OkStep(V, cap, flow, k, r, c);
  }

  lemma OkStep(V: int, cap: Matrix, flow: Matrix, k: Variant, r: int, c: int)
    requires IsSquare(cap, V) && IsSquare(flow, V) && 0 <= r < V && 0 <= c < V
    requires OkBefore(V, cap, flow, k, r, c) && CellOk(V, cap, flow, k, r, c)
    ensures OkBefore(V, cap, flow, k, r, c + 1)
  {
  }

  /** The scan of row r: the first cell that fails its test ends the scan with its
      verdict; `check` and `verify` compare against the working copy, the
      corrected check against the input capacity. */
  method ScanRow(V: int, cap: Matrix, flow: Matrix, k: Variant, buf: Matrix, sum: seq<int>, r: int)
    returns (bad: bool, out: Outcome, buf': Matrix, sum': seq<int>, ghost c0: int)
    requires IsSquare(cap, V) && IsSquare(flow, V) && 0 <= r < V
    requires Scanning(V, cap, flow, k, buf, sum, r, 0)
    ensures bad ==> FirstBad(V, cap, flow, k, r, c0) && out == Verdict(V, flow, r, c0)
    ensures !bad ==> Scanning(V, cap, flow, k, buf', sum', r + 1, 0)
  {
    buf', sum' := buf, sum;
    var c := 0;
    while c < V
      invariant 0 <= c <= V && Scanning(V, cap, flow, k, buf', sum', r, c)
    {
      var f := flow[r][c];
      var limit := if k == GraphCheckFixed then cap[r][c] else buf'[r][c];
      if r == c && f != 0 {
        return true, SelfCycle, buf', sum', c;
      } else if r != c && f < 0 {
        return true, NegativeFlow, buf', sum', c;
      } else if r != c && f > limit {
        return true, CapacityExceed, buf', sum', c;
      }
      buf', sum' := Cell(V, cap, flow, k, buf', sum', r, c);
      c := c + 1;
    }
    RowDone(V, cap, flow, k, buf', sum', r);
    bad, out, c0 := false, Success, 0;
  }

  /** The cell scan: either the verdict of the first bad cell, or the leftover
      working copy with sum[v] = inflow - outflow of every v. */
  method ScanCells(V: int, cap: Matrix, flow: Matrix, k: Variant)
    returns (bad: bool, out: Outcome, buf: Matrix, sum: seq<int>, ghost r0: int, ghost c0: int)
    requires IsSquare(cap, V) && IsSquare(flow, V)
    ensures bad <==> !CellsOk(V, cap, flow, k)
    ensures bad ==> FirstBad(V, cap, flow, k, r0, c0) && out == Verdict(V, flow, r0, c0)
    ensures !bad ==> buf == Leftover(V, cap, flow, k)
    ensures !bad ==> NetSums(V, flow, sum)
  {
    buf, sum := cap, seq(V, _ => 0);
    var r := 0;
    while r < V
      invariant 0 <= r <= V && Scanning(V, cap, flow, k, buf, sum, r, 0)
    {
      bad, out, buf, sum, c0 := ScanRow(V, cap, flow, k, buf, sum, r);
      if bad {
        assert !CellOk(V, cap, flow, k, r, c0);
        r0 := r;
        return;
      }
      r := r + 1;
    }
    bad, out, r0, c0 := false, Success, 0, 0;
    ScanEnd(V, cap, flow, k, buf, sum);
  }

  /** At the end of the scan the working copy is the leftover matrix and each sum
      is the vertex's inflow less its outflow. */
  lemma ScanEnd(V: int, cap: Matrix, flow: Matrix, k: Variant, buf: Matrix, sum: seq<int>)
    requires IsSquare(cap, V) && IsSquare(flow, V) && Scanning(V, cap, flow, k, buf, sum, V, 0)
    ensures buf == Leftover(V, cap, flow, k)
    ensures NetSums(V, flow, sum)
  {
    forall v | 0 <= v < V
      ensures sum[v] == ColSum(flow, V, v) - Sum(flow[v])
    {
      assert Column(flow, V, v)[..V] == Column(flow, V, v);
    }
    var m := Leftover(V, cap, flow, k);
    forall x | 0 <= x < V
      ensures buf[x] == m[x]
    {
      assert forall y :: 0 <= y < V ==> buf[x][y] == m[x][y];
    }
  }

  /** Each sum is the vertex's inflow less its outflow. */
  predicate NetSums(V: int, flow: Matrix, sum: seq<int>)
    requires IsSquare(flow, V)
  {
    |sum| == V && forall v :: 0 <= v < V ==> sum[v] == ColSum(flow, V, v) - Sum(flow[v])
  }

  /** Every vertex other than S and T has a zero sum. */
  predicate ZeroInside(V: int, S: int, T: int, sum: seq<int>)
    requires |sum| == V
  {
    forall v :: 0 <= v < V && v != S && v != T ==> sum[v] == 0
  }

  lemma ZeroSumsConserve(V: int, S: int, T: int, flow: Matrix, sum: seq<int>)
    requires IsSquare(flow, V) && NetSums(V, flow, sum) && ZeroInside(V, S, T, sum)
    ensures Conserves(V, S, T, flow)
  {
  }

  lemma ConserveZeroSums(V: int, S: int, T: int, flow: Matrix, sum: seq<int>)
    requires IsSquare(flow, V) && NetSums(V, flow, sum) && Conserves(V, S, T, flow)
    ensures ZeroInside(V, S, T, sum)
  {
  }

  /** The conservation pass: fails at a vertex other than S and T with a nonzero sum. */
  method NetCheck(V: int, S: int, T: int, sum: seq<int>) returns (ok: bool)
    requires |sum| == V
    ensures ok <==> ZeroInside(V, S, T, sum)
  {
    var i := 0;
    while i < V
      invariant 0 <= i <= V
      invariant forall v :: 0 <= v < i && v != S && v != T ==> sum[v] == 0
    {
      if i != S && i != T && sum[i] != 0 {
        return false;
      }
      i := i + 1;
    }
    return true;
  }

  /** The invariant of the final search: the visited set `seen`, all reachable from
      S; the queue of visited vertices; the scanned vertices `done`, whose positive
      cells all lead to visited vertices; and T not yet visited. */
  ghost predicate Searching(V: int, S: int, T: int, buf: Matrix, visit: seq<bool>,
                            queue: seq<int>, seen: set<int>, done: set<int>, cur: int)
  {
    && IsSquare(buf, V) && |visit| == V && 0 <= S < V && 0 <= T < V && visit[S]
    && (forall v :: v in seen <==> 0 <= v < V && visit[v])
    && (forall v :: 0 <= v < V && visit[v] ==> Reachable(PositiveArc(buf), S, v))
    && (forall j :: 0 <= j < |queue| ==> 0 <= queue[j] < V && visit[queue[j]])
    && (forall v :: 0 <= v < V && visit[v] ==> v in done || v in queue || v == cur)
    && (forall w, v :: w in done && Positive(buf, w, v) ==> visit[v])
    && (S != T ==> !visit[T])
  }

  /** The state of the scan of u after the vertices below v. */
  ghost predicate Expanding(V: int, S: int, T: int, buf: Matrix, visit: seq<bool>, queue: seq<int>,
                            seen: set<int>, done: set<int>, u: int, v: int, seen0: set<int>, queue0: seq<int>)
  {
    && 0 <= u < V && 0 <= v <= V && Searching(V, S, T, buf, visit, queue, seen, done, u) && visit[u]
    && seen0 <= seen <= Range(V) && |seen| - |seen0| == |queue| - |queue0|
    && forall x :: 0 <= x < v && buf[u][x] > 0 ==> visit[x]
  }

  /** `log` lists the visited vertices, each once: it has as many entries as there
      are visited vertices. */
  ghost predicate Logged(log: seq<int>, seen: set<int>)
  {
    seen == Elems(log) && |log| == |seen|
  }

  /** `log` lists, each once, vertices below V that S reaches through positive cells. */
  ghost predicate Explored(V: int, S: int, buf: Matrix, log: seq<int>)
  {
    && Distinct(log) && AllBelow(log, V)
    && forall j :: 0 <= j < |log| ==> Reachable(PositiveArc(buf), S, log[j])
  }

  /** Vertex v of the scan of u: visited and queued when unvisited with a positive
      cell buf[u][v]; `reached` when that vertex is T. `log` records every vertex
      put on the queue, T included. */
  method Visit(V: int, S: int, T: int, buf: Matrix, visit: seq<bool>, queue: seq<int>, log: seq<int>,
               ghost seen: set<int>, ghost done: set<int>, u: int, v: int, ghost seen0: set<int>, ghost queue0: seq<int>)
    returns (visit': seq<bool>, queue': seq<int>, log': seq<int>, ghost seen': set<int>, reached: bool)
    requires v < V && Expanding(V, S, T, buf, visit, queue, seen, done, u, v, seen0, queue0) && Logged(log, seen)
    ensures |log'| >= |log| && (|log| >= 1 ==> log'[0] == log[0])
    ensures reached ==> S != T && Reachable(PositiveArc(buf), S, T)
    ensures reached ==> Explored(V, S, buf, log') && log'[|log'| - 1] == T
    ensures !reached ==> Expanding(V, S, T, buf, visit', queue', seen', done, u, v + 1, seen0, queue0)
    ensures !reached ==> Logged(log', seen')
  {
    visit', queue', log', seen', reached := visit, queue, log, seen, false;
    if !visit[v] && buf[u][v] > 0 {
      assert PositiveArc(buf)(u, v);
      ReachStep(PositiveArc(buf), S, u, v);
      log' := log + [v];
      if v == T {
        ReachedLogged(V, S, buf, visit, seen, log, v);
        return visit, queue, log', seen, true;
      }
      visit' := visit[v := true];
      queue' := queue + [v];
      seen' := seen + {v};
      NewLogged(log, seen, v);
    }
  }

  /** Appending a vertex not yet visited keeps the log exact. */
  lemma NewLogged(log: seq<int>, seen: set<int>, v: int)
    requires Logged(log, seen) && v !in seen
    ensures Logged(log + [v], seen + {v})
  {
    assert Elems(log + [v]) == Elems(log) + {v};
  }

  /** A log of visited vertices, all reachable from S, extended by an unvisited
      vertex reachable from S, lists reachable vertices each once. */
  lemma ReachedLogged(V: int, S: int, buf: Matrix, visit: seq<bool>, seen: set<int>, log: seq<int>, v: int)
    requires |visit| == V && Logged(log, seen) && (forall x :: x in seen <==> 0 <= x < V && visit[x])
    requires forall x :: 0 <= x < V && visit[x] ==> Reachable(PositiveArc(buf), S, x)
    requires 0 <= v < V && !visit[v] && Reachable(PositiveArc(buf), S, v)
    ensures Explored(V, S, buf, log + [v])
  {
    NewLogged(log, seen, v);
    CardDistinct(log + [v]);
    var l := log + [v];
    forall j | 0 <= j < |l|
      ensures 0 <= l[j] < V && Reachable(PositiveArc(buf), S, l[j])
    {
      if j < |log| {
        assert log[j] in seen;
      }
    }
  }

  /** The scan of one dequeued vertex u over every vertex v: an unvisited v with a
      positive cell buf[u][v] is visited and queued; visiting T ends the search. */
  method Expand(V: int, S: int, T: int, buf: Matrix, visit: seq<bool>, queue: seq<int>, log: seq<int>,
                ghost seen: set<int>, ghost done: set<int>, u: int)
    returns (visit': seq<bool>, queue': seq<int>, log': seq<int>, ghost seen': set<int>, reached: bool)
    requires 0 <= u < V && Searching(V, S, T, buf, visit, queue, seen, done, u) && visit[u] && seen <= Range(V)
    requires Logged(log, seen)
    ensures |log'| >= |log| && (|log| >= 1 ==> log'[0] == log[0])
    ensures reached ==> S != T && Reachable(PositiveArc(buf), S, T)
    ensures reached ==> Explored(V, S, buf, log') && log'[|log'| - 1] == T
    ensures !reached ==> Searching(V, S, T, buf, visit', queue', seen', done + {u}, -1)
    ensures !reached ==> seen <= seen' <= Range(V) && |seen'| - |seen| == |queue'| - |queue|
    ensures !reached ==> Logged(log', seen')
  {
    visit', queue', log', seen', reached := visit, queue, log, seen, false;
    var v := 0;
    while v < V
      invariant Expanding(V, S, T, buf, visit', queue', seen', done, u, v, seen, queue)
      invariant Logged(log', seen') && |log'| >= |log| && (|log| >= 1 ==> log'[0] == log[0])
    {
      visit', queue', log', seen', reached := Visit(V, S, T, buf, visit', queue', log', seen', done, u, v, seen, queue);
      if reached {
        return;
      }
      v := v + 1;
    }
    ExpandDone(V, S, T, buf, visit', queue', seen', done, u, seen, queue);
  }

  lemma ExpandDone(V: int, S: int, T: int, buf: Matrix, visit: seq<bool>, queue: seq<int>,
                   seen: set<int>, done: set<int>, u: int, seen0: set<int>, queue0: seq<int>)
    requires Expanding(V, S, T, buf, visit, queue, seen, done, u, V, seen0, queue0)
    ensures Searching(V, S, T, buf, visit, queue, seen, done + {u}, -1)
  {
  }

  /** The invariant of the final search between scans, with the log of queued
      vertices: S first, each visited vertex once. */
  ghost predicate Frontier(V: int, S: int, T: int, buf: Matrix, visit: seq<bool>, queue: seq<int>,
                           log: seq<int>, seen: set<int>, done: set<int>)
  {
    && Searching(V, S, T, buf, visit, queue, seen, done, -1) && seen <= Range(V)
    && Logged(log, seen) && |log| >= 1 && log[0] == S
  }

  /** One pass of the search loop: pop the front vertex and scan it. Either T is
      reached, with the log ending in T, or the invariant holds again with the
      queue grown by exactly the newly visited vertices. */
  method Step(V: int, S: int, T: int, buf: Matrix, visit: seq<bool>, queue: seq<int>, log: seq<int>,
              ghost seen: set<int>, ghost done: set<int>)
    returns (visit': seq<bool>, queue': seq<int>, log': seq<int>, ghost seen': set<int>, ghost done': set<int>, reached: bool)
    requires Frontier(V, S, T, buf, visit, queue, log, seen, done) && |queue| > 0
    ensures reached ==> S != T && Reachable(PositiveArc(buf), S, T)
    ensures reached ==> Explored(V, S, buf, log') && 1 <= |log'| <= V && log'[0] == S && log'[|log'| - 1] == T
    ensures !reached ==> Frontier(V, S, T, buf, visit', queue', log', seen', done')
    ensures !reached ==> seen <= seen' && |seen'| - |seen| == |queue'| - |queue| + 1
  {
    Popped(V, S, T, buf, visit, queue, seen, done);
    var u := queue[0];
    visit', queue', log', seen', reached := Expand(V, S, T, buf, visit, queue[1..], log, seen, done, u);
    done' := done + {u};
    if reached {
      DistinctBelow(log', V);
    }
  }

  /** The loop of the final search, from S alone on the queue until the queue
      empties or T is visited. */
  method Search(V: int, S: int, T: int, buf: Matrix)
    returns (reached: bool, log: seq<int>, ghost visit: seq<bool>, ghost seen: set<int>, ghost done: set<int>)
    requires IsSquare(buf, V) && 0 <= S < V && 0 <= T < V
    ensures reached ==> S != T && Reachable(PositiveArc(buf), S, T)
    ensures reached ==> Explored(V, S, buf, log) && 1 <= |log| <= V && log[0] == S && log[|log| - 1] == T
    ensures !reached ==> Frontier(V, S, T, buf, visit, [], log, seen, done)
  {
    var visit' := seq(V, _ => false)[S := true];
    var queue := [S];
    log := [S];
    seen, done := {S}, {};
    SearchStart(V, S, T, buf);
    while |queue| > 0
      invariant Frontier(V, S, T, buf, visit', queue, log, seen, done)
      decreases V - |seen|, |queue|
    {
      ghost var seen0 := seen;
      visit', queue, log, seen, done, reached := Step(V, S, T, buf, visit', queue, log, seen, done);
      if reached {
        visit := visit';
        return;
      }
      SubsetCard(seen0, seen);
      SubsetCard(seen, Range(V));
    }
    assert queue == [];
    reached, visit := false, visit';
  }

  /** The search starts from S alone: visited, queued and logged. */
  lemma SearchStart(V: int, S: int, T: int, buf: Matrix)
    requires IsSquare(buf, V) && 0 <= S < V && 0 <= T < V
    ensures Frontier(V, S, T, buf, seq(V, _ => false)[S := true], [S], [S], {S}, {})
  {
    ReachSelf(PositiveArc(buf), S);
    assert Elems([S]) == {S};
  }

  /** The final search from S over positive cells of the working copy; visiting T
      reports REACHED_TARGET. `log` lists the vertices in the order they were put
      on the queue: S first, none twice, so at most V of them, each reachable from
      S, ending with T when T is reached and holding every vertex S reaches when
      it is not. */
  method Reaches(V: int, S: int, T: int, buf: Matrix) returns (reached: bool, log: seq<int>)
    requires IsSquare(buf, V) && 0 <= S < V && 0 <= T < V
    ensures reached <==> S != T && Reachable(PositiveArc(buf), S, T)
    ensures 1 <= |log| <= V && log[0] == S
    ensures Distinct(log) && AllBelow(log, V)
    ensures forall j :: 0 <= j < |log| ==> Reachable(PositiveArc(buf), S, log[j])
    ensures reached ==> log[|log| - 1] == T
    ensures !reached ==> forall v :: 0 <= v < V && Reachable(PositiveArc(buf), S, v) ==> v in log
  {
    ghost var visit, seen, done;
    reached, log, visit, seen, done := Search(V, S, T, buf);
    if !reached {
      SearchDone(V, S, T, buf, visit, seen, done, log);
    }
  }

  /** Taking the front of the queue makes it the vertex being scanned. */
  lemma Popped(V: int, S: int, T: int, buf: Matrix, visit: seq<bool>, queue: seq<int>, seen: set<int>, done: set<int>)
    requires Searching(V, S, T, buf, visit, queue, seen, done, -1) && |queue| > 0
    ensures Searching(V, S, T, buf, visit, queue[1..], seen, done, queue[0]) && visit[queue[0]]
  {
    forall v | 0 <= v < V && visit[v]
      ensures v in done || v in queue[1..] || v == queue[0]
    {
      if v in queue && v != queue[0] {
        var j :| 0 <= j < |queue| && queue[j] == v;
        assert queue[1..][j - 1] == v;
      }
    }
  }

  /** With the queue empty, the log lists exactly the vertices S reaches, and T is
      not among them unless it is S. */
  lemma SearchDone(V: int, S: int, T: int, buf: Matrix, visit: seq<bool>, seen: set<int>, done: set<int>, log: seq<int>)
    requires Searching(V, S, T, buf, visit, [], seen, done, -1) && Logged(log, seen)
    ensures Explored(V, S, buf, log) && |log| <= V
    ensures forall v :: 0 <= v < V && Reachable(PositiveArc(buf), S, v) ==> v in log
    ensures !(S != T && Reachable(PositiveArc(buf), S, T))
  {
    forall j | 0 <= j < |log|
      ensures 0 <= log[j] < V && Reachable(PositiveArc(buf), S, log[j])
    {
      assert log[j] in seen;
    }
    CardDistinct(log);
    DistinctBelow(log, V);
    var m := set v | 0 <= v < V && visit[v];
    assert Closed(PositiveArc(buf), m);
    forall v | 0 <= v < V && Reachable(PositiveArc(buf), S, v)
      ensures v in log
    {
      if v !in m {
        ClosedBlocks(PositiveArc(buf), m, S, v);
      }
    }
    if S != T {
      ClosedBlocks(PositiveArc(buf), m, S, T);
    }
  }

  /** The checker answers SUCCESS: every cell and vertex passes and the leftover
      matrix has no S-T path. */
  ghost predicate Accepts(V: int, S: int, T: int, cap: Matrix, flow: Matrix, k: Variant)
  {
    IsSquare(cap, V) && IsSquare(flow, V) && CellsOk(V, cap, flow, k) && Conserves(V, S, T, flow) && !(S != T && Reachable(PositiveArc(Leftover(V, cap, flow, k)), S, T))
  }

  /** The checker answers REACHED_TARGET: every cell and vertex passes but the
      leftover matrix still has an S-T path. */
  ghost predicate Unsaturated(V: int, S: int, T: int, cap: Matrix, flow: Matrix, k: Variant)
  {
    IsSquare(cap, V) && IsSquare(flow, V) && CellsOk(V, cap, flow, k) && Conserves(V, S, T, flow) && S != T && Reachable(PositiveArc(Leftover(V, cap, flow, k)), S, T)
  }

  /** `check` / `verify`: the verdict of the first bad cell; else NETFLOW_NONZERO when
      a vertex other than S and T is unbalanced; else REACHED_TARGET when the
      leftover capacities still hold an S-T path; else SUCCESS. */
  method Check(V: int, S: int, T: int, cap: Matrix, flow: Matrix, k: Variant) returns (out: Outcome)
    requires IsSquare(cap, V) && IsSquare(flow, V) && 0 <= S < V && 0 <= T < V
    ensures out.SelfCycle? || out.NegativeFlow? || out.CapacityExceed? <==> !CellsOk(V, cap, flow, k)
    ensures !CellsOk(V, cap, flow, k) ==> exists r, c :: FirstBad(V, cap, flow, k, r, c) && out == Verdict(V, flow, r, c)
    ensures out == NetflowNonzero <==> CellsOk(V, cap, flow, k) && !Conserves(V, S, T, flow)
    ensures out == ReachedTarget <==> Unsaturated(V, S, T, cap, flow, k)
    ensures out == Success <==> Accepts(V, S, T, cap, flow, k)
  {
    var bad, buf, sum;
    ghost var r, c;
    bad, out, buf, sum, r, c := ScanCells(V, cap, flow, k);
    if bad {
      assert FirstBad(V, cap, flow, k, r, c);
      return;
    }
    assert CellsOk(V, cap, flow, k);
    out := Judge(V, S, T, flow, buf, sum);
    assert Unsaturated(V, S, T, cap, flow, k) <==> Conserves(V, S, T, flow) && S != T && Reachable(PositiveArc(buf), S, T);
    assert Accepts(V, S, T, cap, flow, k) <==> Conserves(V, S, T, flow) && !(S != T && Reachable(PositiveArc(buf), S, T));
  }

  /** The passes after a clean cell scan: conservation, then the search. */
  method Judge(V: int, S: int, T: int, flow: Matrix, buf: Matrix, sum: seq<int>) returns (out: Outcome)
    requires IsSquare(flow, V) && IsSquare(buf, V) && 0 <= S < V && 0 <= T < V && NetSums(V, flow, sum)
    ensures out == NetflowNonzero <==> !Conserves(V, S, T, flow)
    ensures out == ReachedTarget <==> Conserves(V, S, T, flow) && S != T && Reachable(PositiveArc(buf), S, T)
    ensures out == Success <==> Conserves(V, S, T, flow) && !(S != T && Reachable(PositiveArc(buf), S, T))
  {
    var ok := NetCheck(V, S, T, sum);
    if !ok {
      if Conserves(V, S, T, flow) {
        ConserveZeroSums(V, S, T, flow, sum);
      }
      return NetflowNonzero;
    }
    ZeroSumsConserve(V, S, T, flow, sum);
    var reached, log := Reaches(V, S, T, buf);
    out := if reached then ReachedTarget else Success;
  }

  /** A feasible flow passes every cell test and conservation in every variant, so
      a checker can only answer SUCCESS or REACHED_TARGET for it. */
  lemma FeasiblePasses(V: int, S: int, T: int, cap: Matrix, flow: Matrix, k: Variant)
    requires Flow.Feasible(V, S, T, cap, flow)
    ensures CellsOk(V, cap, flow, k) && Conserves(V, S, T, flow)
  {
    forall x, y | 0 <= x < V && 0 <= y < V
      ensures CellOk(V, cap, flow, k, x, y)
    {
      if x != y && y < x {
        assert flow[y][x] >= 0;
      }
    }
  }

  /** Without the raised bound, passing the cell tests and conservation is exactly
      feasibility: `verify` and the corrected check answer SUCCESS or
      REACHED_TARGET if and only if the flow is feasible. */
  lemma StrictPassesIffFeasible(V: int, S: int, T: int, cap: Matrix, flow: Matrix, k: Variant)
    requires V >= 1 && IsSquare(cap, V) && IsSquare(flow, V) && k != GraphCheck
    ensures CellsOk(V, cap, flow, k) && Conserves(V, S, T, flow) <==> Flow.Feasible(V, S, T, cap, flow)
  {
    if CellsOk(V, cap, flow, k) {
      forall u, v | 0 <= u < V && 0 <= v < V && u != v
        ensures 0 <= flow[u][v] <= cap[u][v]
      {
        assert CellOk(V, cap, flow, k, u, v);
      }
      forall v | 0 <= v < V
        ensures flow[v][v] == 0
      {
        assert CellOk(V, cap, flow, k, v, v);
      }
    }
    if Flow.Feasible(V, S, T, cap, flow) {
      FeasiblePasses(V, S, T, cap, flow, k);
    }
  }

  /** With the credit, the leftover matrix of a settled run's extracted flow is the
      run's residual matrix. */
  lemma LeftoverIsResidual(g: Graph, cap: Matrix, res: Matrix, flow: Matrix, k: Variant)
    requires WellFormed(g) && CapacityOf(g, cap) && Flow.NonNegCaps(g) && Flow.OneWay(g)
    requires Flow.Settled(g.V, g.S, g.T, cap, res) && ExtractedFrom(g, cap, res, Filled(g.V, 0), flow)
    requires Credits(k)
    ensures Leftover(g.V, cap, flow, k) == res
  {
    var m := Leftover(g.V, cap, flow, k);
    forall x | 0 <= x < g.V
      ensures m[x] == res[x]
    {
      forall y | 0 <= y < g.V
        ensures m[x][y] == res[x][y]
      {
        if x != y {
          Flow.PairDifference(g, cap, res, flow, x, y);
        } else {
          assert res[x][x] + res[x][x] == cap[x][x] + cap[x][x];
        }
      }
    }
  }

  /** A settled run whose residual matrix has no S-T path, with its flow read off
      the input edges, is feasible and passes `check`, as written and corrected,
      with SUCCESS. */
  lemma SettledAccepted(g: Graph, cap: Matrix, res: Matrix, flow: Matrix)
    requires WellFormed(g) && CapacityOf(g, cap) && Flow.NonNegCaps(g) && Flow.OneWay(g)
    requires Flow.Settled(g.V, g.S, g.T, cap, res) && ExtractedFrom(g, cap, res, Filled(g.V, 0), flow)
    requires !(g.S != g.T && Reachable(PositiveArc(res), g.S, g.T))
    ensures Flow.Feasible(g.V, g.S, g.T, cap, flow)
    ensures Accepts(g.V, g.S, g.T, cap, flow, GraphCheck) && Accepts(g.V, g.S, g.T, cap, flow, GraphCheckFixed)
  {
    Flow.ExtractFeasible(g, cap, res, flow);
    FeasiblePasses(g.V, g.S, g.T, cap, flow, GraphCheck);
    FeasiblePasses(g.V, g.S, g.T, cap, flow, GraphCheckFixed);
    LeftoverIsResidual(g, cap, res, flow, GraphCheck);
    LeftoverIsResidual(g, cap, res, flow, GraphCheckFixed);
  }

  /** Three vertices, S = 0, T = 2, one unit edge 0 -> 1, with one unit on 0 -> 1
      and one unit back on 1 -> 0, where there is no edge. */
  const Bounce: Matrix := [[0, 1, 0], [0, 0, 0], [0, 0, 0]]
  const BounceFlow: Matrix := [[0, 1, 0], [1, 0, 0], [0, 0, 0]]

  lemma SumThree(s: seq<int>)
    requires |s| == 3
    ensures Sum(s) == s[0] + s[1] + s[2]
  {
    assert s[..0] == [] && s[..3] == s;
    SumSnoc(s, 0);
    SumSnoc(s, 1);
    SumSnoc(s, 2);
  }

  lemma BounceCells()
    ensures CellsOk(3, Bounce, BounceFlow, GraphCheck)
  {
    var cap, flow := Bounce, BounceFlow;
    assert CellOk(3, cap, flow, GraphCheck, 1, 0);
    assert forall x, y :: 0 <= x < 3 && 0 <= y < 3 ==> CellOk(3, cap, flow, GraphCheck, x, y);
  }

  lemma BounceConserves()
    ensures Conserves(3, 0, 2, BounceFlow)
  {
    SumThree(BounceFlow[1]);
    SumThree(Column(BounceFlow, 3, 1));
  }

  lemma BounceBlocked()
    ensures !Reachable(PositiveArc(Leftover(3, Bounce, BounceFlow, GraphCheck)), 0, 2)
  {
    var m := Leftover(3, Bounce, BounceFlow, GraphCheck);
    assert m[0][1] == 1 && m[1][0] == 0;
    assert forall y :: 0 <= y < 3 ==> m[0][y] == [0, 1, 0][y] && m[1][y] == 0 && m[2][y] == 0;
    assert Closed(PositiveArc(m), {0, 1});
    ClosedBlocks(PositiveArc(m), {0, 1}, 0, 2);
  }

  /** `check` as written answers SUCCESS for BounceFlow: cell (1, 0) is compared
      against the unit credited by (0, 1). The flow is not feasible, `verify` and
      the corrected check reject the cell, and so does `check` on the same input
      with vertices 0 and 1 swapped. */
  lemma CreditAcceptsOverCapacity()
    ensures Accepts(3, 0, 2, Bounce, BounceFlow, GraphCheck)
    ensures !Flow.Feasible(3, 0, 2, Bounce, BounceFlow)
    ensures FirstBad(3, Bounce, BounceFlow, GraphCheckFixed, 1, 0) && BounceFlow[1][0] > 0
    ensures FirstBad(3, Bounce, BounceFlow, ToolVerify, 1, 0)
    ensures FirstBad(3, [[0, 0, 0], [1, 0, 0], [0, 0, 0]], BounceFlow, GraphCheck, 0, 1)
  {
    BounceCells();
    BounceConserves();
    BounceBlocked();
    assert !(0 <= BounceFlow[1][0] <= Bounce[1][0]);
    BounceRejected(GraphCheckFixed);
    BounceRejected(ToolVerify);
    BounceSwapped();
  }

  /** Without the credit, cell (1, 0) of BounceFlow is the first to fail. */
  lemma BounceRejected(k: Variant)
    requires k != GraphCheck
    ensures FirstBad(3, Bounce, BounceFlow, k, 1, 0)
  {
    var cap, flow := Bounce, BounceFlow;
    assert CellOk(3, cap, flow, k, 0, 0) && CellOk(3, cap, flow, k, 0, 1) && CellOk(3, cap, flow, k, 0, 2);
    assert !CellOk(3, cap, flow, k, 1, 0);
  }

  /** With vertices 0 and 1 swapped the credit comes too late: cell (0, 1) fails first. */
  lemma BounceSwapped()
    ensures FirstBad(3, [[0, 0, 0], [1, 0, 0], [0, 0, 0]], BounceFlow, GraphCheck, 0, 1)
  {
    var cap: Matrix, flow := [[0, 0, 0], [1, 0, 0], [0, 0, 0]], BounceFlow;
    assert CellOk(3, cap, flow, GraphCheck, 0, 0);
    assert Allowance(3, cap, flow, GraphCheck, 0, 1) == 0;
    assert !CellOk(3, cap, flow, GraphCheck, 0, 1);
  }

  /** The flow the Ford-Fulkerson solver as written reads off CrossingRes: one unit
      along 0, 1, 3, 5. */
  const CrossingFlow: Matrix := [[0, 1, 0, 0, 0, 0], [0, 0, 0, 1, 0, 0], [0, 0, 0, 0, 0, 0],
                                 [0, 0, 0, 0, 0, 1], [0, 0, 0, 0, 0, 0], [0, 0, 0, 0, 0, 0]]

  /** The input edges of Crossing, as head lists. */
  lemma CrossingHeads()
    ensures WellFormed(FordFulkerson.Crossing)
    ensures var e := FordFulkerson.Crossing.edge;
      Heads(e[0]) == [1, 2] && Heads(e[1]) == [3, 4] && Heads(e[2]) == [3]
      && Heads(e[3]) == [5] && Heads(e[4]) == [5] && Heads(e[5]) == []
  {
    FordFulkerson.CrossingInput();
    var out := FordFulkerson.Successors(FordFulkerson.Crossing);
    assert out[0] == [1, 2] && out[1] == [3, 4] && out[2] == [3] && out[3] == [5] && out[4] == [5] && out[5] == [];
  }

  /** Crossing has non-negative capacities and no antiparallel edges. */
  lemma CrossingOneWay()
    ensures WellFormed(FordFulkerson.Crossing)
    ensures Flow.NonNegCaps(FordFulkerson.Crossing) && Flow.OneWay(FordFulkerson.Crossing)
  {
    CrossingHeads();
  }

  lemma CrossingExtracted()
    ensures WellFormed(FordFulkerson.Crossing)
    ensures ExtractedFrom(FordFulkerson.Crossing, FordFulkerson.CrossingCap, FordFulkerson.CrossingRes, Filled(6, 0), CrossingFlow)
  {
    CrossingHeads();
    var g, cap, res, flow := FordFulkerson.Crossing, FordFulkerson.CrossingCap, FordFulkerson.CrossingRes, CrossingFlow;
    forall u, v | 0 <= u < 6 && 0 <= v < 6
      ensures flow[u][v] == (if IsEdge(g, u, v) then cap[u][v] - res[u][v] else Filled(6, 0)[u][v])
    {
      assert Filled(6, 0)[u][v] == 0;
    }
  }

  /** Under `verify` the leftover matrix of CrossingFlow has no arc out of {0, 2, 3}. */
  lemma CrossingForwardBlocked()
    ensures !Reachable(PositiveArc(Leftover(6, FordFulkerson.CrossingCap, CrossingFlow, ToolVerify)), 0, 5)
  {
    var m := Leftover(6, FordFulkerson.CrossingCap, CrossingFlow, ToolVerify);
    assert forall y :: 0 <= y < 6 ==> m[0][y] == [0, 0, 1, 0, 0, 0][y];
    assert forall y :: 0 <= y < 6 ==> m[2][y] == [0, 0, 0, 1, 0, 0][y];
    assert forall y :: 0 <= y < 6 ==> m[3][y] == 0;
    assert Closed(PositiveArc(m), {0, 2, 3});
    ClosedBlocks(PositiveArc(m), {0, 2, 3}, 0, 5);
  }

  /** On the flow the Ford-Fulkerson solver as written leaves on Crossing, `check`
      answers REACHED_TARGET through the undo arc 3 -> 1, while `verify`, which
      has no undo arcs, answers SUCCESS for a flow that is not maximum. */
  lemma UndoArcsIgnored()
    ensures Flow.Feasible(6, 0, 5, FordFulkerson.CrossingCap, CrossingFlow)
    ensures Unsaturated(6, 0, 5, FordFulkerson.CrossingCap, CrossingFlow, GraphCheck)
    ensures Unsaturated(6, 0, 5, FordFulkerson.CrossingCap, CrossingFlow, GraphCheckFixed)
    ensures Accepts(6, 0, 5, FordFulkerson.CrossingCap, CrossingFlow, ToolVerify)
    ensures Flow.Feasible(6, 0, 5, FordFulkerson.CrossingCap, FordFulkerson.CrossingBest)
    ensures Sum(CrossingFlow[0]) == 1 && Sum(FordFulkerson.CrossingBest[0]) == 2
  {
    var g, cap, res, flow := FordFulkerson.Crossing, FordFulkerson.CrossingCap, FordFulkerson.CrossingRes, CrossingFlow;
    FordFulkerson.CrossingInput();
    FordFulkerson.CrossingConserving();
    FordFulkerson.CrossingStuck();
    FordFulkerson.CrossingBetter();
    CrossingOneWay();
    CrossingExtracted();
    Flow.ExtractFeasible(g, cap, res, flow);
    FeasiblePasses(6, 0, 5, cap, flow, GraphCheck);
    FeasiblePasses(6, 0, 5, cap, flow, GraphCheckFixed);
    FeasiblePasses(6, 0, 5, cap, flow, ToolVerify);
    LeftoverIsResidual(g, cap, res, flow, GraphCheck);
    LeftoverIsResidual(g, cap, res, flow, GraphCheckFixed);
    CrossingForwardBlocked();
    FordFulkerson.SumSix(flow[0]);
  }
}

=== FILE: ford_fulkerson.dfy ===
/** The augmenting-path solver: a breadth-first search from S along input
    out-edges with positive residual, the bottleneck of the path it finds, the
    augmentation along that path, and the loop that repeats until no path is
    found. The search never follows a reverse arc, so the loop can stop while the
    full residual graph still has an S-T path. */
module FordFulkerson {
  import opened Base
  import opened Network
  import opened Preflow
  import opened Reach
  import Labelling
  import Flow

  /** The arc the path search follows: v is on u's list and residual[u][v] > 0. */
  predicate Forward(out: seq<seq<int>>, res: Matrix, u: int, v: int)
  {
    0 <= u < |out| && u < |res| && 0 <= v < |res[u]| && v in out[u] && res[u][v] > 0
  }

  ghost function ForwardArc(out: seq<seq<int>>, res: Matrix): (int, int) -> bool
  {
    (u, v) => Forward(out, res, u, v)
  }

  /** The successor lists of the solver: the heads of each vertex's input edges, in input order. */
  function Successors(g: Graph): (out: seq<seq<int>>)
    requires WellFormed(g)
    ensures |out| == g.V && forall u :: 0 <= u < g.V ==> out[u] == Heads(g.edge[u])
  {
    seq(g.V, u requires 0 <= u < g.V => Heads(g.edge[u]))
  }

  /** The search tree: S is its own parent at depth 0, and every other visited
      vertex hangs off a visited parent by a forward arc, one level deeper. */
  ghost predicate Tree(V: int, S: int, out: seq<seq<int>>, res: Matrix,
                       visited: seq<bool>, rpath: seq<int>, depth: seq<int>)
  {
    && |visited| == V && |rpath| == V && |depth| == V && 0 <= S < V
    && visited[S] && rpath[S] == S && depth[S] == 0
    && (forall v :: 0 <= v < V && visited[v] ==> depth[v] >= 0)
    && forall v :: 0 <= v < V && visited[v] && v != S ==>
      && 0 <= rpath[v] < V && visited[rpath[v]]
      && Forward(out, res, rpath[v], v) && depth[v] == depth[rpath[v]] + 1
  }

  /** The invariant of the search between scans: the tree, the visited set `seen`,
      the queue of visited vertices, the scanned vertices `done` whose forward
      arcs all lead to visited vertices, and T not yet found. */
  ghost predicate Exploring(V: int, S: int, T: int, out: seq<seq<int>>, res: Matrix,
                            visited: seq<bool>, rpath: seq<int>, depth: seq<int>,
                            queue: seq<int>, seen: set<int>, done: set<int>, cur: int)
  {
    && Tree(V, S, out, res, visited, rpath, depth) && 0 <= T < V
    && (forall v :: v in seen <==> 0 <= v < V && visited[v])
    && (forall k :: 0 <= k < |queue| ==> 0 <= queue[k] < V && visited[queue[k]])
    && (forall v :: 0 <= v < V && visited[v] ==> v in done || v in queue || v == cur)
    && (forall w, v :: w in done && Forward(out, res, w, v) ==> 0 <= v < V && visited[v])
    && (S != T ==> !visited[T])
  }

  /** `path` follows the parent links: each vertex after the first is the child of the one before. */
  predicate Linked(rpath: seq<int>, path: seq<int>)
  {
    forall k :: 1 <= k < |path| ==> 0 <= path[k] < |rpath| && rpath[path[k]] == path[k - 1]
  }

  /** Cell a -> b of `res` exists and holds at least cf. */
  predicate Carries(res: Matrix, a: int, b: int, cf: int)
  {
    0 <= a < |res| && 0 <= b < |res[a]| && cf <= res[a][b]
  }

  /** Cell a -> b of `res` exists and holds exactly cf. */
  predicate Holds(res: Matrix, a: int, b: int, cf: int)
  {
    0 <= a < |res| && 0 <= b < |res[a]| && cf == res[a][b]
  }

  /** Every arc of `path` holds at least cf. */
  predicate Bottleneck(res: Matrix, path: seq<int>, cf: int)
  {
    forall k :: 0 <= k < |path| - 1 ==> Carries(res, path[k], path[k + 1], cf)
  }

  /** Some arc of `path` holds exactly cf. */
  predicate Attained(res: Matrix, path: seq<int>, cf: int)
  {
    exists k :: 0 <= k < |path| - 1 && Holds(res, path[k], path[k + 1], cf)
  }

  /** An augmenting path with its amount: a simple walk from S to T along forward
      arcs that follows the parent links, and an amount cf in 1 .. INT_MAX that
      every arc of the path can carry. */
  ghost predicate Augmenting(out: seq<seq<int>>, res: Matrix, S: int, T: int,
                             rpath: seq<int>, path: seq<int>, cf: int)
  {
    && IsWalk(ForwardArc(out, res), path, S, T) && Distinct(path) && AllBelow(path, |res|)
    && |rpath| == |res| && Linked(rpath, path) && 0 < cf <= INT_MAX && Bottleneck(res, path, cf)
  }

  /** `getcf`: the minimum residual along the parent chain from T back to S,
      starting from 0x7fffffff. */
  method Getcf(V: int, S: int, T: int, out: seq<seq<int>>, res: Matrix, rpath: seq<int>,
               ghost visited: seq<bool>, ghost depth: seq<int>)
    returns (cf: int, ghost path: seq<int>)
    requires Labelling.Network(V, out, res) && 0 <= T < V
    requires Tree(V, S, out, res, visited, rpath, depth) && visited[T]
    ensures Augmenting(out, res, S, T, rpath, path, cf)
    ensures cf == INT_MAX || Attained(res, path, cf)
    ensures 0 < cf <= INT_MAX
    ensures S == T ==> cf == INT_MAX
    ensures S != T ==> 0 <= rpath[T] < V && cf <= res[rpath[T]][T]
  {
    cf := INT_MAX;
    var u := rpath[T];
    var v := T;
    path := [T];
    assert IsWalk(ForwardArc(out, res), path, v, T);
    while v != S
      invariant Climbing(V, S, T, out, res, rpath, visited, depth, path, v, cf) && u == rpath[v]
      decreases depth[v]
    {
      var m := Min(cf, res[u][v]);
      Climb(V, S, T, out, res, rpath, visited, depth, path, v, cf, m);
      cf := m;
      path := [u] + path;
      v := u;
      u := rpath[v];
    }
    assert forall k :: 0 <= k < |path| ==> depth[path[k]] == k;
    if S != T {
      var k := |path| - 2;
      assert path[k + 1] == T && rpath[path[k + 1]] == path[k];
      assert Carries(res, path[k], path[k + 1], cf);
    }
  }

  /** The invariant of the walk up the parent links: `path` runs from the visited
      vertex v to T through the tree, one level deeper at each step, and cf is its
      bottleneck or still INT_MAX. */
  ghost predicate Climbing(V: int, S: int, T: int, out: seq<seq<int>>, res: Matrix, rpath: seq<int>,
                           visited: seq<bool>, depth: seq<int>, path: seq<int>, v: int, cf: int)
  {
    && Labelling.Network(V, out, res) && 0 <= T < V && Tree(V, S, out, res, visited, rpath, depth)
    && 0 <= v < V && visited[v]
    && IsWalk(ForwardArc(out, res), path, v, T) && Linked(rpath, path)
    && (forall k :: 0 <= k < |path| ==> 0 <= path[k] < V && depth[path[k]] == depth[v] + k)
    && 0 < cf <= INT_MAX && Bottleneck(res, path, cf) && (cf == INT_MAX || Attained(res, path, cf))
  }

  /** One step up: prefixing v's parent keeps the invariant, with the minimum of cf and the link's residual. */
  lemma Climb(V: int, S: int, T: int, out: seq<seq<int>>, res: Matrix, rpath: seq<int>,
              visited: seq<bool>, depth: seq<int>, path: seq<int>, v: int, cf: int, m: int)
    requires Climbing(V, S, T, out, res, rpath, visited, depth, path, v, cf) && v != S
    requires m == Min(cf, res[rpath[v]][v])
    ensures Climbing(V, S, T, out, res, rpath, visited, depth, [rpath[v]] + path, rpath[v], m)
    ensures depth[rpath[v]] < depth[v]
  {
    var u := rpath[v];
    assert 0 <= u < V && visited[u] && Forward(out, res, u, v) && depth[v] == depth[u] + 1;
    Prepend(res, path, u, cf, m);
    ClimbWalk(out, res, rpath, path, u, v, T);
    ClimbDepth(V, depth, path, u, v);
  }

  lemma ClimbWalk(out: seq<seq<int>>, res: Matrix, rpath: seq<int>, path: seq<int>, u: int, v: int, T: int)
    requires IsWalk(ForwardArc(out, res), path, v, T) && Linked(rpath, path)
    requires Forward(out, res, u, v) && 0 <= v < |rpath| && rpath[v] == u
    ensures IsWalk(ForwardArc(out, res), [u] + path, u, T) && Linked(rpath, [u] + path)
  {
    var p := [u] + path;
    assert forall k :: 1 <= k < |p| ==> p[k] == path[k - 1];
    assert ForwardArc(out, res)(p[0], p[1]);
  }

  lemma ClimbDepth(V: int, depth: seq<int>, path: seq<int>, u: int, v: int)
    requires |depth| == V && |path| >= 1 && path[0] == v && 0 <= u < V && 0 <= v < V
    requires forall k :: 0 <= k < |path| ==> 0 <= path[k] < V && depth[path[k]] == depth[v] + k
    requires depth[v] == depth[u] + 1
    ensures forall k :: 0 <= k < |[u] + path| ==> 0 <= ([u] + path)[k] < V && depth[([u] + path)[k]] == depth[u] + k
  {
    var p := [u] + path;
    assert forall k :: 1 <= k < |p| ==> p[k] == path[k - 1];
  }

  /** Extending the chain by the link u -> path[0] and taking the minimum with its residual. */
  lemma Prepend(res: Matrix, path: seq<int>, u: int, cf: int, m: int)
    requires |path| >= 1 && Bottleneck(res, path, cf) && 0 <= u < |res| && 0 <= path[0] < |res[u]|
    requires m == Min(cf, res[u][path[0]])
    ensures Bottleneck(res, [u] + path, m)
    ensures m == res[u][path[0]] || Attained(res, path, cf) ==> Attained(res, [u] + path, m)
  {
    var p := [u] + path;
    forall k | 0 <= k < |p| - 1
      ensures Carries(res, p[k], p[k + 1], m)
    {
      if k > 0 {
        assert p[k] == path[k - 1] && p[k + 1] == path[k];
      }
    }
    if m == res[u][path[0]] {
      assert Holds(res, p[0], p[1], m);
    } else if Attained(res, path, cf) {
      var j :| 0 <= j < |path| - 1 && Holds(res, path[j], path[j + 1], cf);
      assert Holds(res, p[j + 1], p[j + 2], m);
    }
  }

  /** Visiting v from u: v joins the tree as u's child and the queue. */
  lemma Discover(V: int, S: int, T: int, out: seq<seq<int>>, res: Matrix,
                 visited: seq<bool>, rpath: seq<int>, depth: seq<int>,
                 queue: seq<int>, seen: set<int>, done: set<int>, u: int, v: int)
    requires Labelling.Network(V, out, res)
    requires Exploring(V, S, T, out, res, visited, rpath, depth, queue, seen, done, u)
    requires 0 <= u < V && visited[u] && 0 <= v < V && !visited[v] && Forward(out, res, u, v)
    ensures Tree(V, S, out, res, visited[v := true], rpath[v := u], depth[v := depth[u] + 1])
    ensures v != T ==> Exploring(V, S, T, out, res, visited[v := true], rpath[v := u],
                                 depth[v := depth[u] + 1], queue + [v], seen + {v}, done, u)
    ensures v !in seen && seen + {v} <= Range(V)
  {
    TreeGrown(V, S, out, res, visited, rpath, depth, u, v);
  }

  /** Hanging an unvisited forward successor v under u keeps the search tree. */
  lemma TreeGrown(V: int, S: int, out: seq<seq<int>>, res: Matrix,
                  visited: seq<bool>, rpath: seq<int>, depth: seq<int>, u: int, v: int)
    requires Tree(V, S, out, res, visited, rpath, depth)
    requires 0 <= u < V && visited[u] && 0 <= v < V && !visited[v] && Forward(out, res, u, v)
    ensures Tree(V, S, out, res, visited[v := true], rpath[v := u], depth[v := depth[u] + 1])
  {
  }

  /** The invariant of the scan of u: the search invariant with u current, the
      queue grown by exactly the newly visited vertices, and the first i
      successors with positive residual visited. */
  ghost predicate ScanningFrom(V: int, S: int, T: int, out: seq<seq<int>>, res: Matrix,
                               visited: seq<bool>, rpath: seq<int>, depth: seq<int>,
                               queue: seq<int>, seen: set<int>, done: set<int>, u: int, i: int,
                               queue0: seq<int>, seen0: set<int>)
  {
    && Labelling.Network(V, out, res) && 0 <= u < V && 0 <= i <= |out[u]|
    && Exploring(V, S, T, out, res, visited, rpath, depth, queue, seen, done, u) && visited[u]
    && seen0 <= seen <= Range(V) && |seen| - |seen0| == |queue| - |queue0|
    && forall k :: 0 <= k < i && res[u][out[u][k]] > 0 ==> visited[out[u][k]]
  }

  /** One step of the scan of u: its i-th successor v is visited if it is new and
      residual[u][v] > 0; `found` reports that v is T. */
  method Consider(V: int, S: int, T: int, out: seq<seq<int>>, res: Matrix,
                  visited: seq<bool>, rpath: seq<int>, ghost depth: seq<int>,
                  queue: seq<int>, ghost seen: set<int>, ghost done: set<int>, u: int, i: int,
                  ghost queue0: seq<int>, ghost seen0: set<int>)
    returns (visited': seq<bool>, rpath': seq<int>, ghost depth': seq<int>,
             queue': seq<int>, ghost seen': set<int>, found: bool)
    requires ScanningFrom(V, S, T, out, res, visited, rpath, depth, queue, seen, done, u, i, queue0, seen0)
    requires i < |out[u]|
    ensures found ==> Tree(V, S, out, res, visited', rpath', depth') && visited'[T] && S != T
    ensures !found ==> ScanningFrom(V, S, T, out, res, visited', rpath', depth', queue', seen', done, u, i + 1, queue0, seen0)
  {
    visited', rpath', depth', queue', seen' := visited, rpath, depth, queue, seen;
    found := false;
    var v := out[u][i];
    if !visited[v] && res[u][v] > 0 {
      rpath' := rpath[v := u];
      visited' := visited[v := true];
      depth' := depth[v := depth[u] + 1];
      queue' := queue + [v];
      seen' := seen + {v};
      found := v == T;
      Visited(V, S, T, out, res, visited, rpath, depth, queue, seen, done, u, i, queue0, seen0);
    } else {
      Skipped(V, S, T, out, res, visited, rpath, depth, queue, seen, done, u, i, queue0, seen0);
    }
  }

  /** Visiting the i-th successor v of u keeps the scan invariant unless v is T,
      which ends the search with T in the tree. */
  lemma Visited(V: int, S: int, T: int, out: seq<seq<int>>, res: Matrix,
                visited: seq<bool>, rpath: seq<int>, depth: seq<int>,
                queue: seq<int>, seen: set<int>, done: set<int>, u: int, i: int,
                queue0: seq<int>, seen0: set<int>)
    requires ScanningFrom(V, S, T, out, res, visited, rpath, depth, queue, seen, done, u, i, queue0, seen0)
    requires i < |out[u]| && !visited[out[u][i]] && res[u][out[u][i]] > 0
    ensures var v := out[u][i];
      Tree(V, S, out, res, visited[v := true], rpath[v := u], depth[v := depth[u] + 1])
    ensures var v := out[u][i];
      v == T ==> S != T
    ensures var v := out[u][i];
      v != T ==> ScanningFrom(V, S, T, out, res, visited[v := true], rpath[v := u], depth[v := depth[u] + 1],
                              queue + [v], seen + {v}, done, u, i + 1, queue0, seen0)
  {
    var v := out[u][i];
    assert Forward(out, res, u, v);
    Discover(V, S, T, out, res, visited, rpath, depth, queue, seen, done, u, v);
    assert |seen + {v}| == |seen| + 1;
  }

  /** Passing over a successor that is visited or has no residual keeps the scan invariant. */
  lemma Skipped(V: int, S: int, T: int, out: seq<seq<int>>, res: Matrix,
                visited: seq<bool>, rpath: seq<int>, depth: seq<int>,
                queue: seq<int>, seen: set<int>, done: set<int>, u: int, i: int,
                queue0: seq<int>, seen0: set<int>)
    requires ScanningFrom(V, S, T, out, res, visited, rpath, depth, queue, seen, done, u, i, queue0, seen0)
    requires i < |out[u]| && (visited[out[u][i]] || res[u][out[u][i]] <= 0)
    ensures ScanningFrom(V, S, T, out, res, visited, rpath, depth, queue, seen, done, u, i + 1, queue0, seen0)
  {
  }

  /** A finished scan: every forward arc out of u leads to a visited vertex, so u counts as scanned. */
  lemma ScanDone(V: int, S: int, T: int, out: seq<seq<int>>, res: Matrix,
                 visited: seq<bool>, rpath: seq<int>, depth: seq<int>,
                 queue: seq<int>, seen: set<int>, done: set<int>, u: int,
                 queue0: seq<int>, seen0: set<int>)
    requires |out| == V && 0 <= u < V
    requires ScanningFrom(V, S, T, out, res, visited, rpath, depth, queue, seen, done, u, |out[u]|, queue0, seen0)
    ensures Exploring(V, S, T, out, res, visited, rpath, depth, queue, seen, done + {u}, -1)
  {
    forall v | Forward(out, res, u, v)
      ensures 0 <= v < V && visited[v]
    {
      var k :| 0 <= k < |out[u]| && out[u][k] == v;
    }
  }

  /** The scan of one dequeued vertex u: each successor v not yet visited with
      residual[u][v] > 0 gets u as its parent and joins the queue; the scan ends
      the search as soon as T is visited. */
  method Scan(V: int, S: int, T: int, out: seq<seq<int>>, res: Matrix,
              visited: seq<bool>, rpath: seq<int>, ghost depth: seq<int>,
              queue: seq<int>, ghost seen: set<int>, ghost done: set<int>, u: int)
    returns (visited': seq<bool>, rpath': seq<int>, ghost depth': seq<int>,
             queue': seq<int>, ghost seen': set<int>, found: bool)
    requires Labelling.Network(V, out, res) && 0 <= u < V
    requires Exploring(V, S, T, out, res, visited, rpath, depth, queue, seen, done, u) && visited[u]
    ensures found ==> Tree(V, S, out, res, visited', rpath', depth')
    ensures found ==> visited'[T] && S != T
    ensures !found ==> Exploring(V, S, T, out, res, visited', rpath', depth', queue', seen', done + {u}, -1)
    ensures !found ==> seen <= seen' <= Range(V) && |seen'| - |seen| == |queue'| - |queue|
  {
    visited', rpath', depth', queue', seen' := visited, rpath, depth, queue, seen;
    found := false;
    var i := 0;
    while i < |out[u]|
      invariant ScanningFrom(V, S, T, out, res, visited', rpath', depth', queue', seen', done, u, i, queue, seen)
    {
      visited', rpath', depth', queue', seen', found := Consider(V, S, T, out, res, visited', rpath', depth', queue', seen', done, u, i, queue, seen);
      if found {
        return;
      }
      i := i + 1;
    }
    ScanDone(V, S, T, out, res, visited', rpath', depth', queue', seen', done, u, queue, seen);
  }

  /** `getPath`: a breadth-first search from S along forward arcs. It returns 0 when
      the search runs out without visiting T, and the bottleneck of the tree path
      to T as soon as T is visited. */
  method GetPath(V: int, S: int, T: int, out: seq<seq<int>>, res: Matrix)
    returns (cf: int, rpath: seq<int>, ghost path: seq<int>)
    requires Labelling.Network(V, out, res) && 0 <= S < V && 0 <= T < V
    ensures |rpath| == V && cf >= 0
    ensures cf > 0 <==> S != T && Reachable(ForwardArc(out, res), S, T)
    ensures cf > 0 ==> Augmenting(out, res, S, T, rpath, path, cf) && (cf == INT_MAX || Attained(res, path, cf))
  {
    var visited := seq(V, _ => false)[S := true];
    rpath := seq(V, _ => 0)[S := S];
    ghost var depth := seq(V, _ => 0);
    var queue := [S];
    ghost var seen: set<int> := {S};
    ghost var done: set<int> := {};
    while |queue| > 0
      invariant Exploring(V, S, T, out, res, visited, rpath, depth, queue, seen, done, -1)
      invariant seen <= Range(V)
      decreases V - |seen|, |queue|
    {
      SubsetCard(seen, Range(V));
      var u := queue[0];
      queue := queue[1..];
      ghost var seen0 := seen;
      var found;
      visited, rpath, depth, queue, seen, found := Scan(V, S, T, out, res, visited, rpath, depth, queue, seen, done, u);
      if found {
        cf, path := Getcf(V, S, T, out, res, rpath, visited, depth);
        return;
      }
      done := done + {u};
      SubsetCard(seen0, seen);
      SubsetCard(seen, Range(V));
    }
    cf := 0;
    path := [];
    if S != T {
      ghost var m := set v | 0 <= v < V && visited[v];
      assert Closed(ForwardArc(out, res), m);
      ClosedBlocks(ForwardArc(out, res), m, S, T);
    }
  }

  /** The unchanged residual cells of an augmentation: those on no arc of `path`,
      in either direction. */
  predicate OffPath(path: seq<int>, a: int, b: int)
  {
    forall k :: 0 <= k < |path| - 1 ==> !(path[k] == a && path[k + 1] == b) && !(path[k] == b && path[k + 1] == a)
  }

  /** Cell a -> b holds d less than in `res`, and cell b -> a holds d more. */
  predicate Shifted(V: int, res: Matrix, cur: Matrix, a: int, b: int, d: int)
    requires IsSquare(res, V) && IsSquare(cur, V) && 0 <= a < V && 0 <= b < V
  {
    cur[a][b] == res[a][b] - d && cur[b][a] == res[b][a] + d
  }

  /** `cur` is `res` with the links of `path` from index k on augmented by cf:
      each such arc holds cf less and its reverse cf more; the earlier links and
      every cell off the path are as in `res`. */
  ghost predicate AugmentedFrom(V: int, res: Matrix, cur: Matrix, path: seq<int>, cf: int, k: int)
  {
    && IsSquare(res, V) && IsSquare(cur, V) && AllBelow(path, V) && 0 <= k < |path|
    && (forall j :: 0 <= j < |path| - 1 ==> Shifted(V, res, cur, path[j], path[j + 1], if j < k then 0 else cf))
    && (forall a, b :: 0 <= a < V && 0 <= b < V && OffPath(path, a, b) ==> cur[a][b] == res[a][b])
  }

  /** The augmentation loop: walking the parent chain from T back to S,
      residual[u][v] -= cf and residual[v][u] += cf for each link u -> v. */
  method Augment(V: int, S: int, T: int, out: seq<seq<int>>, res: Matrix, rpath: seq<int>,
                 cf: int, ghost path: seq<int>)
    returns (res': Matrix)
    requires Labelling.Network(V, out, res)
    requires Augmenting(out, res, S, T, rpath, path, cf)
    ensures AugmentedFrom(V, res, res', path, cf, 0)
    ensures forall c :: 0 <= c < V ==>
      ColSum(res', V, c) == ColSum(res, V, c) + (if c == S then cf else 0) - (if c == T then cf else 0)
  {
    res' := res;
    var u := rpath[T];
    var v := T;
    ghost var k := |path| - 1;
    while v != S
      invariant AugmentedFrom(V, res, res', path, cf, k) && v == path[k] && u == rpath[v]
      invariant forall c :: 0 <= c < V ==>
        ColSum(res', V, c) == ColSum(res, V, c) + (if c == path[k] then cf else 0) - (if c == T then cf else 0)
      decreases k
    {
      res' := Step(V, res, res', u, v, cf, path, k);
      k := k - 1;
      v := u;
      u := rpath[v];
    }
  }

  /** One link of the augmentation, from path[k - 1] to path[k]. */
  method Step(V: int, res: Matrix, cur: Matrix, u: int, v: int, cf: int, ghost path: seq<int>, ghost k: int)
    returns (next: Matrix)
    requires Distinct(path) && AugmentedFrom(V, res, cur, path, cf, k)
    requires 0 < k && u == path[k - 1] && v == path[k]
    ensures next == MoveResidual(cur, V, u, v, cf)
    ensures AugmentedFrom(V, res, next, path, cf, k - 1)
    ensures forall c :: 0 <= c < V ==>
      ColSum(next, V, c) == ColSum(cur, V, c) + (if c == u then cf else 0) - (if c == v then cf else 0)
  {
    next := MoveResidual(cur, V, u, v, cf);
    MoveResidualCells(V, cur, u, v, cf);
    forall c | 0 <= c < V
      ensures ColSum(next, V, c) == ColSum(cur, V, c) + (if c == u then cf else 0) - (if c == v then cf else 0)
    {
      MoveColumns(V, cur, u, v, cf, c);
    }
  }

  /** A completed augmentation keeps every pair sum at its capacity pair sum, and
      keeps every residual non-negative when cf is at most each residual on the path. */
  lemma AugmentKeeps(V: int, cap: Matrix, res: Matrix, res': Matrix, path: seq<int>, cf: int)
    requires AugmentedFrom(V, res, res', path, cf, 0) && IsSquare(cap, V)
    ensures Paired(V, cap, res) ==> Paired(V, cap, res')
    ensures NonNegativeCells(res, V) && cf >= 0 && Bottleneck(res, path, cf) ==> NonNegativeCells(res', V)
  {
    forall a, b | 0 <= a < V && 0 <= b < V && !OffPath(path, a, b)
      ensures res'[a][b] + res'[b][a] == res[a][b] + res[b][a]
      ensures cf >= 0 && Bottleneck(res, path, cf) && res[a][b] >= 0 ==> res'[a][b] >= 0
    {
      var k :| 0 <= k < |path| - 1 && ((path[k] == a && path[k + 1] == b) || (path[k] == b && path[k + 1] == a));
      assert Shifted(V, res, res', path[k], path[k + 1], cf);
      if Bottleneck(res, path, cf) {
        assert Carries(res, path[k], path[k + 1], cf);
      }
    }
    forall a, b | 0 <= a < V && 0 <= b < V && OffPath(path, a, b)
      ensures res'[b][a] == res[b][a]
    {
      assert OffPath(path, b, a);
    }
  }

  /** The invariant of the rounds: pair sums at the capacity pair sums, as much
      residual as capacity into every vertex other than S and T, and f the net
      amount that has left S and, when S != T, reached T. */
  ghost predicate Conserving(V: int, S: int, T: int, cap: Matrix, res: Matrix, f: int)
  {
    && V >= 1 && 0 <= S < V && 0 <= T < V && IsSquare(cap, V) && IsSquare(res, V) && Paired(V, cap, res)
    && (forall v :: 0 <= v < V && v != S && v != T ==> ColSum(cap, V, v) == ColSum(res, V, v))
    && f == ColSum(res, V, S) - ColSum(cap, V, S)
    && (S != T ==> f == ColSum(cap, V, T) - ColSum(res, V, T))
  }

  /** One round: a path search, then either the stop (cf == 0) or the augmentation
      by cf with f += cf. */
  method Round(V: int, S: int, T: int, out: seq<seq<int>>, ghost cap: Matrix, res: Matrix, f: int)
    returns (res': Matrix, f': int, stop: bool)
    requires Labelling.Network(V, out, res) && Conserving(V, S, T, cap, res, f)
    ensures Labelling.Network(V, out, res') && Conserving(V, S, T, cap, res', f')
    ensures stop ==> res' == res && f' == f && !(S != T && Reachable(ForwardArc(out, res), S, T))
    ensures !stop ==> f' > f
    ensures NonNegativeCells(res, V) ==> NonNegativeCells(res', V)
  {
    var cf, rpath;
    ghost var path;
    cf, rpath, path := GetPath(V, S, T, out, res);
    if cf == 0 {
      return res, f, true;
    }
    res' := Augment(V, S, T, out, res, rpath, cf, path);
    AugmentKeeps(V, cap, res, res', path, cf);
    f', stop := f + cf, false;
  }

  /** The loop of `FordFulkerson`: f starts at 0 and residual at the capacities;
      rounds run until a search returns 0, here for at most `fuel` rounds. */
  method Rounds(V: int, S: int, T: int, out: seq<seq<int>>, cap: Matrix, fuel: nat)
    returns (res: Matrix, f: int, finished: bool)
    requires Labelling.Network(V, out, cap) && V >= 1 && 0 <= S < V && 0 <= T < V
    ensures Labelling.Network(V, out, res) && Conserving(V, S, T, cap, res, f) && f >= 0
    ensures NonNegativeCells(cap, V) ==> NonNegativeCells(res, V)
    ensures finished ==> !(S != T && Reachable(ForwardArc(out, res), S, T))
    ensures !finished ==> f >= fuel
  {
    res, f, finished := cap, 0, false;
    var n := fuel;
    while n > 0
      invariant Labelling.Network(V, out, res) && Conserving(V, S, T, cap, res, f)
      invariant NonNegativeCells(cap, V) ==> NonNegativeCells(res, V)
      invariant 0 <= n <= fuel && f >= fuel - n
    {
      var stop;
      res, f, stop := Round(V, S, T, out, cap, res, f);
      if stop {
        finished := true;
        return;
      }
      n := n - 1;
    }
  }

  /** Capacities of an input with non-negative edge capacities are non-negative. */
  lemma CapacityNonNegative(g: Graph, cap: Matrix)
    requires WellFormed(g) && CapacityOf(g, cap) && Flow.NonNegCaps(g)
    ensures NonNegativeCells(cap, g.V)
  {
    Flow.CapacitiesNonNeg(g, cap);
  }

  /** A solver state that keeps the invariant of the rounds, with non-negative
      capacities, leaves a settled residual matrix. */
  lemma ConservingSettled(g: Graph, cap: Matrix, res: Matrix, f: int)
    requires WellFormed(g) && CapacityOf(g, cap) && Flow.NonNegCaps(g)
    requires Conserving(g.V, g.S, g.T, cap, res, f) && NonNegativeCells(res, g.V)
    ensures Flow.Settled(g.V, g.S, g.T, cap, res)
  {
  }

  /** `FordFulkerson`: the capacity matrix and the successor lists from the input,
      residual = capacity, the rounds, then flow = capacity - residual on every
      input edge. Without a reverse arc in the search, a finished run only
      guarantees that no S-T path of forward arcs is left. */
  method Solve(g: Graph, flow0: Matrix, fuel: nat)
    returns (flow: Matrix, f: int, finished: bool, ghost cap: Matrix, ghost res: Matrix)
    requires WellFormed(g) && IsSquare(flow0, g.V)
    ensures CapacityOf(g, cap) && Conserving(g.V, g.S, g.T, cap, res, f) && f >= 0
    ensures ExtractedFrom(g, cap, res, flow0, flow)
    ensures finished ==> !(g.S != g.T && Reachable(ForwardArc(Successors(g), res), g.S, g.T))
    ensures Flow.NonNegCaps(g) ==> Flow.Settled(g.V, g.S, g.T, cap, res)
    ensures Flow.NonNegCaps(g) && Flow.OneWay(g) && flow0 == Filled(g.V, 0) ==>
      Flow.Feasible(g.V, g.S, g.T, cap, flow)
  {
    var c := BuildCapacity(g);
    var out := Successors(g);
    var r;
    r, f, finished := Rounds(g.V, g.S, g.T, out, c, fuel);
    flow := ExtractFlow(g, c, r, flow0);
    cap, res := c, r;
    if Flow.NonNegCaps(g) {
      CapacityNonNegative(g, cap);
      ConservingSettled(g, cap, res, f);
      if Flow.OneWay(g) && flow0 == Filled(g.V, 0) {
        Flow.ExtractFeasible(g, cap, res, flow);
      }
    }
  }

  /** Under the invariant of the rounds, a positive residual cell lies on an input
      edge in one direction or the other, so it is an arc of a search over the
      symmetrised lists. */
  lemma PositiveListed(g: Graph, adj: seq<seq<int>>, cap: Matrix, res: Matrix, u: int, v: int)
    requires WellFormed(g) && CapacityOf(g, cap) && Flow.NonNegCaps(g) && Symmetrised(g, adj)
    requires Flow.Settled(g.V, g.S, g.T, cap, res) && Positive(res, u, v)
    ensures Forward(adj, res, u, v)
  {
    Flow.CapacityCells(g, cap, u, v);
    Flow.CapacityCells(g, cap, v, u);
    assert res[u][v] + res[v][u] == cap[u][v] + cap[v][u];
  }

  /** Every S-T path of the residual graph is a path of the search over the symmetrised lists. */
  lemma ReachListed(g: Graph, adj: seq<seq<int>>, cap: Matrix, res: Matrix)
    requires WellFormed(g) && CapacityOf(g, cap) && Flow.NonNegCaps(g) && Symmetrised(g, adj)
    requires Flow.Settled(g.V, g.S, g.T, cap, res)
    ensures Reachable(PositiveArc(res), g.S, g.T) ==> Reachable(ForwardArc(adj, res), g.S, g.T)
  {
    if Reachable(PositiveArc(res), g.S, g.T) {
      var p :| IsWalk(PositiveArc(res), p, g.S, g.T);
      forall k | 0 <= k < |p| - 1
        ensures ForwardArc(adj, res)(p[k], p[k + 1])
      {
        assert PositiveArc(res)(p[k], p[k + 1]);
        PositiveListed(g, adj, cap, res, p[k], p[k + 1]);
      }
      assert IsWalk(ForwardArc(adj, res), p, g.S, g.T);
    }
  }

  /** The solver with the reverse arcs the search should also follow: the search
      runs over the symmetrised lists of the push-relabel solvers, so a finished run
      leaves no S-T path in the residual graph at all. */
  method SolveWithReverse(g: Graph, flow0: Matrix, fuel: nat)
    returns (flow: Matrix, f: int, finished: bool, ghost cap: Matrix, ghost res: Matrix)
    requires WellFormed(g) && IsSquare(flow0, g.V)
    ensures CapacityOf(g, cap) && Conserving(g.V, g.S, g.T, cap, res, f) && f >= 0
    ensures ExtractedFrom(g, cap, res, flow0, flow)
    ensures Flow.NonNegCaps(g) ==> Flow.Settled(g.V, g.S, g.T, cap, res)
    ensures finished && Flow.NonNegCaps(g) ==> !(g.S != g.T && Reachable(PositiveArc(res), g.S, g.T))
    ensures Flow.NonNegCaps(g) && Flow.OneWay(g) && flow0 == Filled(g.V, 0) ==>
      Flow.Feasible(g.V, g.S, g.T, cap, flow)
  {
    var c := BuildCapacity(g);
    var adj := BuildAdjacency(g);
    var r;
    r, f, finished := Rounds(g.V, g.S, g.T, adj, c, fuel);
    flow := ExtractFlow(g, c, r, flow0);
    cap, res := c, r;
    if Flow.NonNegCaps(g) {
      CapacityNonNegative(g, cap);
      ConservingSettled(g, cap, res, f);
      ReachListed(g, adj, cap, res);
      if Flow.OneWay(g) && flow0 == Filled(g.V, 0) {
        Flow.ExtractFeasible(g, cap, res, flow);
      }
    }
  }

  /** Six vertices, S = 0, T = 5, unit edges 0->1, 0->2, 1->3, 1->4, 2->3, 3->5, 4->5. */
  const Crossing: Graph := Graph(6, 0, 5, [[Arc(1, 1), Arc(2, 1)], [Arc(3, 1), Arc(4, 1)], [Arc(3, 1)],
                                           [Arc(5, 1)], [Arc(5, 1)], []])

  const CrossingCap: Matrix := [[0, 1, 1, 0, 0, 0], [0, 0, 0, 1, 1, 0], [0, 0, 0, 1, 0, 0],
                                [0, 0, 0, 0, 0, 1], [0, 0, 0, 0, 0, 1], [0, 0, 0, 0, 0, 0]]

  /** The residual matrix after augmenting 0, 1, 3, 5 by one unit. */
  const CrossingRes: Matrix := [[0, 0, 1, 0, 0, 0], [1, 0, 0, 0, 1, 0], [0, 0, 0, 1, 0, 0],
                                [0, 1, 0, 0, 0, 0], [0, 0, 0, 0, 0, 1], [0, 0, 0, 1, 0, 0]]

  /** A flow of value 2: 0, 1, 4, 5 and 0, 2, 3, 5. */
  const CrossingBest: Matrix := [[0, 1, 1, 0, 0, 0], [0, 0, 0, 0, 1, 0], [0, 0, 0, 1, 0, 0],
                                 [0, 0, 0, 0, 0, 1], [0, 0, 0, 0, 0, 1], [0, 0, 0, 0, 0, 0]]

  /** The sum of six cells. */
  lemma SumSix(s: seq<int>)
    requires |s| == 6
    ensures Sum(s) == s[0] + s[1] + s[2] + s[3] + s[4] + s[5]
  {
    assert s[..0] == [] && s[..6] == s;
    SumSnoc(s, 0);
    SumSnoc(s, 1);
    SumSnoc(s, 2);
    SumSnoc(s, 3);
    SumSnoc(s, 4);
    SumSnoc(s, 5);
  }

  /** The successor lists and the capacity matrix of Crossing. */
  lemma CrossingInput()
    ensures WellFormed(Crossing) && CapacityOf(Crossing, CrossingCap)
    ensures Successors(Crossing) == [[1, 2], [3, 4], [3], [5], [5], []]
  {
    var g := Crossing;
    assert Heads(g.edge[0]) == [1, 2] && Heads(g.edge[1]) == [3, 4] && Heads(g.edge[2]) == [3];
    assert Heads(g.edge[3]) == [5] && Heads(g.edge[4]) == [5] && Heads(g.edge[5]) == [];
  }

  /** The first search scans 0 (visiting 1, 2), then 1 (visiting 3, 4), then 2,
      then 3, which visits 5: its tree path is 0, 1, 3, 5, with cf = 1. */
  lemma CrossingFirstPath()
    ensures Augmenting(Successors(Crossing), CrossingCap, 0, 5, [0, 0, 0, 1, 1, 3], [0, 1, 3, 5], 1)
  {
    CrossingInput();
    var out, cap := Successors(Crossing), CrossingCap;
    var path := [0, 1, 3, 5];
    CrossingFirstWalk();
    assert Bottleneck(cap, path, 1);
    assert Linked([0, 0, 0, 1, 1, 3], path);
  }

  lemma CrossingFirstWalk()
    ensures IsWalk(ForwardArc([[1, 2], [3, 4], [3], [5], [5], []], CrossingCap), [0, 1, 3, 5], 0, 5)
  {
    var out, cap, path := [[1, 2], [3, 4], [3], [5], [5], []], CrossingCap, [0, 1, 3, 5];
    assert Forward(out, cap, 0, 1) && Forward(out, cap, 1, 3) && Forward(out, cap, 3, 5);
    assert forall k :: 0 <= k < 3 ==> ForwardArc(out, cap)(path[k], path[k + 1]);
  }

  /** Augmenting 0, 1, 3, 5 by one unit leaves CrossingRes. */
  lemma CrossingAugmented()
    ensures AugmentedFrom(6, CrossingCap, CrossingRes, [0, 1, 3, 5], 1, 0)
  {
    var path, cap, res := [0, 1, 3, 5], CrossingCap, CrossingRes;
    assert Shifted(6, cap, res, 0, 1, 1) && Shifted(6, cap, res, 1, 3, 1) && Shifted(6, cap, res, 3, 5, 1);
    assert forall j :: 0 <= j < 3 ==> Shifted(6, cap, res, path[j], path[j + 1], 1);
    CrossingOffPath();
  }

  /** Augmenting 0, 1, 3, 5 changes no cell off the path. */
  lemma CrossingOffPath()
    ensures forall a, b :: 0 <= a < 6 && 0 <= b < 6 && OffPath([0, 1, 3, 5], a, b) ==> CrossingRes[a][b] == CrossingCap[a][b]
  {
    var path, cap, res := [0, 1, 3, 5], CrossingCap, CrossingRes;
    assert res[2] == cap[2] && res[4] == cap[4];
    forall a, b | 0 <= a < 6 && 0 <= b < 6 && OffPath(path, a, b)
      ensures res[a][b] == cap[a][b]
    {
      assert !(path[0] == a && path[1] == b) && !(path[0] == b && path[1] == a);
      assert !(path[1] == a && path[2] == b) && !(path[1] == b && path[2] == a);
      assert !(path[2] == a && path[3] == b) && !(path[2] == b && path[3] == a);
      if a == 0 {
        assert b != 1;
      } else if a == 1 {
        assert b != 0 && b != 3;
      } else if a == 3 {
        assert b != 1 && b != 5;
      } else if a == 5 {
        assert b != 3;
      }
    }
  }

  /** The column sums of CrossingCap and CrossingRes. */
  lemma CrossingColumns()
    ensures ColSum(CrossingCap, 6, 0) == 0 && ColSum(CrossingRes, 6, 0) == 1
    ensures ColSum(CrossingCap, 6, 1) == 1 && ColSum(CrossingRes, 6, 1) == 1
    ensures ColSum(CrossingCap, 6, 2) == 1 && ColSum(CrossingRes, 6, 2) == 1
    ensures ColSum(CrossingCap, 6, 3) == 2 && ColSum(CrossingRes, 6, 3) == 2
    ensures ColSum(CrossingCap, 6, 4) == 1 && ColSum(CrossingRes, 6, 4) == 1
    ensures ColSum(CrossingCap, 6, 5) == 2 && ColSum(CrossingRes, 6, 5) == 1
  {
    var cap, res := CrossingCap, CrossingRes;
    SumSix(Column(cap, 6, 0));
    SumSix(Column(res, 6, 0));
    SumSix(Column(cap, 6, 1));
    SumSix(Column(res, 6, 1));
    SumSix(Column(cap, 6, 2));
    SumSix(Column(res, 6, 2));
    SumSix(Column(cap, 6, 3));
    SumSix(Column(res, 6, 3));
    SumSix(Column(cap, 6, 4));
    SumSix(Column(res, 6, 4));
    SumSix(Column(cap, 6, 5));
    SumSix(Column(res, 6, 5));
  }

  /** CrossingRes keeps the invariant of the rounds with f = 1. */
  lemma CrossingConserving()
    ensures Conserving(6, 0, 5, CrossingCap, CrossingRes, 1)
    ensures Flow.Settled(6, 0, 5, CrossingCap, CrossingRes)
  {
    CrossingPaired();
    CrossingColumns();
  }

  lemma CrossingPaired()
    ensures IsSquare(CrossingCap, 6) && IsSquare(CrossingRes, 6) && Paired(6, CrossingCap, CrossingRes)
    ensures NonNegativeCells(CrossingRes, 6)
  {
    var cap, res := CrossingCap, CrossingRes;
    forall u, v | 0 <= u < 6 && 0 <= v < 6
      ensures res[u][v] + res[v][u] == cap[u][v] + cap[v][u] && res[u][v] >= 0
    {
      assert u == 0 || u == 1 || u == 2 || u == 3 || u == 4 || u == 5;
      assert v == 0 || v == 1 || v == 2 || v == 3 || v == 4 || v == 5;
    }
  }

  /** In CrossingRes no path of forward arcs leads from 0 to 5, but the residual
      graph has 0, 2, 3, 1, 4, 5 through the reverse arc 3 -> 1. */
  lemma CrossingStuck()
    ensures !Reachable(ForwardArc(Successors(Crossing), CrossingRes), 0, 5)
    ensures Reachable(PositiveArc(CrossingRes), 0, 5)
  {
    CrossingInput();
    var out, res := Successors(Crossing), CrossingRes;
    var m := {0, 2, 3};
    assert Closed(ForwardArc(out, res), m);
    ClosedBlocks(ForwardArc(out, res), m, 0, 5);
    assert IsWalk(PositiveArc(res), [0, 2, 3, 1, 4, 5], 0, 5);
  }

  /** CrossingBest is a feasible flow with 2 units out of 0. */
  lemma CrossingBetter()
    ensures Flow.Feasible(6, 0, 5, CrossingCap, CrossingBest) && Sum(CrossingBest[0]) == 2
  {
    var cap, best := CrossingCap, CrossingBest;
    CrossingBestCells();
    CrossingBestConserves();
    SumSix(best[0]);
  }

  lemma CrossingBestCells()
    ensures forall v :: 0 <= v < 6 ==> CrossingBest[v][v] == 0
    ensures forall u, v :: 0 <= u < 6 && 0 <= v < 6 && u != v ==> 0 <= CrossingBest[u][v] <= CrossingCap[u][v]
  {
    var cap, best := CrossingCap, CrossingBest;
    assert forall v :: 0 <= v < 6 ==> best[0][v] <= cap[0][v] && best[1][v] <= cap[1][v] && best[2][v] <= cap[2][v];
    assert forall v :: 0 <= v < 6 ==> best[3][v] <= cap[3][v] && best[4][v] <= cap[4][v] && best[5][v] <= cap[5][v];
  }

  lemma CrossingBestConserves()
    ensures forall v :: 1 <= v < 5 ==> ColSum(CrossingBest, 6, v) == Sum(CrossingBest[v])
  {
    var best := CrossingBest;
    SumSix(Column(best, 6, 1));
    SumSix(best[1]);
    SumSix(Column(best, 6, 2));
    SumSix(best[2]);
    SumSix(Column(best, 6, 3));
    SumSix(best[3]);
    SumSix(Column(best, 6, 4));
    SumSix(best[4]);
  }

  /** The solver as written stops below the maximum: on Crossing its first round
      leaves CrossingRes with f = 1, a state in which the search finds no path and
      the loop ends, though the residual graph still has an S-T path and a
      feasible flow of value 2 exists. */
  lemma ForwardOnlyStops()
    ensures WellFormed(Crossing) && CapacityOf(Crossing, CrossingCap)
    ensures Augmenting(Successors(Crossing), CrossingCap, 0, 5, [0, 0, 0, 1, 1, 3], [0, 1, 3, 5], 1)
    ensures AugmentedFrom(6, CrossingCap, CrossingRes, [0, 1, 3, 5], 1, 0)
    ensures Conserving(6, 0, 5, CrossingCap, CrossingRes, 1)
    ensures !Reachable(ForwardArc(Successors(Crossing), CrossingRes), 0, 5)
    ensures Reachable(PositiveArc(CrossingRes), 0, 5)
    ensures Flow.Feasible(6, 0, 5, CrossingCap, CrossingBest) && Sum(CrossingBest[0]) == 2
  {
    CrossingInput();
    CrossingFirstPath();
    CrossingAugmented();
    CrossingConserving();
    CrossingStuck();
    CrossingBetter();
  }
}

=== FILE: heap.dfy ===
/** The priority policies of the active-vertex queue: a binary heap stored in
    cells 1 .. size of the queue array (cell 0 unused, the children of cell i are
    2i and 2i+1), ordered by a key per vertex. The max-heaps (QTYPE 1-3) pop a
    vertex of largest key, the min-heap (QTYPE 4 of the parallel engine) one of
    smallest key. */
module Heap {
  import opened Base

  datatype Order = MaxFirst | MinFirst

  /** A vertex keyed `x` may sit above one keyed `y`. */
  predicate Above(o: Order, x: int, y: int)
  {
    match o
    case MaxFirst => x >= y
    case MinFirst => x <= y
  }

  /** A vertex keyed `x` must be moved above one keyed `y`: the comparison of the sift loops. */
  predicate Prior(o: Order, x: int, y: int)
  {
    match o
    case MaxFirst => x > y
    case MinFirst => x < y
  }

  /** Every cell of the queue array holds a vertex that has a key. */
  predicate Keyed(key: seq<int>, s: seq<int>)
  {
    AllBelow(s, |key|)
  }

  /** The queued vertices, cells 1 .. size. */
  function Items(s: seq<int>, size: int): seq<int>
    requires 0 <= size < |s|
  {
    s[1..size + 1]
  }

  /** The vertex in cell i may sit below the one in cell a (a is i's parent or grandparent). */
  predicate Under(o: Order, key: seq<int>, s: seq<int>, a: int, i: int)
    requires Keyed(key, s) && 0 <= a < |s| && 0 <= i < |s|
  {
    Above(o, key[s[a]], key[s[i]])
  }

  /** No parent in cells 1 .. size is keyed below (MaxFirst) or above (MinFirst) its child. */
  predicate IsHeap(o: Order, key: seq<int>, s: seq<int>, size: int)
    requires Keyed(key, s) && 0 <= size < |s|
  {
    forall i :: 2 <= i <= size ==> Under(o, key, s, i / 2, i)
  }

  /** Heap order may fail only between cell j and its parent; j's parent may sit above j's children. */
  predicate BrokenUpAt(o: Order, key: seq<int>, s: seq<int>, size: int, j: int)
    requires Keyed(key, s) && 0 <= size < |s| && 1 <= j <= size
  {
    && (forall i :: 2 <= i <= size && i != j ==> Under(o, key, s, i / 2, i))
    && (forall i :: 2 <= i <= size && i / 2 == j && j > 1 ==> Under(o, key, s, j / 2, i))
  }

  /** Heap order may fail only between cell j and its children; j's parent may sit above j's children. */
  predicate BrokenDownAt(o: Order, key: seq<int>, s: seq<int>, size: int, j: int)
    requires Keyed(key, s) && 0 <= size < |s| && 1 <= j
  {
    && (forall i :: 2 <= i <= size && i / 2 != j ==> Under(o, key, s, i / 2, i))
    && (forall i :: 2 <= i <= size && i / 2 == j && j > 1 ==> Under(o, key, s, j / 2, i))
  }

  function Swap(s: seq<int>, i: int, j: int): (r: seq<int>)
    requires 0 <= i < |s| && 0 <= j < |s|
    ensures |r| == |s| && r[i] == s[j] && r[j] == s[i]
    ensures forall k :: 0 <= k < |s| && k != i && k != j ==> r[k] == s[k]
    ensures multiset(r) == multiset(s)
  {
    s[i := s[j]][j := s[i]]
  }

  lemma SwapItems(s: seq<int>, size: int, i: int, j: int)
    requires 0 <= size < |s| && 1 <= i <= size && 1 <= j <= size
    ensures multiset(Items(Swap(s, i, j), size)) == multiset(Items(s, size))
  {
    var t := Items(s, size);
    assert Items(Swap(s, i, j), size) == t[i - 1 := s[j]][j - 1 := s[i]];
  }

  /** Moving a vertex's cell index when the source records positions (QTYPE 1 `vertexPtr`). */
  function Track(ptr: seq<int>, track: bool, x: int, at: int): (r: seq<int>)
    requires track ==> 0 <= x < |ptr|
    ensures |r| == |ptr|
  {
    if track then ptr[x := at] else ptr
  }

  /** Every recorded cell index lies in 1 .. n-1. */
  predicate InRange(ptr: seq<int>, n: int)
  {
    forall x :: 0 <= x < |ptr| ==> 1 <= ptr[x] < n
  }

  lemma SwapUp(o: Order, key: seq<int>, s: seq<int>, size: int, j: int)
    requires Keyed(key, s) && 0 <= size < |s| && 2 <= j <= size
    requires BrokenUpAt(o, key, s, size, j) && Prior(o, key[s[j]], key[s[j / 2]])
    ensures Keyed(key, Swap(s, j, j / 2)) && BrokenUpAt(o, key, Swap(s, j, j / 2), size, j / 2)
  {
    var t := Swap(s, j, j / 2);
    var up := j / 2;
    forall i | 2 <= i <= size && i != up
      ensures Under(o, key, t, i / 2, i)
    {
      if i == j {
      } else if i / 2 == up {
        assert Under(o, key, s, up, i);
      } else if i / 2 == j {
        assert Under(o, key, s, up, i);
      } else {
        assert Under(o, key, s, i / 2, i);
      }
    }
    forall i | 2 <= i <= size && i / 2 == up && up > 1
      ensures Under(o, key, t, up / 2, i)
    {
      assert Under(o, key, s, up / 2, up);
      if i != j {
        assert Under(o, key, s, up, i);
      }
    }
  }

  lemma UpDone(o: Order, key: seq<int>, s: seq<int>, size: int, j: int)
    requires Keyed(key, s) && 0 <= size < |s| && 1 <= j <= size
    requires BrokenUpAt(o, key, s, size, j)
    requires j == 1 || !Prior(o, key[s[j]], key[s[j / 2]])
    ensures IsHeap(o, key, s, size)
  {
    if j > 1 {
      assert Under(o, key, s, j / 2, j);
    }
  }

  /** The child a sift-down step swaps with is prior to its parent and sits above its sibling. */
  predicate GoodChild(o: Order, key: seq<int>, s: seq<int>, size: int, j: int, c: int)
    requires Keyed(key, s) && 0 <= size < |s| && 1 <= j
  {
    && (c == 2 * j || c == 2 * j + 1) && c <= size
    && Prior(o, key[s[c]], key[s[j]])
    && (2 * j <= size ==> Above(o, key[s[c]], key[s[2 * j]]))
    && (2 * j + 1 <= size ==> Above(o, key[s[c]], key[s[2 * j + 1]]))
  }

  lemma SwapDown(o: Order, key: seq<int>, s: seq<int>, size: int, j: int, c: int)
    requires Keyed(key, s) && 0 <= size < |s| && 1 <= j
    requires BrokenDownAt(o, key, s, size, j) && GoodChild(o, key, s, size, j, c)
    ensures Keyed(key, Swap(s, j, c)) && BrokenDownAt(o, key, Swap(s, j, c), size, c)
  {
    var t := Swap(s, j, c);
    forall i | 2 <= i <= size && i / 2 != c
      ensures Under(o, key, t, i / 2, i)
    {
      if i == c {
      } else if i / 2 == j {
        assert i == 2 * j || i == 2 * j + 1;
      } else if i == j {
        assert Under(o, key, s, j / 2, c);
      } else {
        assert Under(o, key, s, i / 2, i);
      }
    }
    forall i | 2 <= i <= size && i / 2 == c && c > 1
      ensures Under(o, key, t, c / 2, i)
    {
      assert Under(o, key, s, c, i);
    }
  }

  lemma DownDone(o: Order, key: seq<int>, s: seq<int>, size: int, j: int)
    requires Keyed(key, s) && 0 <= size < |s| && 1 <= j
    requires BrokenDownAt(o, key, s, size, j)
    requires 2 * j <= size ==> Above(o, key[s[j]], key[s[2 * j]])
    requires 2 * j + 1 <= size ==> Above(o, key[s[j]], key[s[2 * j + 1]])
    ensures IsHeap(o, key, s, size)
  {
    forall i | 2 <= i <= size
      ensures Under(o, key, s, i / 2, i)
    {
      if i / 2 == j {
        assert i == 2 * j || i == 2 * j + 1;
      }
    }
  }

  /** One sift-up step: the vertex in cell j trades places with its parent. */
  method StepUp(o: Order, key: seq<int>, s: seq<int>, size: int, j: int, p: seq<int>, track: bool,
                ghost broken: bool, ghost exact: bool, inside: bool)
    returns (s': seq<int>, p': seq<int>)
    requires Keyed(key, s) && 0 <= size < |s| && 2 <= j < |s| && Prior(o, key[s[j]], key[s[j / 2]])
    requires track ==> |p| == |key|
    requires inside ==> j <= size
    requires broken ==> inside && BrokenUpAt(o, key, s, size, j)
    requires exact ==> track && inside && p[s[j]] == j && forall i :: 1 <= i <= size && i != j ==> s[i] != s[j]
    ensures Keyed(key, s') && |s'| == |s| && multiset(s') == multiset(s) && |p'| == |p| && s'[j / 2] == s[j]
    ensures inside ==> multiset(Items(s', size)) == multiset(Items(s, size))
    ensures broken ==> BrokenUpAt(o, key, s', size, j / 2)
    ensures exact ==> p'[s'[j / 2]] == j / 2 && forall i :: 1 <= i <= size && i != j / 2 ==> s'[i] != s'[j / 2]
    ensures !track ==> p' == p
    ensures InRange(p, |s|) ==> InRange(p', |s|)
  {
    var up := j / 2;
    p' := Track(p, track, s[j], up);
    p' := Track(p', track, s[up], j);
    if inside {
      SwapItems(s, size, j, up);
    }
    if broken {
      SwapUp(o, key, s, size, j);
    }
    s' := Swap(s, j, up);
  }

  /** Sift-up from cell `start` while the key there is strictly prior to its parent's:
      the inner loop of heap push and of `queIncreaseKey`. With `track`, the two
      vertices of every swap get their new cell recorded in `ptr`. */
  method SiftUp(o: Order, key: seq<int>, slots: seq<int>, size: int, start: int, ptr: seq<int>, track: bool)
    returns (s: seq<int>, p: seq<int>, pos: int)
    requires Keyed(key, slots) && 0 <= size < |slots| && 1 <= start < |slots|
    requires track ==> |ptr| == |key|
    ensures Keyed(key, s) && |s| == |slots| && multiset(s) == multiset(slots) && |p| == |ptr|
    ensures 1 <= pos <= start && s[pos] == slots[start]
    ensures start <= size ==> multiset(Items(s, size)) == multiset(Items(slots, size))
    ensures start <= size && BrokenUpAt(o, key, slots, size, start) ==> IsHeap(o, key, s, size)
    ensures track && ptr[slots[start]] == start && Distinct(Items(slots, size)) && start <= size ==> p[s[pos]] == pos
    ensures !track ==> p == ptr
    ensures InRange(ptr, |slots|) ==> InRange(p, |slots|)
  {
    s, p, pos := slots, ptr, start;
    ghost var inr := InRange(ptr, |slots|);
    ghost var broken := start <= size && BrokenUpAt(o, key, slots, size, start);
    ghost var exact := track && ptr[slots[start]] == start && Distinct(Items(slots, size)) && start <= size;
    if exact {
      forall i | 1 <= i <= size && i != start
        ensures slots[i] != slots[start]
      {
        assert slots[i] == Items(slots, size)[i - 1] && slots[start] == Items(slots, size)[start - 1];
      }
    }
    while pos > 1 && Prior(o, key[s[pos]], key[s[pos / 2]])
      invariant Keyed(key, s) && |s| == |slots| && multiset(s) == multiset(slots) && |p| == |ptr|
      invariant 1 <= pos <= start && s[pos] == slots[start]
      invariant start <= size ==> multiset(Items(s, size)) == multiset(Items(slots, size))
      invariant broken ==> BrokenUpAt(o, key, s, size, pos)
      invariant exact ==> p[s[pos]] == pos && forall i :: 1 <= i <= size && i != pos ==> s[i] != s[pos]
      invariant !track ==> p == ptr
      invariant inr ==> InRange(p, |slots|)
    {
      s, p := StepUp(o, key, s, size, pos, p, track, broken, exact, start <= size);
      pos := pos / 2;
    }
    if broken {
      UpDone(o, key, s, size, pos);
    }
  }

  /** One sift-down step: the vertex in cell j trades places with its child c. */
  method StepDown(o: Order, key: seq<int>, s: seq<int>, size: int, j: int, c: int, p: seq<int>, track: bool,
                  ghost broken: bool)
    returns (s': seq<int>, p': seq<int>)
    requires Keyed(key, s) && 0 <= size < |s| && 1 <= j && GoodChild(o, key, s, size, j, c)
    requires track ==> |p| == |key|
    requires broken ==> BrokenDownAt(o, key, s, size, j)
    ensures Keyed(key, s') && |s'| == |s| && |p'| == |p|
    ensures multiset(Items(s', size)) == multiset(Items(s, size))
    ensures broken ==> BrokenDownAt(o, key, s', size, c)
    ensures !track ==> p' == p
    ensures InRange(p, |s|) ==> InRange(p', |s|)
  {
    if broken {
      SwapDown(o, key, s, size, j, c);
    }
    p' := Track(p, track, s[j], c);
    p' := Track(p', track, s[c], j);
    SwapItems(s, size, j, c);
    s' := Swap(s, j, c);
  }

  /** Sift-down from the root: swap with the prior child while either child is
      strictly prior, then fix a lone last child (the loop requires two children). */
  method SiftDown(o: Order, key: seq<int>, slots: seq<int>, size: int, ptr: seq<int>, track: bool)
    returns (s: seq<int>, p: seq<int>)
    requires Keyed(key, slots) && 0 <= size < |slots|
    requires track ==> |ptr| == |key|
    ensures Keyed(key, s) && |s| == |slots| && |p| == |ptr|
    ensures multiset(Items(s, size)) == multiset(Items(slots, size))
    ensures BrokenDownAt(o, key, slots, size, 1) ==> IsHeap(o, key, s, size)
    ensures !track ==> p == ptr
    ensures InRange(ptr, |slots|) ==> InRange(p, |slots|)
  {
    s, p := slots, ptr;
    var pos := 1;
    ghost var inr := InRange(ptr, |slots|);
    ghost var broken := BrokenDownAt(o, key, slots, size, 1);
    while pos * 2 + 1 <= size
      && (Prior(o, key[s[pos * 2]], key[s[pos]]) || Prior(o, key[s[pos * 2 + 1]], key[s[pos]]))
      invariant Keyed(key, s) && |s| == |slots| && |p| == |ptr|
      invariant 1 <= pos && (pos <= size || pos == 1)
      invariant multiset(Items(s, size)) == multiset(Items(slots, size))
      invariant broken ==> BrokenDownAt(o, key, s, size, pos)
      invariant !track ==> p == ptr
      invariant inr ==> InRange(p, |slots|)
      decreases size - pos
    {
      var child := if Prior(o, key[s[pos * 2]], key[s[pos * 2 + 1]]) then pos * 2 else pos * 2 + 1;
      assert GoodChild(o, key, s, size, pos, child);
      s, p := StepDown(o, key, s, size, pos, child, p, track, broken);
      pos := child;
    }
    if pos * 2 <= size && Prior(o, key[s[pos * 2]], key[s[pos]]) {
      assert GoodChild(o, key, s, size, pos, pos * 2);
      s, p := StepDown(o, key, s, size, pos, pos * 2, p, track, broken);
      pos := pos * 2;
    }
    if broken {
      DownDone(o, key, s, size, pos);
    }
  }

  /** The root of a heap sits above every queued vertex. */
  lemma {:induction false} RootAbove(o: Order, key: seq<int>, s: seq<int>, size: int, i: int)
    requires Keyed(key, s) && 0 <= size < |s| && IsHeap(o, key, s, size)
    requires 1 <= i <= size
    ensures Above(o, key[s[1]], key[s[i]])
    decreases i
  {
    if i > 1 {
      RootAbove(o, key, s, size, i / 2);
      assert Under(o, key, s, i / 2, i);
    }
  }

  /** Overwriting the root of a heap leaves heap order broken at most below the root. */
  lemma RootReplaced(o: Order, key: seq<int>, s: seq<int>, size: int, x: int)
    requires Keyed(key, s) && 1 <= size < |s| && IsHeap(o, key, s, size) && 0 <= x < |key|
    ensures Keyed(key, s[1 := x]) && BrokenDownAt(o, key, s[1 := x], size - 1, 1)
  {
    var r := s[1 := x];
    forall i | 2 <= i <= size - 1 && i / 2 != 1
      ensures Under(o, key, r, i / 2, i)
    {
      assert Under(o, key, s, i / 2, i);
    }
  }

  lemma TopAboveAll(o: Order, key: seq<int>, s: seq<int>, size: int)
    requires Keyed(key, s) && 0 <= size < |s| && IsHeap(o, key, s, size) && 1 <= size
    ensures forall i :: 1 <= i <= size ==> Above(o, key[s[1]], key[s[i]])
  {
    forall i | 1 <= i <= size
      ensures Above(o, key[s[1]], key[s[i]])
    {
      RootAbove(o, key, s, size, i);
    }
  }

  /** Moving the last vertex into the root drops exactly the root's vertex from the queue. */
  lemma MoveLastToRoot(s: seq<int>, size: int)
    requires 1 <= size < |s|
    ensures multiset(Items(s[1 := s[size]], size - 1)) == multiset(Items(s, size)) - multiset{s[1]}
  {
    var t := Items(s, size);
    assert t == [s[1]] + t[1..];
    if size > 1 {
      var r := Items(s[1 := s[size]], size - 1);
      forall k | 1 <= k < size - 1
        ensures r[k] == t[1..size - 1][k - 1]
      {
        assert r[k] == s[k + 1] && t[k] == s[k + 1];
      }
      assert r == [s[size]] + t[1..size - 1];
      assert t[1..] == t[1..size - 1] + [s[size]];
    }
  }

  /** A vertex written just past the end of a heap breaks heap order at most above its own cell. */
  lemma Appended(o: Order, key: seq<int>, slots: seq<int>, size: int, u: int)
    requires Keyed(key, slots) && 0 <= size && size + 1 < |slots| && 0 <= u < |key|
    requires IsHeap(o, key, slots, size)
    ensures Keyed(key, slots[size + 1 := u]) && BrokenUpAt(o, key, slots[size + 1 := u], size + 1, size + 1)
  {
    var s := slots[size + 1 := u];
    forall i | 2 <= i <= size + 1 && i != size + 1
      ensures Under(o, key, s, i / 2, i)
    {
      assert Under(o, key, slots, i / 2, i);
    }
  }

  /** Heap push: the vertex goes to cell size+1, then sifts up. */
  method Insert(o: Order, key: seq<int>, slots: seq<int>, size: int, u: int, ptr: seq<int>, track: bool)
    returns (s: seq<int>, size': int, p: seq<int>)
    requires Keyed(key, slots) && 0 <= size && size + 1 < |slots| && 0 <= u < |key|
    requires track ==> |ptr| == |key|
    ensures Keyed(key, s) && |s| == |slots| && size' == size + 1 && |p| == |ptr|
    ensures multiset(Items(s, size')) == multiset(Items(slots, size)) + multiset{u}
    ensures IsHeap(o, key, slots, size) ==> IsHeap(o, key, s, size')
    ensures track && Distinct(Items(slots, size)) && u !in Items(slots, size) ==> 1 <= p[u] <= size' && s[p[u]] == u
    ensures !track ==> p == ptr
    ensures InRange(ptr, |slots|) ==> InRange(p, |slots|)
  {
    var s0 := slots[size + 1 := u];
    size' := size + 1;
    var p0 := Track(ptr, track, u, size');
    assert Items(s0, size') == Items(slots, size) + [u];
    if track && Distinct(Items(slots, size)) && u !in Items(slots, size) {
      assert Distinct(Items(s0, size'));
    }
    if IsHeap(o, key, slots, size) {
      Appended(o, key, slots, size, u);
    }
    var pos;
    s, p, pos := SiftUp(o, key, s0, size', size', p0, track);
  }

  /** What heap pop relies on: the root is extreme, and moving the last vertex into
      the root removes the root's vertex and breaks heap order only below the root. */
  lemma PopFacts(o: Order, key: seq<int>, s: seq<int>, size: int)
    requires Keyed(key, s) && 1 <= size < |s|
    ensures Keyed(key, s[1 := s[size]])
    ensures multiset(Items(s[1 := s[size]], size - 1)) == multiset(Items(s, size)) - multiset{s[1]}
    ensures IsHeap(o, key, s, size) ==> BrokenDownAt(o, key, s[1 := s[size]], size - 1, 1)
    ensures IsHeap(o, key, s, size) ==> forall i :: 1 <= i <= size ==> Above(o, key[s[1]], key[s[i]])
  {
    MoveLastToRoot(s, size);
    if IsHeap(o, key, s, size) {
      TopAboveAll(o, key, s, size);
      RootReplaced(o, key, s, size, s[size]);
    }
  }

  /** Heap pop: -1 on an empty heap; otherwise the root, with the last vertex moved
      to the root and sifted down. */
  method RemoveTop(o: Order, key: seq<int>, slots: seq<int>, size: int, ptr: seq<int>, track: bool)
    returns (s: seq<int>, size': int, p: seq<int>, top: int)
    requires Keyed(key, slots) && 0 <= size < |slots|
    requires track ==> |ptr| == |key|
    ensures Keyed(key, s) && |s| == |slots| && 0 <= size' && |p| == |ptr|
    ensures size == 0 ==> top == -1 && s == slots && size' == 0 && p == ptr
    ensures size > 0 ==> top == slots[1] && size' == size - 1
    ensures size > 0 ==> multiset(Items(s, size')) == multiset(Items(slots, size)) - multiset{top}
    ensures IsHeap(o, key, slots, size) ==> IsHeap(o, key, s, size')
    ensures size > 0 && IsHeap(o, key, slots, size) ==> forall i :: 1 <= i <= size ==> Above(o, key[top], key[slots[i]])
    ensures !track ==> p == ptr
    ensures InRange(ptr, |slots|) ==> InRange(p, |slots|)
  {
    if size == 0 {
      return slots, 0, ptr, -1;
    }
    top := slots[1];
    var s0 := slots[1 := slots[size]];
    size' := size - 1;
    PopFacts(o, key, slots, size);
    ghost var heap := IsHeap(o, key, slots, size);
    assert heap ==> BrokenDownAt(o, key, s0, size', 1);
    s, p := SiftDown(o, key, s0, size', ptr, track);
    assert heap ==> IsHeap(o, key, s, size');
  }

  /** `queIncreaseKey`: sift-up from the cell the source believes the vertex occupies. */
  method IncreaseKey(o: Order, key: seq<int>, slots: seq<int>, size: int, at: int)
    returns (s: seq<int>)
    requires Keyed(key, slots) && 0 <= size < |slots| && 1 <= at < |slots|
    ensures Keyed(key, s) && |s| == |slots| && multiset(s) == multiset(slots)
    ensures at <= size ==> multiset(Items(s, size)) == multiset(Items(slots, size))
    ensures at <= size && BrokenUpAt(o, key, slots, size, at) ==> IsHeap(o, key, s, size)
  {
    var p, pos;
    s, p, pos := SiftUp(o, key, slots, size, at, [], false);
  }

  /** Raising the key of the vertex in cell j (lowering it, for a min-heap) of a heap
      leaves heap order broken at most between j and its parent. */
  lemma RaisedKey(o: Order, key: seq<int>, s: seq<int>, size: int, j: int, k: int)
    requires Keyed(key, s) && 0 <= size < |s| && 1 <= j <= size
    requires IsHeap(o, key, s, size) && Distinct(Items(s, size))
    requires Above(o, k, key[s[j]])
    ensures BrokenUpAt(o, key[s[j] := k], s, size, j)
  {
    var key' := key[s[j] := k];
    forall i | 1 <= i <= size && i != j
      ensures key'[s[i]] == key[s[i]]
    {
      assert s[i] == Items(s, size)[i - 1] && s[j] == Items(s, size)[j - 1];
    }
    forall i | 2 <= i <= size && i != j
      ensures Under(o, key', s, i / 2, i)
    {
      assert Under(o, key, s, i / 2, i);
      if i / 2 == j {
        assert key'[s[j]] == k;
      }
    }
    forall i | 2 <= i <= size && i / 2 == j && j > 1
      ensures Under(o, key', s, j / 2, i)
    {
      assert Under(o, key, s, j / 2, j) && Under(o, key, s, j, i);
    }
  }

  /** Changing the key of a vertex that is not queued leaves heap order intact. */
  lemma KeyOutside(o: Order, key: seq<int>, s: seq<int>, size: int, u: int, k: int)
    requires Keyed(key, s) && 0 <= size < |s| && IsHeap(o, key, s, size)
    requires 0 <= u < |key| && u !in Items(s, size)
    ensures Keyed(key[u := k], s) && IsHeap(o, key[u := k], s, size)
  {
    var key' := key[u := k];
    forall i | 2 <= i <= size
      ensures Under(o, key', s, i / 2, i)
    {
      assert s[i] == Items(s, size)[i - 1] && s[i / 2] == Items(s, size)[i / 2 - 1];
      assert Under(o, key, s, i / 2, i);
    }
  }
}

=== FILE: labelling.dfy ===
/** The initial height labelling of both push-relabel solvers: a breadth-first
    search from the sink T. The search follows an arc u -> v from an already
    labelled u when v is a neighbour of u with residual[u][v] != 0, so it labels
    the vertices T reaches along residual arcs (not those that reach T). */
module Labelling {
  import opened Base
  import opened Reach

  /** Neighbour lists and a residual matrix over the vertices 0 .. V-1. */
  predicate Network(V: int, adj: seq<seq<int>>, res: Matrix)
  {
    && |adj| == V && IsSquare(res, V)
    && forall u, i :: 0 <= u < V && 0 <= i < |adj[u]| ==> 0 <= adj[u][i] < V
  }

  /** The arc the labelling search follows. */
  predicate Leads(adj: seq<seq<int>>, res: Matrix, u: int, v: int)
  {
    0 <= u < |adj| && u < |res| && 0 <= v < |res[u]| && v in adj[u] && res[u][v] != 0
  }

  ghost function LeadsArc(adj: seq<seq<int>>, res: Matrix): (int, int) -> bool
  {
    (u, v) => Leads(adj, res, u, v)
  }

  predicate Labelled(height: seq<int>, v: int)
    requires 0 <= v < |height|
  {
    height[v] != INT_MAX
  }

  /** `seen` is the set of labelled vertices, and every label is below |seen|. */
  ghost predicate Counted(V: int, height: seq<int>, seen: set<int>)
    requires |height| == V
  {
    && (forall v :: v in seen ==> 0 <= v < V)
    && (forall v :: 0 <= v < V ==> (v in seen <==> Labelled(height, v)))
    && (forall v :: 0 <= v < V && Labelled(height, v) ==> 0 <= height[v] < |seen|)
  }

  /** Every labelled vertex is queued, already scanned, or the vertex `cur` being scanned. */
  ghost predicate Tracked(V: int, height: seq<int>, queue: seq<int>, done: set<int>, cur: int)
    requires |height| == V
  {
    && (forall k :: 0 <= k < |queue| ==> 0 <= queue[k] < V && Labelled(height, queue[k]))
    && (forall v :: 0 <= v < V && Labelled(height, v) ==> v in done || v in queue || v == cur)
  }

  /** A scanned vertex has every search neighbour labelled. */
  ghost predicate Scanned(V: int, adj: seq<seq<int>>, res: Matrix, height: seq<int>, done: set<int>)
    requires |height| == V
  {
    forall w, v :: w in done && Leads(adj, res, w, v) ==> 0 <= v < V && Labelled(height, v)
  }

  /** Every labelled vertex other than T is one more than a labelled vertex that leads to it. */
  ghost predicate Discovered(V: int, T: int, adj: seq<seq<int>>, res: Matrix, height: seq<int>)
    requires |height| == V
  {
    forall v :: 0 <= v < V && v != T && Labelled(height, v) ==>
      exists w :: 0 <= w < V && Leads(adj, res, w, v) && Labelled(height, w) && height[v] == height[w] + 1
  }

  /** Every labelled vertex is reachable from T along search arcs. */
  ghost predicate FromSink(V: int, T: int, adj: seq<seq<int>>, res: Matrix, height: seq<int>)
    requires |height| == V
  {
    forall v :: 0 <= v < V && Labelled(height, v) ==> Reachable(LeadsArc(adj, res), T, v)
  }

  /** The invariant of the search. */
  ghost predicate Searching(V: int, T: int, adj: seq<seq<int>>, res: Matrix, height: seq<int>,
                            queue: seq<int>, seen: set<int>, done: set<int>, cur: int)
  {
    && |height| == V && 0 <= T < V && height[T] == 0
    && Counted(V, height, seen) && Tracked(V, height, queue, done, cur) && Scanned(V, adj, res, height, done)
    && Discovered(V, T, adj, res, height) && FromSink(V, T, adj, res, height)
  }

  lemma DiscoverCounted(V: int, height: seq<int>, seen: set<int>, u: int, v: int)
    requires 1 <= V <= INT_MAX && |height| == V && Counted(V, height, seen)
    requires 0 <= u < V && 0 <= v < V && Labelled(height, u) && !Labelled(height, v)
    ensures Counted(V, height[v := height[u] + 1], seen + {v}) && |seen + {v}| == |seen| + 1
  {
    SubsetCard(seen + {v}, Range(V));
    assert v !in seen;
  }

  lemma DiscoverDiscovered(V: int, T: int, adj: seq<seq<int>>, res: Matrix, height: seq<int>, u: int, v: int, x: int)
    requires |height| == V && Discovered(V, T, adj, res, height)
    requires 0 <= u < V && 0 <= v < V && Labelled(height, u) && !Labelled(height, v) && Leads(adj, res, u, v)
    requires x != INT_MAX && x == height[u] + 1
    ensures Discovered(V, T, adj, res, height[v := x])
  {
    var h := height[v := x];
    forall w | 0 <= w < V && w != T && Labelled(h, w)
      ensures exists y :: 0 <= y < V && Leads(adj, res, y, w) && Labelled(h, y) && h[w] == h[y] + 1
    {
      if w == v {
        assert Leads(adj, res, u, w) && Labelled(h, u);
      } else {
        var y :| 0 <= y < V && Leads(adj, res, y, w) && Labelled(height, y) && height[w] == height[y] + 1;
        assert Labelled(h, y);
      }
    }
  }

  lemma DiscoverFromSink(V: int, T: int, adj: seq<seq<int>>, res: Matrix, height: seq<int>, u: int, v: int, x: int)
    requires |height| == V && FromSink(V, T, adj, res, height)
    requires 0 <= u < V && 0 <= v < V && Labelled(height, u) && Leads(adj, res, u, v)
    ensures FromSink(V, T, adj, res, height[v := x])
  {
    assert LeadsArc(adj, res)(u, v);
    ReachStep(LeadsArc(adj, res), T, u, v);
  }

  /** Labelling an unlabelled search neighbour v of the scanned vertex u keeps the invariant. */
  lemma Discover(V: int, T: int, adj: seq<seq<int>>, res: Matrix, height: seq<int>, queue: seq<int>,
                 seen: set<int>, done: set<int>, u: int, v: int)
    requires 1 <= V <= INT_MAX && Network(V, adj, res) && 0 <= u < V && 0 <= v < V
    requires Searching(V, T, adj, res, height, queue, seen, done, u) && Labelled(height, u)
    requires !Labelled(height, v) && Leads(adj, res, u, v)
    ensures Searching(V, T, adj, res, height[v := height[u] + 1], queue + [v], seen + {v}, done, u)
    ensures |seen + {v}| == |seen| + 1
  {
    var h := height[v := height[u] + 1];
    DiscoverCounted(V, height, seen, u, v);
    assert Labelled(h, v);
    DiscoverDiscovered(V, T, adj, res, height, u, v, height[u] + 1);
    DiscoverFromSink(V, T, adj, res, height, u, v, height[u] + 1);
    DiscoverTracked(V, height, queue, done, u, v, height[u] + 1);
    DiscoverScanned(V, adj, res, height, done, v, height[u] + 1);
  }

  lemma DiscoverTracked(V: int, height: seq<int>, queue: seq<int>, done: set<int>, u: int, v: int, x: int)
    requires |height| == V && Tracked(V, height, queue, done, u) && 0 <= v < V && x != INT_MAX
    ensures Tracked(V, height[v := x], queue + [v], done, u)
  {
    var h, q := height[v := x], queue + [v];
    assert forall k :: 0 <= k < |queue| ==> q[k] == queue[k];
    assert q[|queue|] == v;
  }

  lemma DiscoverScanned(V: int, adj: seq<seq<int>>, res: Matrix, height: seq<int>, done: set<int>, v: int, x: int)
    requires |height| == V && Scanned(V, adj, res, height, done) && 0 <= v < V && x != INT_MAX
    ensures Scanned(V, adj, res, height[v := x], done)
  {
  }

  /** The state of the scan of u after its first i neighbours. */
  ghost predicate ScanningFrom(V: int, T: int, adj: seq<seq<int>>, res: Matrix, height: seq<int>, queue: seq<int>,
                               seen: set<int>, done: set<int>, u: int, i: int, seen0: set<int>, queue0: seq<int>)
    requires Network(V, adj, res) && 0 <= u < V
  {
    && 0 <= i <= |adj[u]|
    && Searching(V, T, adj, res, height, queue, seen, done, u) && Labelled(height, u)
    && seen0 <= seen && |seen| - |seen0| == |queue| - |queue0|
    && forall k :: 0 <= k < i && res[u][adj[u][k]] != 0 ==> adj[u][k] in seen
  }

  /** Neighbour i of u: labelled and queued when still at INT_MAX with a nonzero residual. */
  method Consider(V: int, T: int, adj: seq<seq<int>>, res: Matrix, height: seq<int>, queue: seq<int>,
                  ghost seen: set<int>, ghost done: set<int>, u: int, i: int, ghost seen0: set<int>, ghost queue0: seq<int>)
    returns (height': seq<int>, queue': seq<int>, ghost seen': set<int>)
    requires 1 <= V <= INT_MAX && Network(V, adj, res) && 0 <= u < V && 0 <= i < |adj[u]|
    requires ScanningFrom(V, T, adj, res, height, queue, seen, done, u, i, seen0, queue0)
    ensures ScanningFrom(V, T, adj, res, height', queue', seen', done, u, i + 1, seen0, queue0)
  {
    var v := adj[u][i];
    if height[v] == INT_MAX && res[u][v] != 0 {
      Discover(V, T, adj, res, height, queue, seen, done, u, v);
      height' := height[v := height[u] + 1];
      seen' := seen + {v};
      queue' := queue + [v];
    } else {
      height', queue', seen' := height, queue, seen;
      assert res[u][v] != 0 ==> v in seen by {
        if res[u][v] != 0 {
          assert Labelled(height, v);
        }
      }
    }
  }

  /** Once every neighbour of u is considered, u can join the scanned vertices. */
  lemma ScanDone(V: int, T: int, adj: seq<seq<int>>, res: Matrix, height: seq<int>, queue: seq<int>,
                 seen: set<int>, done: set<int>, u: int, seen0: set<int>, queue0: seq<int>)
    requires Network(V, adj, res) && 0 <= u < V
    requires ScanningFrom(V, T, adj, res, height, queue, seen, done, u, |adj[u]|, seen0, queue0)
    ensures Searching(V, T, adj, res, height, queue, seen, done + {u}, -1)
  {
    forall v | Leads(adj, res, u, v)
      ensures 0 <= v < V && Labelled(height, v)
    {
      var k :| 0 <= k < |adj[u]| && adj[u][k] == v;
      assert v in seen;
    }
  }

  /** The scan of one popped vertex u: each neighbour v still at INT_MAX with
      residual[u][v] != 0 gets height[u] + 1 and joins the queue. */
  method Scan(V: int, T: int, adj: seq<seq<int>>, res: Matrix, height: seq<int>, queue: seq<int>,
              ghost seen: set<int>, ghost done: set<int>, u: int)
    returns (height': seq<int>, queue': seq<int>, ghost seen': set<int>)
    requires 1 <= V <= INT_MAX && Network(V, adj, res) && 0 <= u < V
    requires Searching(V, T, adj, res, height, queue, seen, done, u) && Labelled(height, u)
    ensures Searching(V, T, adj, res, height', queue', seen', done + {u}, -1)
    ensures seen <= seen' && |seen'| - |seen| == |queue'| - |queue|
  {
    height', queue', seen' := height, queue, seen;
    var i := 0;
    while i < |adj[u]|
      invariant ScanningFrom(V, T, adj, res, height', queue', seen', done, u, i, seen, queue)
    {
      height', queue', seen' := Consider(V, T, adj, res, height', queue', seen', done, u, i, seen, queue);
      i := i + 1;
    }
    ScanDone(V, T, adj, res, height', queue', seen', done, u, seen, queue);
  }

  /** Every vertex starts at INT_MAX; T gets 0 and enters the queue; each vertex
      popped labels its unlabelled search neighbours with its own height + 1. */
  method Label(V: int, T: int, adj: seq<seq<int>>, res: Matrix) returns (height: seq<int>)
    requires 1 <= V <= INT_MAX && 0 <= T < V && Network(V, adj, res)
    ensures |height| == V && height[T] == 0
    ensures forall v :: 0 <= v < V ==> height[v] == INT_MAX || 0 <= height[v] < V
    ensures forall v :: 0 <= v < V && v != T && Labelled(height, v) ==>
      exists u :: 0 <= u < V && Leads(adj, res, u, v) && Labelled(height, u) && height[v] == height[u] + 1
    ensures forall v :: 0 <= v < V ==> (Labelled(height, v) <==> Reachable(LeadsArc(adj, res), T, v))
  {
    height := seq(V, _ => INT_MAX);
    height := height[T := 0];
    var queue := [T];
    ghost var seen: set<int> := {T};
    ghost var done: set<int> := {};
    ReachSelf(LeadsArc(adj, res), T);
    while |queue| > 0
      invariant Searching(V, T, adj, res, height, queue, seen, done, -1)
      decreases V - |seen|, |queue|
    {
      SubsetCard(seen, Range(V));
      var u := queue[0];
      queue := queue[1..];
      ghost var seen0 := seen;
      height, queue, seen := Scan(V, T, adj, res, height, queue, seen, done, u);
      SubsetCard(seen0, seen);
      done := done + {u};
      SubsetCard(seen, Range(V));
    }
    SubsetCard(seen, Range(V));
    var m := set v | 0 <= v < V && Labelled(height, v);
    assert Closed(LeadsArc(adj, res), m);
    forall v | 0 <= v < V && !Labelled(height, v)
      ensures !Reachable(LeadsArc(adj, res), T, v)
    {
      ClosedBlocks(LeadsArc(adj, res), m, T, v);
    }
  }
}

=== FILE: network.dfy ===
/** The input graph and the set-up every solver performs on it: the adjacency
    lists, the capacity matrix, and the final flow extraction. */
module Network {
  import opened Base

  /** One input edge: its head vertex and its capacity. */
  datatype Arc = Arc(to: int, cap: int)

  /** The input: V vertices, source S, sink T and the out-edges of every vertex, in input order. */
  datatype Graph = Graph(V: int, S: int, T: int, edge: seq<seq<Arc>>)

  predicate WellFormed(g: Graph)
  {
    && g.V >= 1 && 0 <= g.S < g.V && 0 <= g.T < g.V && |g.edge| == g.V
    && forall u, i :: 0 <= u < g.V && 0 <= i < |g.edge[u]| ==> 0 <= g.edge[u][i].to < g.V
  }

  /** The head vertices of a list of edges, in order. */
  function Heads(arcs: seq<Arc>): (r: seq<int>)
    ensures |r| == |arcs| && forall i :: 0 <= i < |arcs| ==> r[i] == arcs[i].to
  {
    seq(|arcs|, i requires 0 <= i < |arcs| => arcs[i].to)
  }

  lemma HeadsPrefix(arcs: seq<Arc>, i: int)
    requires 0 <= i < |arcs|
    ensures Heads(arcs[..i + 1]) == Heads(arcs[..i]) + [arcs[i].to]
  {
  }

  /** The input has an edge u -> v. */
  predicate IsEdge(g: Graph, u: int, v: int)
    requires WellFormed(g) && 0 <= u < g.V
  {
    v in Heads(g.edge[u])
  }

  /** The capacity of u -> v as the set-up loops leave it: the last input edge u -> v
      writes the cell, and the cell is 0 when there is no such edge. */
  function LastCap(arcs: seq<Arc>, v: int): int
  {
    if |arcs| == 0 then 0
    else if arcs[|arcs| - 1].to == v then arcs[|arcs| - 1].cap
    else LastCap(arcs[..|arcs| - 1], v)
  }

  lemma LastCapSnoc(arcs: seq<Arc>, i: int, v: int)
    requires 0 <= i < |arcs|
    ensures LastCap(arcs[..i + 1], v) == if arcs[i].to == v then arcs[i].cap else LastCap(arcs[..i], v)
  {
    assert arcs[..i + 1][..i] == arcs[..i];
  }

  /** A vertex with no edge to `v` has capacity 0 towards it; a non-zero capacity
      is the capacity of some input edge to `v`. */
  lemma {:induction false} LastCapSource(arcs: seq<Arc>, v: int)
    ensures v !in Heads(arcs) ==> LastCap(arcs, v) == 0
    ensures v in Heads(arcs) ==> exists i :: 0 <= i < |arcs| && arcs[i].to == v && LastCap(arcs, v) == arcs[i].cap
    decreases |arcs|
  {
    if |arcs| > 0 {
      var init := arcs[..|arcs| - 1];
      LastCapSource(init, v);
      HeadsPrefix(arcs, |arcs| - 1);
      assert arcs == arcs[..|arcs| - 1 + 1];
      if arcs[|arcs| - 1].to != v && v in Heads(arcs) {
        assert v in Heads(init);
        var i :| 0 <= i < |init| && init[i].to == v && LastCap(init, v) == init[i].cap;
        assert arcs[i] == init[i];
      }
    }
  }

  /** The capacity matrix of the input. */
  predicate CapacityOf(g: Graph, cap: Matrix)
    requires WellFormed(g)
  {
    IsSquare(cap, g.V) && forall u, v :: 0 <= u < g.V && 0 <= v < g.V ==> cap[u][v] == LastCap(g.edge[u], v)
  }

  /** Fills the capacity matrix with zeroes and then writes every input edge's
      capacity into its cell, in input order. */
  method BuildCapacity(g: Graph) returns (cap: Matrix)
    requires WellFormed(g)
    ensures CapacityOf(g, cap)
  {
    cap := Filled(g.V, 0);
    var u := 0;
    while u < g.V
      invariant 0 <= u <= g.V && IsSquare(cap, g.V)
      invariant forall x, y :: 0 <= x < g.V && 0 <= y < g.V ==> cap[x][y] == (if x < u then LastCap(g.edge[x], y) else 0)
    {
      var i := 0;
      while i < |g.edge[u]|
        invariant 0 <= i <= |g.edge[u]| && IsSquare(cap, g.V)
        invariant forall x, y :: 0 <= x < u && 0 <= y < g.V ==> cap[x][y] == LastCap(g.edge[x], y)
        invariant forall y :: 0 <= y < g.V ==> cap[u][y] == LastCap(g.edge[u][..i], y)
        invariant forall x, y :: u < x < g.V && 0 <= y < g.V ==> cap[x][y] == 0
      {
        cap := Put(cap, u, g.edge[u][i].to, g.edge[u][i].cap);
        forall y | 0 <= y < g.V
          ensures cap[u][y] == LastCap(g.edge[u][..i + 1], y)
        {
          LastCapSnoc(g.edge[u], i, y);
        }
        i := i + 1;
      }
      assert g.edge[u][..i] == g.edge[u];
      u := u + 1;
    }
  }

  /** Some input edge joins x and y, in one direction or the other, among the rows
      before `u` and the first `i` edges of row `u`. */
  predicate Joined(g: Graph, u: int, i: int, x: int, y: int)
    requires WellFormed(g) && 0 <= u < g.V && 0 <= i <= |g.edge[u]| && 0 <= x < g.V && 0 <= y < g.V
  {
    || (x < u && y in Heads(g.edge[x])) || (y < u && x in Heads(g.edge[y]))
    || (x == u && y in Heads(g.edge[u][..i])) || (y == u && x in Heads(g.edge[u][..i]))
  }

  /** Adjacency of the push-relabel solvers: every input edge u -> v lists v among
      the neighbours of u and u among the neighbours of v. */
  predicate Symmetrised(g: Graph, adj: seq<seq<int>>)
    requires WellFormed(g)
  {
    && |adj| == g.V
    && (forall u, i :: 0 <= u < g.V && 0 <= i < |adj[u]| ==> 0 <= adj[u][i] < g.V)
    && forall u, v :: 0 <= u < g.V && 0 <= v < g.V ==> (v in adj[u] <==> IsEdge(g, u, v) || IsEdge(g, v, u))
  }

  /** The push-relabel adjacency loop: for each input edge u -> v, v is appended to
      u's list and u to v's list. */
  method BuildAdjacency(g: Graph) returns (adj: seq<seq<int>>)
    requires WellFormed(g)
    ensures Symmetrised(g, adj)
  {
    adj := seq(g.V, _ => []);
    var u := 0;
    while u < g.V
      invariant 0 <= u <= g.V && |adj| == g.V
      invariant forall x, k :: 0 <= x < g.V && 0 <= k < |adj[x]| ==> 0 <= adj[x][k] < g.V
      invariant forall x, y :: 0 <= x < g.V && 0 <= y < g.V ==>
        (y in adj[x] <==> (x < u && IsEdge(g, x, y)) || (y < u && IsEdge(g, y, x)))
    {
      var i := 0;
      assert g.edge[u][..0] == [];
      while i < |g.edge[u]|
        invariant 0 <= i <= |g.edge[u]| && |adj| == g.V
        invariant forall x, k :: 0 <= x < g.V && 0 <= k < |adj[x]| ==> 0 <= adj[x][k] < g.V
        invariant forall x, y :: 0 <= x < g.V && 0 <= y < g.V ==> (y in adj[x] <==> Joined(g, u, i, x, y))
      {
        var v := g.edge[u][i].to;
        HeadsPrefix(g.edge[u], i);
        adj := adj[u := adj[u] + [v]];
        adj := adj[v := adj[v] + [u]];
        i := i + 1;
      }
      assert g.edge[u][..i] == g.edge[u];
      u := u + 1;
    }
  }

  /** The flow written for the input edges; every other cell keeps the caller's buffer. */
  predicate ExtractedFrom(g: Graph, cap: Matrix, res: Matrix, flow0: Matrix, flow: Matrix)
    requires WellFormed(g) && IsSquare(cap, g.V) && IsSquare(res, g.V) && IsSquare(flow0, g.V)
  {
    && IsSquare(flow, g.V)
    && forall u, v :: 0 <= u < g.V && 0 <= v < g.V ==>
      flow[u][v] == (if IsEdge(g, u, v) then cap[u][v] - res[u][v] else flow0[u][v])
  }

  /** Flow extraction of the sequential push-relabel and Ford-Fulkerson solvers:
      for each input edge u -> v, flow = capacity - residual. */
  method ExtractFlow(g: Graph, cap: Matrix, res: Matrix, flow0: Matrix) returns (flow: Matrix)
    requires WellFormed(g) && IsSquare(cap, g.V) && IsSquare(res, g.V) && IsSquare(flow0, g.V)
    ensures ExtractedFrom(g, cap, res, flow0, flow)
  {
    flow := flow0;
    var u := 0;
    while u < g.V
      invariant 0 <= u <= g.V && IsSquare(flow, g.V)
      invariant forall x, y :: 0 <= x < g.V && 0 <= y < g.V ==>
        flow[x][y] == (if x < u && IsEdge(g, x, y) then cap[x][y] - res[x][y] else flow0[x][y])
    {
      var i := 0;
      while i < |g.edge[u]|
        invariant 0 <= i <= |g.edge[u]| && IsSquare(flow, g.V)
        invariant forall x, y :: 0 <= x < u && 0 <= y < g.V ==>
          flow[x][y] == (if IsEdge(g, x, y) then cap[x][y] - res[x][y] else flow0[x][y])
        invariant forall y :: 0 <= y < g.V ==>
          flow[u][y] == (if y in Heads(g.edge[u][..i]) then cap[u][y] - res[u][y] else flow0[u][y])
        invariant forall x, y :: u < x < g.V && 0 <= y < g.V ==> flow[x][y] == flow0[x][y]
      {
        var v := g.edge[u][i].to;
        HeadsPrefix(g.edge[u], i);
        flow := Put(flow, u, v, cap[u][v] - res[u][v]);
        i := i + 1;
      }
      assert g.edge[u][..i] == g.edge[u];
      u := u + 1;
    }
  }

  /** Flow extraction of the parallel solver: for each input edge u -> v, in input
      order, flow = that edge's own capacity - residual. A later duplicate edge
      overwrites an earlier one, so the result is the same as with the capacity matrix. */
  method ExtractFlowByEdge(g: Graph, res: Matrix, flow0: Matrix) returns (flow: Matrix)
    requires WellFormed(g) && IsSquare(res, g.V) && IsSquare(flow0, g.V)
    ensures forall cap :: CapacityOf(g, cap) ==> ExtractedFrom(g, cap, res, flow0, flow)
  {
    flow := flow0;
    var u := 0;
    while u < g.V
      invariant 0 <= u <= g.V && IsSquare(flow, g.V)
      invariant forall x, y :: 0 <= x < g.V && 0 <= y < g.V ==>
        flow[x][y] == (if x < u && IsEdge(g, x, y) then LastCap(g.edge[x], y) - res[x][y] else flow0[x][y])
    {
      var i := 0;
      while i < |g.edge[u]|
        invariant 0 <= i <= |g.edge[u]| && IsSquare(flow, g.V)
        invariant forall x, y :: 0 <= x < u && 0 <= y < g.V ==>
          flow[x][y] == (if IsEdge(g, x, y) then LastCap(g.edge[x], y) - res[x][y] else flow0[x][y])
        invariant forall y :: 0 <= y < g.V ==>
          flow[u][y] == (if y in Heads(g.edge[u][..i]) then LastCap(g.edge[u][..i], y) - res[u][y] else flow0[u][y])
        invariant forall x, y :: u < x < g.V && 0 <= y < g.V ==> flow[x][y] == flow0[x][y]
      {
        var v := g.edge[u][i].to;
        HeadsPrefix(g.edge[u], i);
        flow := Put(flow, u, v, g.edge[u][i].cap - res[u][v]);
        forall y | 0 <= y < g.V
          ensures LastCap(g.edge[u][..i + 1], y) == if y == v then g.edge[u][i].cap else LastCap(g.edge[u][..i], y)
        {
          LastCapSnoc(g.edge[u], i, y);
        }
        i := i + 1;
      }
      assert g.edge[u][..i] == g.edge[u];
      u := u + 1;
    }
  }
}

=== FILE: parallel_push_relabel.dfy ===
/** The sequential parts of the parallel push-relabel solver: its `push`, whose
    queue guard skips S, T and flagged vertices whatever amount moved, its
    `relabel`, which never touches the queue, and the set-up, labelling and
    preflow that run before the worker threads start. The capacity matrix of the
    shared network record is the model's own: the parallel solver keeps only the
    residual matrix and reads capacities back from the input edges. */
module ParallelPushRelabel {
  import opened Base
  import opened Network
  import opened Preflow
  import Labelling
  import ParallelQueue
  import Reach
  import Flow
  import PushRelabel

  /** The part a run changes; `inqueue` is kept by `push`, not by the queue. */
  datatype State = State(res: Matrix, excess: seq<int>, height: seq<int>, inqueue: seq<bool>,
                         queue: ParallelQueue.Queue)

  /** Every queued vertex is flagged, is neither S nor T, and is queued once. */
  predicate Guarded(V: int, S: int, T: int, inqueue: seq<bool>, q: ParallelQueue.Queue)
    requires ParallelQueue.Shaped(q, V) && |inqueue| == V
  {
    var items := ParallelQueue.Items(q, V);
    && Distinct(items)
    && forall k :: 0 <= k < |items| ==> inqueue[items[k]] && items[k] != S && items[k] != T
  }

  predicate Valid(n: PushRelabel.Net, st: State)
  {
    && 1 <= n.V <= INT_MAX && 0 <= n.S < n.V && 0 <= n.T < n.V
    && Labelling.Network(n.V, n.adj, st.res)
    && Shaped(n.V, n.cap, st.res, st.excess)
    && |st.height| == n.V && (forall w :: 0 <= w < n.V ==> st.height[w] <= INT_MAX)
    && |st.inqueue| == n.V && ParallelQueue.Valid(st.queue, n.V, st.height)
    && Guarded(n.V, n.S, n.T, st.inqueue, st.queue)
  }

  /** Every vertex other than S, T and `skip` that holds excess is flagged. */
  predicate Waiting(n: PushRelabel.Net, st: State, skip: int)
    requires Valid(n, st)
  {
    forall w :: 0 <= w < n.V && w != n.S && w != n.T && w != skip && st.excess[w] != 0 ==> st.inqueue[w]
  }

  predicate Balanced(n: PushRelabel.Net, st: State)
  {
    IsPreflow(n.V, n.S, n.cap, st.res, st.excess)
  }

  /** The guard of `push`: v is queued unless it is flagged already, S or T. */
  predicate Admits(S: int, T: int, inqueue: seq<bool>, v: int)
    requires 0 <= v < |inqueue|
  {
    !inqueue[v] && v != S && v != T
  }

  /** The guarded enqueue at the end of `push`: flag v and push it. */
  method Enqueue(V: int, S: int, T: int, height: seq<int>, inqueue: seq<bool>, q: ParallelQueue.Queue, v: int)
    returns (inqueue': seq<bool>, q': ParallelQueue.Queue)
    requires ParallelQueue.Valid(q, V, height) && |inqueue| == V && Guarded(V, S, T, inqueue, q) && 0 <= v < V
    ensures ParallelQueue.Valid(q', V, height) && |inqueue'| == V && Guarded(V, S, T, inqueue', q')
    ensures q'.policy == q.policy && q'.rank == q.rank
    ensures Admits(S, T, inqueue, v) ==> inqueue' == inqueue[v := true]
    ensures Admits(S, T, inqueue, v) ==>
      multiset(ParallelQueue.Items(q', V)) == multiset(ParallelQueue.Items(q, V)) + multiset{v}
    ensures !Admits(S, T, inqueue, v) ==> inqueue' == inqueue && q' == q
  {
    if !Admits(S, T, inqueue, v) {
      return inqueue, q;
    }
    var items := ParallelQueue.Items(q, V);
    RoomFor(items, V, v);
    inqueue' := inqueue[v := true];
    q' := ParallelQueue.Push(q, V, height, v);
    var items' := ParallelQueue.Items(q', V);
    DistinctMultiset(items);
    DistinctMultiset(items');
    forall k | 0 <= k < |items'|
      ensures inqueue'[items'[k]] && items'[k] != S && items'[k] != T
    {
      var x := items'[k];
      assert x in multiset(items');
      if x != v {
        assert x in multiset(items);
        assert x in items;
      }
    }
  }

  /** The arithmetic of `push`: min(excess[u], residual[u][v]) moves from u to v,
      even when that is zero. */
  method Move(n: PushRelabel.Net, st: State, u: int, v: int) returns (st': State)
    requires Valid(n, st) && 0 <= u < n.V && 0 <= v < n.V
    ensures Valid(n, st') && st'.height == st.height && st'.inqueue == st.inqueue && st'.queue == st.queue
    ensures forall a, b :: 0 <= a < n.V && 0 <= b < n.V && !(a == u && b == v) && !(a == v && b == u) ==>
      st'.res[a][b] == st.res[a][b]
    ensures forall w :: 0 <= w < n.V && w != u && w != v ==> st'.excess[w] == st.excess[w]
    ensures st'.res[u][v] + st'.res[v][u] == st.res[u][v] + st.res[v][u]
    ensures u != v ==> st.res[u][v] - st'.res[u][v] == st.excess[u] - st'.excess[u] == st'.excess[v] - st.excess[v]
    ensures u != v ==> st'.excess[u] == 0 || st'.res[u][v] == 0
    ensures st.excess[u] >= 0 && st.res[u][v] >= 0 ==> 0 <= st'.res[u][v] <= st.res[u][v]
    ensures u == v ==> st'.res == st.res && st'.excess == st.excess
    ensures Balanced(n, st) ==> Balanced(n, st')
  {
    var d := Min(st.excess[u], st.res[u][v]);
    MoveCells(n.V, st.res, st.excess, u, v, d);
    MovedValid(n, st, u, v, d);
    if Balanced(n, st) {
      MovedBalanced(n, st, u, v, d);
    }
    st' := Moved(n, st, u, v, d);
  }

  /** The state after moving d from u to v. */
  function Moved(n: PushRelabel.Net, st: State, u: int, v: int, d: int): State
    requires Valid(n, st) && 0 <= u < n.V && 0 <= v < n.V
  {
    st.(res := MoveResidual(st.res, n.V, u, v, d), excess := MoveExcess(st.excess, u, v, d))
  }

  lemma MovedValid(n: PushRelabel.Net, st: State, u: int, v: int, d: int)
    requires Valid(n, st) && 0 <= u < n.V && 0 <= v < n.V
    ensures Valid(n, Moved(n, st, u, v, d))
  {
    MoveKeepsBalance(n.V, n.S, n.cap, st.res, st.excess, u, v, d);
  }

  lemma MovedBalanced(n: PushRelabel.Net, st: State, u: int, v: int, d: int)
    requires Valid(n, st) && 0 <= u < n.V && 0 <= v < n.V && d == Min(st.excess[u], st.res[u][v])
    requires Balanced(n, st)
    ensures Balanced(n, Moved(n, st, u, v, d))
  {
    MoveKeepsBalance(n.V, n.S, n.cap, st.res, st.excess, u, v, d);
    MoveNonNegative(n.V, st.res, st.excess, u, v, d);
  }

  /** `push`: the move above, then v is queued if the guard admits it, whatever
      amount moved. */
  method Push(n: PushRelabel.Net, st: State, u: int, v: int) returns (st': State)
    requires Valid(n, st) && 0 <= u < n.V && 0 <= v < n.V
    ensures Valid(n, st') && st'.height == st.height && st'.queue.policy == st.queue.policy
    ensures forall a, b :: 0 <= a < n.V && 0 <= b < n.V && !(a == u && b == v) && !(a == v && b == u) ==>
      st'.res[a][b] == st.res[a][b]
    ensures forall w :: 0 <= w < n.V && w != u && w != v ==> st'.excess[w] == st.excess[w]
    ensures st'.res[u][v] + st'.res[v][u] == st.res[u][v] + st.res[v][u]
    ensures u != v ==> st.res[u][v] - st'.res[u][v] == st.excess[u] - st'.excess[u] == st'.excess[v] - st.excess[v]
    ensures u != v ==> st'.excess[u] == 0 || st'.res[u][v] == 0
    ensures st.excess[u] >= 0 && st.res[u][v] >= 0 ==> 0 <= st'.res[u][v] <= st.res[u][v]
    ensures u == v ==> st'.res == st.res && st'.excess == st.excess
    ensures Admits(n.S, n.T, st.inqueue, v) ==> st'.inqueue == st.inqueue[v := true]
    ensures Admits(n.S, n.T, st.inqueue, v) ==>
      multiset(ParallelQueue.Items(st'.queue, n.V)) == multiset(ParallelQueue.Items(st.queue, n.V)) + multiset{v}
    ensures !Admits(n.S, n.T, st.inqueue, v) ==> st'.inqueue == st.inqueue && st'.queue == st.queue
    ensures Balanced(n, st) ==> Balanced(n, st')
    ensures Waiting(n, st, u) ==> Waiting(n, st', u)
  {
    var moved := Move(n, st, u, v);
    var inqueue, q := Enqueue(n.V, n.S, n.T, st.height, st.inqueue, st.queue, v);
    st' := moved.(inqueue := inqueue, queue := q);
  }

  /** `relabel`: one more than the lowest neighbour u has residual capacity to. The
      queue is left alone, so under QTYPE 1 heap order survives only when u is not
      queued. The model stops short of the INT_MAX + 1 the source computes when no
      such neighbour has a height below INT_MAX. */
  method Relabel(n: PushRelabel.Net, st: State, u: int) returns (st': State)
    requires Valid(n, st) && 0 <= u < n.V && CanRelabel(n.adj[u], st.res[u], st.height)
    ensures st'.res == st.res && st'.excess == st.excess && st'.inqueue == st.inqueue && st'.queue == st.queue
    ensures |st'.height| == n.V && forall w :: 0 <= w < n.V && w != u ==> st'.height[w] == st.height[w]
    ensures st'.height[u] <= INT_MAX
    ensures forall i :: 0 <= i < |n.adj[u]| && st.res[u][n.adj[u][i]] > 0 ==>
      st'.height[u] <= st.height[n.adj[u][i]] + 1
    ensures exists i ::
      0 <= i < |n.adj[u]| && st.res[u][n.adj[u][i]] > 0 && st'.height[u] == st.height[n.adj[u][i]] + 1
    ensures (st.queue.policy != ParallelQueue.ByHeight || u !in ParallelQueue.Items(st.queue, n.V)) ==> Valid(n, st')
  {
    var h := NewHeight(n.adj[u], st.res[u], st.height);
    st' := st.(height := st.height[u := h]);
    if u !in ParallelQueue.Items(st.queue, n.V) {
      ParallelQueue.RelabelOutside(st.queue, n.V, st.height, u, h);
    }
  }

  /** The set-up of `ParallelPushRelabel` before the preflow pushes: residuals from the
      input, both directions of every edge as neighbours, the breadth-first
      labelling from T, no vertex flagged, an empty queue, then S raised to V - 1
      with INT_MAX excess. The QTYPE 2 key is the labelling before S is raised, the
      QTYPE 4 key the pop counts (all zero), and the QTYPE 3 key the parameter
      `layer`. */
  method Setup(g: Graph, policy: ParallelQueue.Policy, layer: seq<int>) returns (n: PushRelabel.Net, st: State)
    requires WellFormed(g) && g.V <= INT_MAX && |layer| == g.V
    ensures n.V == g.V && n.S == g.S && n.T == g.T && Symmetrised(g, n.adj) && CapacityOf(g, n.cap)
    ensures Valid(n, st) && Waiting(n, st, -1) && st.queue.policy == policy && st.res == n.cap
    ensures ParallelQueue.Items(st.queue, n.V) == [] && forall w :: 0 <= w < n.V ==> !st.inqueue[w]
    ensures st.excess[n.S] == INT_MAX && forall w :: 0 <= w < n.V && w != n.S ==> st.excess[w] == 0
    ensures st.height[n.S] == n.V - 1
    ensures forall w :: 0 <= w < n.V && w != n.S ==>
      (st.height[w] != INT_MAX <==> Reach.Reachable(Labelling.LeadsArc(n.adj, n.cap), n.T, w))
    ensures Flow.NonNegCaps(g) ==> Balanced(n, st)
  {
    var adj := BuildAdjacency(g);
    var res := BuildCapacity(g);
    n := PushRelabel.Net(g.V, g.S, g.T, adj, res);
    var height := Labelling.Label(g.V, g.T, adj, res);
    var rank := if policy == ParallelQueue.ByDistance then height
                else if policy == ParallelQueue.ByCount then seq(g.V, _ => 0)
                else layer;
    var excess := seq(g.V, w => if w == g.S then INT_MAX else 0);
    height := height[g.S := g.V - 1];
    st := State(res, excess, height, seq(g.V, _ => false), ParallelQueue.Empty(policy, g.V, rank));
    StartValid(n, st);
    if Flow.NonNegCaps(g) {
      StartBalanced(g, n, st);
    }
  }

  /** The state before the preflow pushes is valid, and only S holds excess. */
  lemma StartValid(n: PushRelabel.Net, st: State)
    requires 1 <= n.V <= INT_MAX && 0 <= n.S < n.V && 0 <= n.T < n.V
    requires Labelling.Network(n.V, n.adj, n.cap) && st.res == n.cap
    requires |st.height| == n.V && forall w :: 0 <= w < n.V ==> st.height[w] == INT_MAX || 0 <= st.height[w] < n.V
    requires st.excess == seq(n.V, w => if w == n.S then INT_MAX else 0) && st.inqueue == seq(n.V, _ => false)
    requires |st.queue.rank| == n.V && st.queue == ParallelQueue.Empty(st.queue.policy, n.V, st.queue.rank)
    ensures Valid(n, st) && Waiting(n, st, -1)
  {
  }

  /** With non-negative capacities the starting state is a preflow. */
  lemma StartBalanced(g: Graph, n: PushRelabel.Net, st: State)
    requires WellFormed(g) && CapacityOf(g, n.cap) && Flow.NonNegCaps(g) && n.V == g.V && n.S == g.S
    requires Valid(n, st) && st.res == n.cap
    requires st.excess == seq(n.V, w => if w == n.S then INT_MAX else 0)
    ensures Balanced(n, st)
  {
    Flow.CapacitiesNonNeg(g, n.cap);
  }

  /** S has run dry, or no arc from S to one of its first `upto` neighbours other
      than S itself has residual left. */
  predicate Flooded(n: PushRelabel.Net, st: State, upto: int)
    requires Valid(n, st) && 0 <= upto <= |n.adj[n.S]|
  {
    st.excess[n.S] == 0 || forall k :: 0 <= k < upto && n.adj[n.S][k] != n.S ==> st.res[n.S][n.adj[n.S][k]] <= 0
  }

  /** One step of the preflow loop: push from S to its i-th neighbour if that arc
      has residual. */
  method FloodOne(n: PushRelabel.Net, st: State, i: int) returns (st': State)
    requires Valid(n, st) && 0 <= i < |n.adj[n.S]|
    ensures Valid(n, st') && st'.height == st.height && st'.queue.policy == st.queue.policy
    ensures Waiting(n, st, n.S) ==> Waiting(n, st', n.S)
    ensures Balanced(n, st) ==> Balanced(n, st')
    ensures Balanced(n, st) && Flooded(n, st, i) ==> Flooded(n, st', i + 1)
  {
    var v := n.adj[n.S][i];
    if st.res[n.S][v] > 0 {
      st' := Push(n, st, n.S, v);
      if Balanced(n, st) && Flooded(n, st, i) {
        FloodStep(n, st, st', i);
      }
    } else {
      st' := st;
    }
  }

  /** A push along the i-th arc of S leaves S dry or that arc saturated, and no other
      arc out of S changes. */
  lemma FloodStep(n: PushRelabel.Net, st: State, st': State, i: int)
    requires Valid(n, st) && Valid(n, st') && 0 <= i < |n.adj[n.S]| && Flooded(n, st, i)
    requires forall a, b :: 0 <= a < n.V && 0 <= b < n.V && !(a == n.S && b == n.adj[n.S][i]) && !(a == n.adj[n.S][i] && b == n.S) ==>
      st'.res[a][b] == st.res[a][b]
    requires n.S != n.adj[n.S][i] ==> st'.excess[n.S] == 0 || st'.res[n.S][n.adj[n.S][i]] == 0
    requires st.excess[n.S] == 0 ==> st'.excess[n.S] == 0
    ensures Flooded(n, st', i + 1)
  {
    if st'.excess[n.S] != 0 {
      var v := n.adj[n.S][i];
      forall k | 0 <= k < i + 1 && n.adj[n.S][k] != n.S
        ensures st'.res[n.S][n.adj[n.S][k]] <= 0
      {
        var x := n.adj[n.S][k];
        if x != v {
          assert st'.res[n.S][x] == st.res[n.S][x];
        }
      }
    }
  }

  /** The preflow loop: push from S along every arc to a neighbour with residual. */
  method Flood(n: PushRelabel.Net, st: State) returns (st': State)
    requires Valid(n, st)
    ensures Valid(n, st') && st'.height == st.height && st'.queue.policy == st.queue.policy
    ensures Waiting(n, st, -1) ==> Waiting(n, st', -1)
    ensures Balanced(n, st) ==> Balanced(n, st')
    ensures Balanced(n, st) ==> Flooded(n, st', |n.adj[n.S]|)
  {
    st' := st;
    var i := 0;
    while i < |n.adj[n.S]|
      invariant 0 <= i <= |n.adj[n.S]|
      invariant Valid(n, st') && st'.height == st.height && st'.queue.policy == st.queue.policy
      invariant Waiting(n, st, -1) ==> Waiting(n, st', n.S)
      invariant Balanced(n, st) ==> Balanced(n, st')
      invariant Balanced(n, st) ==> Flooded(n, st', i)
    {
      st' := FloodOne(n, st', i);
      i := i + 1;
    }
  }
}

=== FILE: parallel_queue.dfy ===
/** The active-vertex queue of the parallel push-relabel solver. Unlike the
    sequential queue it keeps no `inqueue` flags and no cell pointers, and a push
    always inserts: keeping a vertex out of the queue twice is the caller's job.
    Besides the FIFO ring and the max-heaps it has a min-heap (QTYPE 4). */
module ParallelQueue {
  import opened Base
  import Ring
  import Heap

  /** QTYPE 0: FIFO ring; 1: max-heap on the current height; 2: max-heap on the
      initial distance; 3: max-heap on a layer label; 4: min-heap on the number of
      times each vertex has been popped. */
  datatype Policy = Fifo | ByHeight | ByDistance | ByLayer | ByCount

  /** The queue array and its bookkeeping; `rank` is the key of QTYPE 2, 3 and 4. */
  datatype Queue = Queue(policy: Policy, slots: seq<int>, size: int, front: int, back: int, rank: seq<int>)

  /** The key a heap variant orders by: QTYPE 1 reads the live heights. */
  function Key(q: Queue, height: seq<int>): seq<int>
  {
    if q.policy == ByHeight then height else q.rank
  }

  /** QTYPE 4 pops the smallest key, the other heaps the largest. */
  function OrderOf(p: Policy): Heap.Order
  {
    if p == ByCount then Heap.MinFirst else Heap.MaxFirst
  }

  function AsRing(q: Queue): Ring.Ring
  {
    Ring.Ring(q.slots, q.front, q.back, q.size)
  }

  predicate Shaped(q: Queue, V: int)
  {
    && V >= 1 && |q.slots| == V + 1 && |q.rank| == V && AllBelow(q.slots, V)
    && (q.policy == Fifo ==> Ring.Valid(AsRing(q), V))
    && (q.policy != Fifo ==> 0 <= q.size <= V)
  }

  /** The queued vertices: front first for the ring, cells 1 .. size for a heap. */
  function Items(q: Queue, V: int): (s: seq<int>)
    requires Shaped(q, V)
    ensures |s| == q.size && AllBelow(s, V)
  {
    if q.policy == Fifo then
      var s := Ring.Items(AsRing(q), V);
      Ring.ItemsBelow(AsRing(q), V);
      s
    else
      Heap.Items(q.slots, q.size)
  }

  /** The queue invariant: a heap variant is in heap order under its key and order. */
  predicate Valid(q: Queue, V: int, height: seq<int>)
  {
    && Shaped(q, V) && |height| == V
    && (q.policy != Fifo ==> Heap.IsHeap(OrderOf(q.policy), Key(q, height), q.slots, q.size))
  }

  function Empty(policy: Policy, V: int, rank: seq<int>): (q: Queue)
    requires V >= 1 && |rank| == V
    ensures Shaped(q, V) && forall height :: |height| == V ==> Valid(q, V, height)
    ensures Items(q, V) == [] && q.policy == policy && q.rank == rank
  {
    Queue(policy, seq(V + 1, _ => 0), 0, 0, 0, rank)
  }

  /** `quePush`: u goes to the back of the ring, or into the heap and up past every
      ancestor it beats. A full ring overwrites its front cell; a full heap would
      write past the array, so a heap push needs a free cell. */
  method Push(q: Queue, V: int, height: seq<int>, u: int) returns (r: Queue)
    requires Valid(q, V, height) && 0 <= u < V
    requires q.policy != Fifo ==> q.size < V
    ensures r.policy == q.policy && r.rank == q.rank && r.size == q.size + 1 && |r.slots| == V + 1
    ensures q.size < V ==> Valid(r, V, height)
    ensures q.size < V ==> multiset(Items(r, V)) == multiset(Items(q, V)) + multiset{u}
    ensures q.size < V && q.policy == Fifo ==> Items(r, V) == Items(q, V) + [u]
    ensures q.size == V && q.policy == Fifo ==> r.slots[q.front] == u
  {
    if q.policy == Fifo {
      var ring := Ring.Append(AsRing(q), V, u);
      r := q.(slots := ring.slots, back := ring.back, size := ring.size);
      assert AsRing(r) == ring;
    } else {
      var s, size, p := Heap.Insert(OrderOf(q.policy), Key(q, height), q.slots, q.size, u, [], false);
      r := q.(slots := s, size := size);
    }
  }

  /** A vertex beating or tying every occupied heap cell does so for every queued vertex. */
  lemma CellsToItems(o: Heap.Order, slots: seq<int>, size: int, key: seq<int>, u: int)
    requires 0 <= size < |slots| && Heap.Keyed(key, slots) && 0 <= u < |key|
    requires forall i :: 1 <= i <= size ==> Heap.Above(o, key[u], key[slots[i]])
    ensures forall w :: w in Heap.Items(slots, size) ==> Heap.Above(o, key[u], key[w])
  {
    forall w | w in Heap.Items(slots, size)
      ensures Heap.Above(o, key[u], key[w])
    {
      var i :| 0 <= i < size && Heap.Items(slots, size)[i] == w;
      assert slots[i + 1] == w;
    }
  }

  /** `quePop`: -1 and no change when the queue is empty; otherwise the front of the
      ring, or the root of the heap: a vertex of largest key, or of smallest key for
      QTYPE 4. */
  method Pop(q: Queue, V: int, height: seq<int>) returns (r: Queue, u: int)
    requires Valid(q, V, height)
    ensures Valid(r, V, height) && r.policy == q.policy && r.rank == q.rank
    ensures q.size == 0 ==> u == -1 && r == q
    ensures q.size > 0 ==> 0 <= u < V && u in Items(q, V)
    ensures q.size > 0 ==> multiset(Items(r, V)) == multiset(Items(q, V)) - multiset{u}
    ensures q.size > 0 && q.policy == Fifo ==> u == Items(q, V)[0] && Items(r, V) == Items(q, V)[1..]
    ensures q.size > 0 && q.policy != Fifo ==>
      forall w :: w in Items(q, V) ==> Heap.Above(OrderOf(q.policy), Key(q, height)[u], Key(q, height)[w])
  {
    if q.size == 0 {
      return q, -1;
    }
    var items := Items(q, V);
    if q.policy == Fifo {
      var res := Ring.Dequeue(AsRing(q), V);
      var ring := res.0;
      u := res.1;
      r := q.(front := ring.front, size := ring.size);
      assert AsRing(r) == ring;
      assert items == [u] + items[1..];
    } else {
      var s, size, p;
      s, size, p, u := Heap.RemoveTop(OrderOf(q.policy), Key(q, height), q.slots, q.size, [], false);
      r := q.(slots := s, size := size);
      assert items[0] == u;
      CellsToItems(OrderOf(q.policy), q.slots, q.size, Key(q, height), u);
    }
  }

  /** A height change of a vertex that is not queued keeps the queue valid. */
  lemma RelabelOutside(q: Queue, V: int, height: seq<int>, u: int, k: int)
    requires Valid(q, V, height) && 0 <= u < V && u !in Items(q, V)
    ensures Valid(q, V, height[u := k])
  {
    if q.policy == ByHeight {
      Heap.KeyOutside(Heap.MaxFirst, height, q.slots, q.size, u, k);
    }
  }
}

=== FILE: preflow.dfy ===
/** The arithmetic both push-relabel solvers share: moving excess across an arc,
    the minimum residual-neighbour height of `relabel`, and the preflow
    invariants those steps keep. */
module Preflow {
  import opened Base

  /** Column `v` of a square matrix. */
  function Column(m: Matrix, n: int, v: int): (c: seq<int>)
    requires IsSquare(m, n) && 0 <= v < n
    ensures |c| == n && forall w :: 0 <= w < n ==> c[w] == m[w][v]
  {
    seq(n, w requires 0 <= w < n => m[w][v])
  }

  /** Sum of column `v`: the total into `v` of a flow matrix. */
  function ColSum(m: Matrix, n: int, v: int): int
    requires IsSquare(m, n) && 0 <= v < n
  {
    Sum(Column(m, n, v))
  }

  lemma ColSumPut(m: Matrix, n: int, a: int, b: int, x: int, c: int)
    requires IsSquare(m, n) && 0 <= a < n && 0 <= b < n && 0 <= c < n
    ensures IsSquare(Put(m, a, b, x), n)
    ensures ColSum(Put(m, a, b, x), n, c) == ColSum(m, n, c) + (if b == c then x - m[a][b] else 0)
  {
    var r := Put(m, a, b, x);
    if b == c {
      assert Column(r, n, c) == Column(m, n, c)[a := x];
      SumUpdate(Column(m, n, c), a, x);
    } else {
      assert Column(r, n, c) == Column(m, n, c);
    }
  }

  /** The matrices and arrays of a push-relabel run over V vertices. */
  predicate Shaped(V: int, cap: Matrix, res: Matrix, excess: seq<int>)
  {
    V >= 1 && IsSquare(cap, V) && IsSquare(res, V) && |excess| == V
  }

  /** Each push keeps the residual pair sum of an arc and its reverse at the
      pair's capacity, so capacity - residual is a skew-symmetric net flow. */
  predicate Paired(V: int, cap: Matrix, res: Matrix)
    requires IsSquare(cap, V) && IsSquare(res, V)
  {
    forall u, v :: 0 <= u < V && 0 <= v < V ==> res[u][v] + res[v][u] == cap[u][v] + cap[v][u]
  }

  /** The excess of a vertex is its net inflow under capacity - residual, plus the
      INT_MAX the source S starts with. */
  predicate ExcessIsInflow(V: int, S: int, cap: Matrix, res: Matrix, excess: seq<int>)
    requires Shaped(V, cap, res, excess)
  {
    forall v :: 0 <= v < V ==>
      excess[v] == (if v == S then INT_MAX else 0) + ColSum(cap, V, v) - ColSum(res, V, v)
  }

  predicate NonNegative(V: int, res: Matrix, excess: seq<int>)
    requires IsSquare(res, V) && |excess| == V
  {
    && NonNegativeCells(res, V)
    && (forall v :: 0 <= v < V ==> excess[v] >= 0)
  }

  /** The preflow invariant: pair sums, excess as inflow, and non-negative residuals and excesses. */
  predicate IsPreflow(V: int, S: int, cap: Matrix, res: Matrix, excess: seq<int>)
  {
    && Shaped(V, cap, res, excess)
    && Paired(V, cap, res) && ExcessIsInflow(V, S, cap, res, excess) && NonNegative(V, res, excess)
  }

  /** residual[u][v] -= d; residual[v][u] += d, in that order. */
  function MoveResidual(res: Matrix, V: int, u: int, v: int, d: int): (r: Matrix)
    requires IsSquare(res, V) && 0 <= u < V && 0 <= v < V
    ensures IsSquare(r, V)
  {
    var r1 := Put(res, u, v, res[u][v] - d);
    Put(r1, v, u, r1[v][u] + d)
  }

  /** excess[u] -= d; excess[v] += d, in that order. */
  function MoveExcess(excess: seq<int>, u: int, v: int, d: int): (e: seq<int>)
    requires 0 <= u < |excess| && 0 <= v < |excess|
    ensures |e| == |excess|
  {
    var e1 := excess[u := excess[u] - d];
    e1[v := e1[v] + d]
  }

  /** The residual cells a move of d units from u to v changes, and the ones it leaves alone. */
  lemma MoveResidualCells(V: int, res: Matrix, u: int, v: int, d: int)
    requires IsSquare(res, V) && 0 <= u < V && 0 <= v < V
    ensures forall a, b :: 0 <= a < V && 0 <= b < V && !(a == u && b == v) && !(a == v && b == u) ==>
      MoveResidual(res, V, u, v, d)[a][b] == res[a][b]
    ensures u != v ==> MoveResidual(res, V, u, v, d)[u][v] == res[u][v] - d
    ensures u != v ==> MoveResidual(res, V, u, v, d)[v][u] == res[v][u] + d
    ensures u == v ==> MoveResidual(res, V, u, v, d) == res
  {
    if u == v {
      var r := MoveResidual(res, V, u, v, d);
      assert r[u] == res[u];
      assert r == res;
    }
  }

  /** The cells a move of d units from u to v changes, and the ones it leaves alone. */
  lemma MoveCells(V: int, res: Matrix, excess: seq<int>, u: int, v: int, d: int)
    requires IsSquare(res, V) && |excess| == V && 0 <= u < V && 0 <= v < V
    ensures forall a, b :: 0 <= a < V && 0 <= b < V && !(a == u && b == v) && !(a == v && b == u) ==>
      MoveResidual(res, V, u, v, d)[a][b] == res[a][b]
    ensures forall w :: 0 <= w < V && w != u && w != v ==> MoveExcess(excess, u, v, d)[w] == excess[w]
    ensures u != v ==> MoveResidual(res, V, u, v, d)[u][v] == res[u][v] - d
    ensures u != v ==> MoveResidual(res, V, u, v, d)[v][u] == res[v][u] + d
    ensures u != v ==> MoveExcess(excess, u, v, d)[u] == excess[u] - d && MoveExcess(excess, u, v, d)[v] == excess[v] + d
    ensures u == v ==> MoveResidual(res, V, u, v, d) == res && MoveExcess(excess, u, v, d) == excess
  {
    MoveResidualCells(V, res, u, v, d);
  }

  /** Moving at most min(excess[u], residual[u][v]) keeps residuals and excesses non-negative. */
  lemma MoveNonNegative(V: int, res: Matrix, excess: seq<int>, u: int, v: int, d: int)
    requires IsSquare(res, V) && |excess| == V && 0 <= u < V && 0 <= v < V && NonNegative(V, res, excess)
    requires 0 <= d <= excess[u] && d <= res[u][v]
    ensures NonNegative(V, MoveResidual(res, V, u, v, d), MoveExcess(excess, u, v, d))
  {
    MoveCells(V, res, excess, u, v, d);
  }

  lemma MoveColumns(V: int, res: Matrix, u: int, v: int, d: int, c: int)
    requires IsSquare(res, V) && 0 <= u < V && 0 <= v < V && 0 <= c < V
    ensures ColSum(MoveResidual(res, V, u, v, d), V, c)
      == ColSum(res, V, c) + (if c == u then d else 0) - (if c == v then d else 0)
  {
    var r1 := Put(res, u, v, res[u][v] - d);
    ColSumPut(res, V, u, v, res[u][v] - d, c);
    ColSumPut(r1, V, v, u, r1[v][u] + d, c);
  }

  lemma MovePaired(V: int, cap: Matrix, res: Matrix, u: int, v: int, d: int)
    requires IsSquare(cap, V) && IsSquare(res, V) && 0 <= u < V && 0 <= v < V && Paired(V, cap, res)
    ensures Paired(V, cap, MoveResidual(res, V, u, v, d))
  {
    var r := MoveResidual(res, V, u, v, d);
    forall a, b | 0 <= a < V && 0 <= b < V
      ensures r[a][b] + r[b][a] == cap[a][b] + cap[b][a]
    {
    }
  }

  /** Moving `d` units from u to v keeps the pair sums, keeps every excess equal to
      its net inflow, and keeps the total excess. */
  lemma MoveKeepsBalance(V: int, S: int, cap: Matrix, res: Matrix, excess: seq<int>, u: int, v: int, d: int)
    requires Shaped(V, cap, res, excess) && 0 <= u < V && 0 <= v < V
    ensures Shaped(V, cap, MoveResidual(res, V, u, v, d), MoveExcess(excess, u, v, d))
    ensures Paired(V, cap, res) ==> Paired(V, cap, MoveResidual(res, V, u, v, d))
    ensures ExcessIsInflow(V, S, cap, res, excess) ==>
      ExcessIsInflow(V, S, cap, MoveResidual(res, V, u, v, d), MoveExcess(excess, u, v, d))
    ensures Sum(MoveExcess(excess, u, v, d)) == Sum(excess)
  {
    SumTransfer(excess, u, v, d);
    if Paired(V, cap, res) {
      MovePaired(V, cap, res, u, v, d);
    }
    if ExcessIsInflow(V, S, cap, res, excess) {
      MoveInflow(V, S, cap, res, excess, u, v, d);
    }
  }

  lemma MoveInflow(V: int, S: int, cap: Matrix, res: Matrix, excess: seq<int>, u: int, v: int, d: int)
    requires Shaped(V, cap, res, excess) && 0 <= u < V && 0 <= v < V
    requires ExcessIsInflow(V, S, cap, res, excess)
    ensures Shaped(V, cap, MoveResidual(res, V, u, v, d), MoveExcess(excess, u, v, d))
    ensures ExcessIsInflow(V, S, cap, MoveResidual(res, V, u, v, d), MoveExcess(excess, u, v, d))
  {
    var r := MoveResidual(res, V, u, v, d);
    var e := MoveExcess(excess, u, v, d);
    forall c | 0 <= c < V
      ensures e[c] == (if c == S then INT_MAX else 0) + ColSum(cap, V, c) - ColSum(r, V, c)
    {
      MoveColumns(V, res, u, v, d, c);
    }
  }

  /** The minimum height over neighbours with positive residual, starting from INT_MAX:
      the loop of `relabel`. */
  method LowestNeighbour(nbrs: seq<int>, row: seq<int>, height: seq<int>) returns (m: int)
    requires forall i :: 0 <= i < |nbrs| ==> 0 <= nbrs[i] < |row| && nbrs[i] < |height|
    requires forall v :: 0 <= v < |height| ==> height[v] <= INT_MAX
    ensures m <= INT_MAX
    ensures forall i :: 0 <= i < |nbrs| && row[nbrs[i]] > 0 ==> m <= height[nbrs[i]]
    ensures m == INT_MAX || exists i :: 0 <= i < |nbrs| && row[nbrs[i]] > 0 && height[nbrs[i]] == m
  {
    m := INT_MAX;
    var i := 0;
    while i < |nbrs|
      invariant 0 <= i <= |nbrs| && m <= INT_MAX
      invariant forall k :: 0 <= k < i && row[nbrs[k]] > 0 ==> m <= height[nbrs[k]]
      invariant m == INT_MAX || exists k :: 0 <= k < i && row[nbrs[k]] > 0 && height[nbrs[k]] == m
    {
      var v := nbrs[i];
      if row[v] > 0 {
        m := Min(m, height[v]);
      }
      i := i + 1;
    }
  }

  /** Some neighbour with positive residual has a height below INT_MAX, so `relabel`
      sets a height of at most INT_MAX. */
  predicate CanRelabel(nbrs: seq<int>, row: seq<int>, height: seq<int>)
    requires forall i :: 0 <= i < |nbrs| ==> 0 <= nbrs[i] < |row| && nbrs[i] < |height|
  {
    exists i :: 0 <= i < |nbrs| && row[nbrs[i]] > 0 && height[nbrs[i]] < INT_MAX
  }

  /** The new height `relabel` computes: one more than the lowest residual neighbour. */
  method NewHeight(nbrs: seq<int>, row: seq<int>, height: seq<int>) returns (h: int)
    requires forall i :: 0 <= i < |nbrs| ==> 0 <= nbrs[i] < |row| && nbrs[i] < |height|
    requires forall v :: 0 <= v < |height| ==> height[v] <= INT_MAX
    requires CanRelabel(nbrs, row, height)
    ensures h <= INT_MAX
    ensures forall i :: 0 <= i < |nbrs| && row[nbrs[i]] > 0 ==> h <= height[nbrs[i]] + 1
    ensures exists i :: 0 <= i < |nbrs| && row[nbrs[i]] > 0 && h == height[nbrs[i]] + 1
  {
    var m := LowestNeighbour(nbrs, row, height);
    h := m + 1;
  }
}

=== FILE: push_relabel.dfy ===
/** The sequential push-relabel solver: `push`, `relabel`, `discharge`, the
    main loop over the active-vertex queue, and the driver that builds the
    network, labels it, floods the source's arcs and extracts the flow. */
module PushRelabel {
  import opened Base
  import opened Network
  import opened Preflow
  import Labelling
  import VertexQueue
  import Reach
  import Flow

  /** The fixed part of a run: vertex count, source, sink, the neighbour lists
      (both directions of every input edge) and the capacity matrix. */
  datatype Net = Net(V: int, S: int, T: int, adj: seq<seq<int>>, cap: Matrix)

  /** The part a run changes. */
  datatype State = State(res: Matrix, excess: seq<int>, height: seq<int>, queue: VertexQueue.Queue)

  predicate Valid(n: Net, st: State)
  {
    && 1 <= n.V <= INT_MAX && 0 <= n.S < n.V && 0 <= n.T < n.V
    && Labelling.Network(n.V, n.adj, st.res)
    && Shaped(n.V, n.cap, st.res, st.excess)
    && |st.height| == n.V && (forall w :: 0 <= w < n.V ==> st.height[w] <= INT_MAX)
    && VertexQueue.Valid(st.queue, n.V, st.height)
  }

  /** Every vertex other than S, T and `skip` that holds excess is queued. */
  predicate Waiting(n: Net, st: State, skip: int)
    requires Valid(n, st)
  {
    forall w :: 0 <= w < n.V && w != n.S && w != n.T && w != skip && st.excess[w] != 0 ==> st.queue.inqueue[w]
  }

  predicate Balanced(n: Net, st: State)
  {
    IsPreflow(n.V, n.S, n.cap, st.res, st.excess)
  }

  /** `push`: moves min(excess[u], residual[u][v]) from u to v and queues v when
      that amount is not zero. */
  method Push(n: Net, st: State, u: int, v: int) returns (st': State)
    requires Valid(n, st) && 0 <= u < n.V && 0 <= v < n.V
    ensures Valid(n, st') && st'.height == st.height && st'.queue.policy == st.queue.policy
    ensures forall a, b :: 0 <= a < n.V && 0 <= b < n.V && !(a == u && b == v) && !(a == v && b == u) ==>
      st'.res[a][b] == st.res[a][b]
    ensures forall w :: 0 <= w < n.V && w != u && w != v ==> st'.excess[w] == st.excess[w]
    ensures st'.res[u][v] + st'.res[v][u] == st.res[u][v] + st.res[v][u]
    ensures u != v ==> st.res[u][v] - st'.res[u][v] == st.excess[u] - st'.excess[u] == st'.excess[v] - st.excess[v]
    ensures u != v ==> st'.excess[u] == 0 || st'.res[u][v] == 0
    ensures st.excess[u] >= 0 && st.res[u][v] >= 0 ==> 0 <= st'.res[u][v] <= st.res[u][v]
    ensures u == v ==> st'.res == st.res && st'.excess == st.excess
    ensures u != v && st'.res[u][v] == st.res[u][v] ==> st' == st
    ensures u != v && st'.res[u][v] != st.res[u][v] ==> st'.queue.inqueue[v]
    ensures forall w :: 0 <= w < n.V && w != v ==> st'.queue.inqueue[w] == st.queue.inqueue[w]
    ensures Balanced(n, st) ==> Balanced(n, st')
    ensures Waiting(n, st, u) ==> Waiting(n, st', u)
  {
    var d := Min(st.excess[u], st.res[u][v]);
    if d == 0 {
      return st;
    }
    var q := VertexQueue.Push(st.queue, n.V, st.height, v);
    MoveCells(n.V, st.res, st.excess, u, v, d);
    MovedValid(n, st, u, v, d, q);
    st' := Moved(n, st, u, v, d, q);
    if Waiting(n, st, u) {
      MovedWaiting(n, st, u, v, d, q);
    }
    if Balanced(n, st) {
      MovedBalanced(n, st, u, v, d, q);
    }
  }

  /** The state after moving d from u to v with the queue `q`. */
  function Moved(n: Net, st: State, u: int, v: int, d: int, q: VertexQueue.Queue): State
    requires Valid(n, st) && 0 <= u < n.V && 0 <= v < n.V
  {
    State(MoveResidual(st.res, n.V, u, v, d), MoveExcess(st.excess, u, v, d), st.height, q)
  }

  lemma MovedValid(n: Net, st: State, u: int, v: int, d: int, q: VertexQueue.Queue)
    requires Valid(n, st) && 0 <= u < n.V && 0 <= v < n.V && VertexQueue.Valid(q, n.V, st.height)
    ensures Valid(n, Moved(n, st, u, v, d, q))
  {
    MoveKeepsBalance(n.V, n.S, n.cap, st.res, st.excess, u, v, d);
  }

  lemma MovedWaiting(n: Net, st: State, u: int, v: int, d: int, q: VertexQueue.Queue)
    requires Valid(n, st) && 0 <= u < n.V && 0 <= v < n.V && VertexQueue.Valid(q, n.V, st.height)
    requires q.inqueue[v] && forall w :: 0 <= w < n.V && w != v && st.queue.inqueue[w] ==> q.inqueue[w]
    requires Waiting(n, st, u)
    ensures Valid(n, Moved(n, st, u, v, d, q)) && Waiting(n, Moved(n, st, u, v, d, q), u)
  {
    MovedValid(n, st, u, v, d, q);
    MoveCells(n.V, st.res, st.excess, u, v, d);
  }

  lemma MovedBalanced(n: Net, st: State, u: int, v: int, d: int, q: VertexQueue.Queue)
    requires Valid(n, st) && 0 <= u < n.V && 0 <= v < n.V && d == Min(st.excess[u], st.res[u][v])
    requires Balanced(n, st)
    ensures Balanced(n, Moved(n, st, u, v, d, q))
  {
    MoveKeepsBalance(n.V, n.S, n.cap, st.res, st.excess, u, v, d);
    MoveNonNegative(n.V, st.res, st.excess, u, v, d);
  }

  /** `relabel`: the new height of u is one more than the lowest neighbour it has
      residual capacity to; QTYPE 1 then sifts u up the heap if it is queued. The
      model stops short of the INT_MAX + 1 the source computes when no such
      neighbour has a height below INT_MAX. */
  method Relabel(n: Net, st: State, u: int) returns (st': State)
    requires Valid(n, st) && 0 <= u < n.V && CanRelabel(n.adj[u], st.res[u], st.height)
    ensures st'.res == st.res && st'.excess == st.excess && st'.queue.policy == st.queue.policy
    ensures st'.queue.inqueue == st.queue.inqueue
    ensures |st'.height| == n.V && forall w :: 0 <= w < n.V && w != u ==> st'.height[w] == st.height[w]
    ensures st'.height[u] <= INT_MAX
    ensures forall i :: 0 <= i < |n.adj[u]| && st.res[u][n.adj[u][i]] > 0 ==>
      st'.height[u] <= st.height[n.adj[u][i]] + 1
    ensures exists i ::
      0 <= i < |n.adj[u]| && st.res[u][n.adj[u][i]] > 0 && st'.height[u] == st.height[n.adj[u][i]] + 1
    ensures !st.queue.inqueue[u] ==> st'.queue == st.queue && Valid(n, st')
    ensures (st'.height[u] >= st.height[u] && st.queue.ptr[u] <= st.queue.size &&
             st.queue.slots[st.queue.ptr[u]] == u) ==> Valid(n, st')
  {
    var h := NewHeight(n.adj[u], st.res[u], st.height);
    var height := st.height[u := h];
    var q := VertexQueue.IncreaseKey(st.queue, n.V, height, u, st.height);
    if !st.queue.inqueue[u] {
      VertexQueue.RelabelOutside(st.queue, n.V, st.height, u, h);
      Reheighted(n, st, u, h, q);
    } else if h >= st.height[u] && st.queue.ptr[u] <= st.queue.size && st.queue.slots[st.queue.ptr[u]] == u {
      Reheighted(n, st, u, h, q);
    }
    st' := State(st.res, st.excess, height, q);
  }

  /** A new height for u of at most INT_MAX, with a queue valid for it, keeps the state valid. */
  lemma Reheighted(n: Net, st: State, u: int, h: int, q: VertexQueue.Queue)
    requires Valid(n, st) && 0 <= u < n.V && h <= INT_MAX && VertexQueue.Valid(q, n.V, st.height[u := h])
    ensures Valid(n, State(st.res, st.excess, st.height[u := h], q))
  {
  }

  /** Every arc from u to a lower neighbour is saturated. */
  predicate Saturated(n: Net, st: State, u: int, upto: int)
    requires Valid(n, st) && 0 <= u < n.V && 0 <= upto <= |n.adj[u]|
  {
    forall k :: 0 <= k < upto && st.height[u] > st.height[n.adj[u][k]] ==> st.res[u][n.adj[u][k]] <= 0
  }

  /** What the scan of u keeps from its start `st0` to the current state `st`. */
  predicate Scanning(n: Net, st0: State, st: State, u: int, pushed: seq<int>)
  {
    && Valid(n, st0) && Valid(n, st) && 0 <= u < n.V
    && st.height == st0.height && st.queue.policy == st0.queue.policy
    && (forall k :: 0 <= k < |pushed| ==> pushed[k] in n.adj[u] && st0.height[pushed[k]] < st0.height[u])
    && (forall k :: 0 <= k < |pushed| ==> st0.res[u][pushed[k]] > 0)
    && (forall w :: 0 <= w < n.V && w !in pushed ==> st.res[u][w] == st0.res[u][w])
    && (forall w :: 0 <= w < n.V && w !in pushed ==> st.res[w][u] == st0.res[w][u])
    && (forall x, y :: 0 <= x < n.V && 0 <= y < n.V && x != u && y != u ==> st.res[x][y] == st0.res[x][y])
    && (forall w :: 0 <= w < n.V && w != u && w !in pushed ==> st.excess[w] == st0.excess[w])
    && (!st0.queue.inqueue[u] ==> !st.queue.inqueue[u])
    && (Balanced(n, st0) ==> Balanced(n, st))
    && (Waiting(n, st0, u) ==> Waiting(n, st, u))
  }

  /** One neighbour of the scan: push to it if it is lower and has residual;
      `stop` when u is then empty. */
  method Visit(n: Net, st0: State, st: State, u: int, i: int, pushed: seq<int>)
    returns (st': State, pushed': seq<int>, stop: bool)
    requires Scanning(n, st0, st, u, pushed) && 0 <= i < |n.adj[u]| && Saturated(n, st, u, i)
    ensures Scanning(n, st0, st', u, pushed')
    ensures stop ==> st'.excess[u] == 0
    ensures !stop ==> Saturated(n, st', u, i + 1)
  {
    var v := n.adj[u][i];
    if st.height[u] > st.height[v] && st.res[u][v] > 0 {
      st' := Push(n, st, u, v);
      pushed' := pushed + [v];
      stop := st'.excess[u] == 0;
      PushedScanning(n, st0, st, st', u, v, pushed);
      if !stop {
        PushedSaturated(n, st, st', u, i);
      }
    } else {
      st', pushed', stop := st, pushed, false;
    }
  }

  /** A push from u to a lower neighbour keeps what the scan of u keeps. */
  lemma PushedScanning(n: Net, st0: State, st: State, st': State, u: int, v: int, pushed: seq<int>)
    requires Scanning(n, st0, st, u, pushed) && 0 <= v < n.V && v in n.adj[u] && st0.height[v] < st0.height[u]
    requires st.res[u][v] > 0
    requires Valid(n, st') && st'.height == st.height && st'.queue.policy == st.queue.policy
    requires forall a, b :: 0 <= a < n.V && 0 <= b < n.V && !(a == u && b == v) && !(a == v && b == u) ==>
      st'.res[a][b] == st.res[a][b]
    requires forall w :: 0 <= w < n.V && w != u && w != v ==> st'.excess[w] == st.excess[w]
    requires forall w :: 0 <= w < n.V && w != v ==> st'.queue.inqueue[w] == st.queue.inqueue[w]
    requires Balanced(n, st) ==> Balanced(n, st')
    requires Waiting(n, st, u) ==> Waiting(n, st', u)
    ensures Scanning(n, st0, st', u, pushed + [v])
  {
    var p := pushed + [v];
    assert forall k :: 0 <= k < |p| ==> p[k] == if k < |pushed| then pushed[k] else v;
    if v !in pushed {
      assert st0.res[u][v] == st.res[u][v];
    }
  }

  /** A push along the i-th arc of u that leaves u some excess saturates that arc. */
  lemma PushedSaturated(n: Net, st: State, st': State, u: int, i: int)
    requires Valid(n, st) && Valid(n, st') && 0 <= u < n.V && 0 <= i < |n.adj[u]| && Saturated(n, st, u, i)
    requires st'.height == st.height && st.res[u][n.adj[u][i]] > 0
    requires forall a, b :: 0 <= a < n.V && 0 <= b < n.V && !(a == u && b == n.adj[u][i]) && !(a == n.adj[u][i] && b == u) ==>
      st'.res[a][b] == st.res[a][b]
    requires st'.res[u][n.adj[u][i]] == 0
    ensures Saturated(n, st', u, i + 1)
  {
    var v := n.adj[u][i];
    forall k | 0 <= k < i + 1 && st'.height[u] > st'.height[n.adj[u][k]]
      ensures st'.res[u][n.adj[u][k]] <= 0
    {
      var x := n.adj[u][k];
      if x != v && !(x == u && v == u) {
        assert st'.res[u][x] == st.res[u][x];
      }
    }
  }

  /** The scan inside `discharge`: pushes along every arc to a lower neighbour with
      positive residual, in neighbour order, and stops once u has no excess left. */
  method PushAll(n: Net, st: State, u: int) returns (st': State, pushed: seq<int>)
    requires Valid(n, st) && 0 <= u < n.V
    ensures Valid(n, st') && st'.height == st.height && st'.queue.policy == st.queue.policy
    ensures st'.excess[u] == 0 || Saturated(n, st', u, |n.adj[u]|)
    ensures forall k :: 0 <= k < |pushed| ==> pushed[k] in n.adj[u] && st.height[pushed[k]] < st.height[u]
    ensures forall k :: 0 <= k < |pushed| ==> st.res[u][pushed[k]] > 0
    ensures forall w :: 0 <= w < n.V && w !in pushed ==> st'.res[u][w] == st.res[u][w]
    ensures forall w :: 0 <= w < n.V && w !in pushed ==> st'.res[w][u] == st.res[w][u]
    ensures forall x, y :: 0 <= x < n.V && 0 <= y < n.V && x != u && y != u ==> st'.res[x][y] == st.res[x][y]
    ensures forall w :: 0 <= w < n.V && w != u && w !in pushed ==> st'.excess[w] == st.excess[w]
    ensures !st.queue.inqueue[u] ==> !st'.queue.inqueue[u]
    ensures Balanced(n, st) ==> Balanced(n, st')
    ensures Waiting(n, st, u) ==> Waiting(n, st', u)
  {
    st', pushed := st, [];
    var i := 0;
    while i < |n.adj[u]|
      invariant 0 <= i <= |n.adj[u]|
      invariant Scanning(n, st, st', u, pushed) && Saturated(n, st', u, i)
    {
      var stop;
      st', pushed, stop := Visit(n, st, st', u, i, pushed);
      if stop {
        return;
      }
      i := i + 1;
    }
  }

  /** How a `discharge` ended: u drained, the fuel ran out, or `relabel` would have
      overflowed because no residual neighbour has a height below INT_MAX. */
  datatype Status = Drained | OutOfFuel | Stuck

  /** The shape of a state, without the queue invariant. */
  predicate Framed(n: Net, st: State)
  {
    && Labelling.Network(n.V, n.adj, st.res) && Shaped(n.V, n.cap, st.res, st.excess)
    && |st.height| == n.V
  }

  /** One pass of the `discharge` loop, from `a` to `b`: u had excess; only its
      height changed among the heights, and it now stands one above its lowest
      neighbour with positive residual in `a`; the row and column of u and the
      excess of other vertices changed only at neighbours that had positive
      residual in `a` and stand exactly one below u's new height; no residual
      cell outside row and column u changed. */
  predicate Round(n: Net, a: State, b: State, u: int)
  {
    && Framed(n, a) && Framed(n, b) && 0 <= u < n.V && a.excess[u] != 0
    && (forall w :: 0 <= w < n.V && w != u ==> b.height[w] == a.height[w])
    && (forall i :: 0 <= i < |n.adj[u]| && a.res[u][n.adj[u][i]] > 0 ==>
          b.height[u] <= a.height[n.adj[u][i]] + 1)
    && (exists i :: 0 <= i < |n.adj[u]| && a.res[u][n.adj[u][i]] > 0 &&
          b.height[u] == a.height[n.adj[u][i]] + 1)
    && (forall w :: 0 <= w < n.V && b.res[u][w] != a.res[u][w] ==>
          w in n.adj[u] && a.res[u][w] > 0 && b.height[u] == a.height[w] + 1)
    && (forall w :: 0 <= w < n.V && b.res[w][u] != a.res[w][u] ==>
          w in n.adj[u] && a.res[u][w] > 0 && b.height[u] == a.height[w] + 1)
    && (forall x, y :: 0 <= x < n.V && 0 <= y < n.V && x != u && y != u ==> b.res[x][y] == a.res[x][y])
    && (forall w :: 0 <= w < n.V && w != u && b.excess[w] != a.excess[w] ==>
          w in n.adj[u] && a.res[u][w] > 0 && b.height[u] == a.height[w] + 1)
  }

  /** A relabel of u followed by its scan is a `Round`: the scan pushes only to
      strictly lower neighbours, and after the relabel u is at most one above
      each of them, so exactly one above. */
  lemma Rounded(n: Net, a: State, a1: State, b: State, u: int, p: seq<int>)
    requires Valid(n, a) && Valid(n, a1) && Valid(n, b) && 0 <= u < n.V && a.excess[u] != 0
    requires a1.res == a.res && a1.excess == a.excess
    requires forall w :: 0 <= w < n.V && w != u ==> a1.height[w] == a.height[w]
    requires forall i :: 0 <= i < |n.adj[u]| && a.res[u][n.adj[u][i]] > 0 ==>
      a1.height[u] <= a.height[n.adj[u][i]] + 1
    requires exists i ::
      0 <= i < |n.adj[u]| && a.res[u][n.adj[u][i]] > 0 && a1.height[u] == a.height[n.adj[u][i]] + 1
    requires b.height == a1.height
    requires forall k :: 0 <= k < |p| ==> p[k] in n.adj[u] && a1.height[p[k]] < a1.height[u]
    requires forall k :: 0 <= k < |p| ==> a1.res[u][p[k]] > 0
    requires forall w :: 0 <= w < n.V && w !in p ==> b.res[u][w] == a1.res[u][w]
    requires forall w :: 0 <= w < n.V && w !in p ==> b.res[w][u] == a1.res[w][u]
    requires forall x, y :: 0 <= x < n.V && 0 <= y < n.V && x != u && y != u ==> b.res[x][y] == a1.res[x][y]
    requires forall w :: 0 <= w < n.V && w != u && w !in p ==> b.excess[w] == a1.excess[w]
    ensures Round(n, a, b, u)
  {
    forall w | 0 <= w < n.V && w in p
      ensures w in n.adj[u] && a.res[u][w] > 0 && b.height[u] == a.height[w] + 1
    {
      var k :| 0 <= k < |p| && p[k] == w;
      var i :| 0 <= i < |n.adj[u]| && n.adj[u][i] == w;
      assert w != u;
      assert a1.height[u] <= a.height[w] + 1;
    }
  }

  /** Each consecutive pair of `trace` is a `Round` of u. */
  predicate Chained(n: Net, trace: seq<State>, u: int)
  {
    forall j :: 0 <= j < |trace| - 1 ==> Round(n, trace[j], trace[j + 1], u)
  }

  /** A `Round` from the last state extends the chain. */
  lemma ChainExtended(n: Net, trace: seq<State>, b: State, u: int)
    requires |trace| >= 1 && Chained(n, trace, u) && Round(n, trace[|trace| - 1], b, u)
    ensures Chained(n, trace + [b], u)
  {
    var t := trace + [b];
    forall j | 0 <= j < |t| - 1
      ensures Round(n, t[j], t[j + 1], u)
    {
      if j < |trace| - 1 {
        assert t[j] == trace[j] && t[j + 1] == trace[j + 1];
      }
    }
  }

  /** `discharge`: relabel u and push along its lower arcs until it has no excess;
      each round costs one unit of fuel. The ghost `trace` holds the state before
      each round and the final state, each consecutive pair a `Round`. */
  method Discharge(n: Net, st: State, u: int, fuel: nat)
    returns (st': State, status: Status, ghost trace: seq<State>)
    requires Valid(n, st) && 0 <= u < n.V && !st.queue.inqueue[u]
    ensures Valid(n, st') && !st'.queue.inqueue[u] && st'.queue.policy == st.queue.policy
    ensures forall w :: 0 <= w < n.V && w != u ==> st'.height[w] == st.height[w]
    ensures forall x, y :: 0 <= x < n.V && 0 <= y < n.V && x != u && y != u ==> st'.res[x][y] == st.res[x][y]
    ensures status == Drained <==> st'.excess[u] == 0
    ensures status == Stuck ==> !CanRelabel(n.adj[u], st'.res[u], st'.height)
    ensures Balanced(n, st) ==> Balanced(n, st')
    ensures Waiting(n, st, u) ==> Waiting(n, st', u)
    ensures 1 <= |trace| <= fuel + 1 && trace[0] == st && trace[|trace| - 1] == st'
    ensures status == OutOfFuel ==> |trace| == fuel + 1
    ensures Chained(n, trace, u)
  {
    st', trace := st, [st];
    var left := fuel;
    while st'.excess[u] != 0
      invariant Valid(n, st') && !st'.queue.inqueue[u] && st'.queue.policy == st.queue.policy
      invariant forall w :: 0 <= w < n.V && w != u ==> st'.height[w] == st.height[w]
      invariant forall x, y :: 0 <= x < n.V && 0 <= y < n.V && x != u && y != u ==> st'.res[x][y] == st.res[x][y]
      invariant Balanced(n, st) ==> Balanced(n, st')
      invariant Waiting(n, st, u) ==> Waiting(n, st', u)
      invariant |trace| + left == fuel + 1 && trace[0] == st && trace[|trace| - 1] == st'
      invariant Chained(n, trace, u)
      decreases left
    {
      if left == 0 {
        return st', OutOfFuel, trace;
      }
      if !CanRelabel(n.adj[u], st'.res[u], st'.height) {
        return st', Stuck, trace;
      }
      var st1 := Relabel(n, st', u);
      var st2, p := PushAll(n, st1, u);
      Rounded(n, st', st1, st2, u, p);
      ChainExtended(n, trace, st2, u);
      st', trace := st2, trace + [st2];
      left := left - 1;
    }
    status := Drained;
  }

  /** One round of `pushRelabelThread`: pop a vertex and discharge it unless it is
      S or T. `empty` when the queue had nothing to pop; `ok` unless the discharge
      ran out of fuel or got stuck. */
  method Serve(n: Net, st: State, fuel: nat) returns (st': State, empty: bool, ok: bool)
    requires Valid(n, st) && Waiting(n, st, -1)
    ensures Valid(n, st') && st'.queue.policy == st.queue.policy
    ensures Balanced(n, st) ==> Balanced(n, st')
    ensures empty ==> st' == st && st.queue.size == 0
    ensures ok ==> Waiting(n, st', -1)
  {
    var q, u := VertexQueue.Pop(st.queue, n.V, st.height);
    if u == -1 {
      return st, true, true;
    }
    st' := st.(queue := q);
    assert Waiting(n, st', u);
    empty, ok := false, true;
    if u != n.S && u != n.T {
      var status;
      ghost var trace;
      st', status, trace := Discharge(n, st', u, fuel);
      ok := status == Drained;
    }
  }

  /** `pushRelabelThread`: pop vertices until the queue is empty, discharging every
      popped vertex other than S and T. Each pop costs one unit of fuel. */
  method Run(n: Net, st: State, fuel: nat) returns (st': State, finished: bool)
    requires Valid(n, st) && Waiting(n, st, -1)
    ensures Valid(n, st') && st'.queue.policy == st.queue.policy
    ensures Balanced(n, st) ==> Balanced(n, st')
    ensures finished ==> st'.queue.size == 0
    ensures finished ==> forall w :: 0 <= w < n.V && w != n.S && w != n.T ==> st'.excess[w] == 0
  {
    st' := st;
    var left := fuel;
    while left > 0
      invariant Valid(n, st') && Waiting(n, st', -1) && st'.queue.policy == st.queue.policy
      invariant Balanced(n, st) ==> Balanced(n, st')
      decreases left
    {
      var empty, ok;
      st', empty, ok := Serve(n, st', left);
      if empty {
        Idle(n, st');
        return st', true;
      }
      if !ok {
        return st', false;
      }
      left := left - 1;
    }
    finished := false;
  }

  /** An empty queue leaves no vertex other than S and T with excess. */
  lemma Idle(n: Net, st: State)
    requires Valid(n, st) && Waiting(n, st, -1) && st.queue.size == 0
    ensures forall w :: 0 <= w < n.V && w != n.S && w != n.T ==> st.excess[w] == 0
  {
    forall w | 0 <= w < n.V && w != n.S && w != n.T
      ensures st.excess[w] == 0
    {
      assert |VertexQueue.Items(st.queue, n.V)| == 0;
      assert !st.queue.inqueue[w];
    }
  }

  /** The set-up of `PushRelabel` before the preflow pushes: capacities and residuals
      from the input, both directions of every edge as neighbours, the
      breadth-first labelling from T, an empty queue, then S raised to V - 1 with
      INT_MAX excess. The QTYPE 2 key is the labelling before S is raised; the
      QTYPE 3 key is the parameter `layer`. */
  method Setup(g: Graph, policy: VertexQueue.Policy, layer: seq<int>) returns (n: Net, st: State)
    requires WellFormed(g) && g.V <= INT_MAX && |layer| == g.V
    ensures n.V == g.V && n.S == g.S && n.T == g.T && Symmetrised(g, n.adj) && CapacityOf(g, n.cap)
    ensures Valid(n, st) && Waiting(n, st, -1) && st.queue.policy == policy && st.res == n.cap
    ensures VertexQueue.Items(st.queue, n.V) == []
    ensures st.excess[n.S] == INT_MAX && forall w :: 0 <= w < n.V && w != n.S ==> st.excess[w] == 0
    ensures st.height[n.S] == n.V - 1
    ensures forall w :: 0 <= w < n.V && w != n.S ==>
      (st.height[w] != INT_MAX <==> Reach.Reachable(Labelling.LeadsArc(n.adj, n.cap), n.T, w))
    ensures Flow.NonNegCaps(g) ==> Balanced(n, st)
  {
    var adj := BuildAdjacency(g);
    var cap := BuildCapacity(g);
    n := Net(g.V, g.S, g.T, adj, cap);
    var height := Labelling.Label(g.V, g.T, adj, cap);
    var rank := if policy == VertexQueue.ByDistance then height else layer;
    var excess := seq(g.V, w => if w == g.S then INT_MAX else 0);
    height := height[g.S := g.V - 1];
    st := State(cap, excess, height, VertexQueue.Empty(policy, g.V, rank));
    StartValid(n, st);
    if Flow.NonNegCaps(g) {
      StartBalanced(g, n, st);
    }
  }

  /** The state before the preflow pushes is valid, and only S holds excess. */
  lemma StartValid(n: Net, st: State)
    requires 1 <= n.V <= INT_MAX && 0 <= n.S < n.V && 0 <= n.T < n.V
    requires Labelling.Network(n.V, n.adj, n.cap) && st.res == n.cap
    requires |st.height| == n.V && forall w :: 0 <= w < n.V ==> st.height[w] == INT_MAX || 0 <= st.height[w] < n.V
    requires st.excess == seq(n.V, w => if w == n.S then INT_MAX else 0) && |st.queue.rank| == n.V
    requires st.queue == VertexQueue.Empty(st.queue.policy, n.V, st.queue.rank)
    ensures Valid(n, st) && Waiting(n, st, -1)
  {
  }

  /** With non-negative capacities the starting state is a preflow: no residual
      has moved and only S holds excess. */
  lemma StartBalanced(g: Graph, n: Net, st: State)
    requires WellFormed(g) && CapacityOf(g, n.cap) && Flow.NonNegCaps(g) && n.V == g.V && n.S == g.S
    requires Valid(n, st) && st.res == n.cap
    requires st.excess == seq(n.V, w => if w == n.S then INT_MAX else 0)
    ensures Balanced(n, st)
  {
    Flow.CapacitiesNonNeg(g, n.cap);
  }

  /** S has run dry, or every arc from S to one of its first `upto` neighbours other
      than S itself is saturated. */
  predicate Flooded(n: Net, st: State, upto: int)
    requires Valid(n, st) && 0 <= upto <= |n.adj[n.S]|
  {
    st.excess[n.S] == 0 || forall k :: 0 <= k < upto && n.adj[n.S][k] != n.S ==> st.res[n.S][n.adj[n.S][k]] == 0
  }

  /** One push of the preflow loop, from S to its i-th neighbour. */
  method FloodOne(n: Net, st: State, i: int) returns (st': State)
    requires Valid(n, st) && 0 <= i < |n.adj[n.S]|
    ensures Valid(n, st') && st'.height == st.height && st'.queue.policy == st.queue.policy
    ensures Waiting(n, st, n.S) ==> Waiting(n, st', n.S)
    ensures Balanced(n, st) ==> Balanced(n, st')
    ensures Balanced(n, st) && Flooded(n, st, i) ==> Flooded(n, st', i + 1)
  {
    st' := Push(n, st, n.S, n.adj[n.S][i]);
    if Balanced(n, st) && Flooded(n, st, i) {
      FloodStep(n, st, st', i);
    }
  }

  /** The push from S to its i-th neighbour v saturates the arc S -> v or empties S,
      and touches no other arc out of S. */
  lemma FloodStep(n: Net, st: State, st': State, i: int)
    requires Valid(n, st) && Valid(n, st') && 0 <= i < |n.adj[n.S]| && Balanced(n, st) && Balanced(n, st') && Flooded(n, st, i)
    requires var u, v := n.S, n.adj[n.S][i];
      && (forall a, b :: 0 <= a < n.V && 0 <= b < n.V && !(a == u && b == v) && !(a == v && b == u) ==>
            st'.res[a][b] == st.res[a][b])
      && (u != v ==> st.res[u][v] - st'.res[u][v] == st.excess[u] - st'.excess[u])
      && (u != v ==> st'.excess[u] == 0 || st'.res[u][v] == 0)
      && (u == v ==> st'.res == st.res && st'.excess == st.excess)
      && 0 <= st'.res[u][v] <= st.res[u][v]
    ensures Flooded(n, st', i + 1)
  {
    var v := n.adj[n.S][i];
    if st'.excess[n.S] != 0 && v != n.S {
      assert st'.excess[n.S] > 0;
      assert st.excess[n.S] != 0;
      assert st'.res[n.S][v] == 0;
      forall k | 0 <= k < i && n.adj[n.S][k] != n.S
        ensures st'.res[n.S][n.adj[n.S][k]] == 0
      {
        assert st.res[n.S][n.adj[n.S][k]] == 0;
      }
    }
  }

  /** The preflow loop: push from S to each of its neighbours in turn. */
  method Flood(n: Net, st: State) returns (st': State)
    requires Valid(n, st)
    ensures Valid(n, st') && st'.height == st.height && st'.queue.policy == st.queue.policy
    ensures Waiting(n, st, -1) ==> Waiting(n, st', -1)
    ensures Balanced(n, st) ==> Balanced(n, st')
    ensures Balanced(n, st) ==> Flooded(n, st', |n.adj[n.S]|)
  {
    st' := st;
    var i := 0;
    while i < |n.adj[n.S]|
      invariant 0 <= i <= |n.adj[n.S]|
      invariant Valid(n, st') && st'.height == st.height && st'.queue.policy == st.queue.policy
      invariant Waiting(n, st, -1) ==> Waiting(n, st', n.S)
      invariant Balanced(n, st) ==> Balanced(n, st')
      invariant Balanced(n, st) ==> Flooded(n, st', i)
    {
      st' := FloodOne(n, st', i);
      i := i + 1;
    }
  }

  /** A balanced state with no excess left off S and T has a settled residual matrix. */
  lemma Settle(n: Net, st: State)
    requires Valid(n, st) && Balanced(n, st)
    requires forall w :: 0 <= w < n.V && w != n.S && w != n.T ==> st.excess[w] == 0
    ensures Flow.Settled(n.V, n.S, n.T, n.cap, st.res)
  {
  }

  /** `PushRelabel`: set up, flood the source's arcs, run the queue dry and write
      capacity - residual for every input edge into the caller's buffer `flow0`.
      The run is cut off after `fuel` rounds; `finished` says it was not. */
  method Solve(g: Graph, policy: VertexQueue.Policy, layer: seq<int>, flow0: Matrix, fuel: nat)
    returns (flow: Matrix, finished: bool, ghost cap: Matrix, ghost res: Matrix)
    requires WellFormed(g) && g.V <= INT_MAX && |layer| == g.V && IsSquare(flow0, g.V)
    ensures CapacityOf(g, cap) && IsSquare(res, g.V) && ExtractedFrom(g, cap, res, flow0, flow)
    ensures finished && Flow.NonNegCaps(g) ==> Flow.Settled(g.V, g.S, g.T, cap, res)
    ensures finished && Flow.NonNegCaps(g) && Flow.OneWay(g) && flow0 == Filled(g.V, 0) ==>
      Flow.Feasible(g.V, g.S, g.T, cap, flow)
  {
    var n, st := Setup(g, policy, layer);
    st := Flood(n, st);
    st, finished := Run(n, st, fuel);
    flow := ExtractFlow(g, n.cap, st.res, flow0);
    cap, res := n.cap, st.res;
    if finished && Flow.NonNegCaps(g) {
      Settle(n, st);
      if Flow.OneWay(g) && flow0 == Filled(g.V, 0) {
        Flow.ExtractFeasible(g, cap, res, flow);
      }
    }
  }
}

=== FILE: reach.dfy ===
/** Reachability along an arc relation, shared by the three breadth-first searches
    (initial labelling, augmenting-path search and the feasibility checkers). */
module Reach {

  /** `p` is a walk from `s` to `t`: consecutive vertices are joined by arcs. */
  ghost predicate IsWalk(arc: (int, int) -> bool, p: seq<int>, s: int, t: int)
  {
    && |p| >= 1 && p[0] == s && p[|p| - 1] == t
    && forall k :: 0 <= k < |p| - 1 ==> arc(p[k], p[k + 1])
  }

  ghost predicate Reachable(arc: (int, int) -> bool, s: int, t: int)
  {
    exists p :: IsWalk(arc, p, s, t)
  }

  /** An arc of a residual matrix: a cell with a positive entry. */
  predicate Positive(m: seq<seq<int>>, u: int, v: int)
  {
    0 <= u < |m| && 0 <= v < |m[u]| && m[u][v] > 0
  }

  ghost function PositiveArc(m: seq<seq<int>>): (int, int) -> bool
  {
    (u, v) => Positive(m, u, v)
  }

  /** A set of vertices no arc leaves. */
  ghost predicate Closed(arc: (int, int) -> bool, m: set<int>)
  {
    forall u, v :: u in m && arc(u, v) ==> v in m
  }

  lemma ReachSelf(arc: (int, int) -> bool, s: int)
    ensures Reachable(arc, s, s)
  {
    assert IsWalk(arc, [s], s, s);
  }

  /** Extending a walk by one arc. */
  lemma ReachStep(arc: (int, int) -> bool, s: int, u: int, v: int)
    requires Reachable(arc, s, u) && arc(u, v)
    ensures Reachable(arc, s, v)
  {
    var p :| IsWalk(arc, p, s, u);
    assert IsWalk(arc, p + [v], s, v);
  }

  /** A closed set that holds `s` holds every vertex a walk from `s` ends at. */
  lemma {:induction false} ClosedHoldsWalk(arc: (int, int) -> bool, m: set<int>, p: seq<int>, s: int, t: int)
    requires Closed(arc, m) && s in m
    requires IsWalk(arc, p, s, t)
    ensures t in m
    decreases |p|
  {
    if |p| > 1 {
      var q := p[..|p| - 1];
      assert IsWalk(arc, q, s, q[|q| - 1]);
      ClosedHoldsWalk(arc, m, q, s, q[|q| - 1]);
      assert arc(q[|q| - 1], t);
    }
  }

  /** A closed set holding `s` but not `t` proves that `t` cannot be reached from `s`. */
  lemma ClosedBlocks(arc: (int, int) -> bool, m: set<int>, s: int, t: int)
    requires Closed(arc, m) && s in m && t !in m
    ensures !Reachable(arc, s, t)
  {
    if Reachable(arc, s, t) {
      var p :| IsWalk(arc, p, s, t);
      ClosedHoldsWalk(arc, m, p, s, t);
    }
  }
}

=== FILE: ring.dfy ===
/** The FIFO active-vertex policy (QTYPE 0): a circular buffer over the queue
    array, indexed modulo V. */
module Ring {
  import opened Base

  /** The queue array has V+1 cells (it is shared with the heap policies); the ring uses cells 0 .. V-1. */
  datatype Ring = Ring(slots: seq<int>, front: int, back: int, size: int)

  /** `x % n` for 0 <= x < 2n. */
  function Wrap(x: int, n: int): int
  {
    if x < n then x else x - n
  }

  lemma ModNext(b: int, n: int)
    requires 0 <= b < n
    ensures (b + 1) % n == Wrap(b + 1, n)
  {
    if b + 1 == n {
      assert (b + 1) % n == 0;
    }
  }

  predicate Valid(q: Ring, n: int)
  {
    && n >= 1 && |q.slots| == n + 1
    && 0 <= q.front < n && 0 <= q.size <= n
    && q.back == Wrap(q.front + q.size, n)
  }

  /** The queued vertices, front first. */
  function Items(q: Ring, n: int): (s: seq<int>)
    requires Valid(q, n)
    ensures |s| == q.size
  {
    seq(q.size, k requires 0 <= k < q.size => q.slots[Wrap(q.front + k, n)])
  }

  lemma ItemAt(q: Ring, n: int, k: int)
    requires Valid(q, n) && 0 <= k < q.size
    ensures Items(q, n)[k] == q.slots[Wrap(q.front + k, n)]
  {
  }

  /** A ring whose cells all hold vertices below n queues only such vertices. */
  lemma ItemsBelow(q: Ring, n: int)
    requires Valid(q, n) && AllBelow(q.slots, n)
    ensures AllBelow(Items(q, n), n)
  {
    forall k | 0 <= k < q.size
      ensures 0 <= Items(q, n)[k] < n
    {
      ItemAt(q, n, k);
    }
  }

  /** The empty ring (front = back = size = 0). */
  function Empty(n: int): (q: Ring)
    requires n >= 1
    ensures Valid(q, n) && Items(q, n) == []
  {
    Ring(seq(n + 1, _ => 0), 0, 0, 0)
  }

  /** Writes `u` at the back and advances the back index modulo V, with no check for a full ring. */
  function Append(q: Ring, n: int, u: int): (r: Ring)
    requires Valid(q, n)
    ensures r.size == q.size + 1 && |r.slots| == n + 1
    ensures q.size < n ==> Valid(r, n) && Items(r, n) == Items(q, n) + [u]
    ensures q.size == n ==> r.slots[q.front] == u
  {
    ModNext(q.back, n);
    var r := Ring(q.slots[q.back := u], q.front, (q.back + 1) % n, q.size + 1);
    if q.size < n then
      assert Valid(r, n);
      forall k | 0 <= k < q.size
        ensures Items(r, n)[k] == Items(q, n)[k]
      {
        ItemAt(r, n, k); ItemAt(q, n, k);
      }
      ItemAt(r, n, q.size);
      r
    else
      r
  }

  /** Removes the front vertex; -1 and no change when the ring is empty. */
  function Dequeue(q: Ring, n: int): (res: (Ring, int))
    requires Valid(q, n)
    ensures Valid(res.0, n)
    ensures q.size == 0 ==> res == (q, -1)
    ensures q.size > 0 ==> res.1 == Items(q, n)[0] && Items(res.0, n) == Items(q, n)[1..]
  {
    if q.size > 0 then
      ModNext(q.front, n);
      var r := Ring(q.slots, (q.front + 1) % n, q.back, q.size - 1);
      forall k | 0 <= k < r.size
        ensures Items(r, n)[k] == Items(q, n)[k + 1]
      {
        ItemAt(r, n, k); ItemAt(q, n, k + 1);
      }
      ItemAt(q, n, 0);
      (r, q.slots[q.front])
    else
      (q, -1)
  }
}

=== FILE: vertex_queue.dfy ===
/** The active-vertex queue of the sequential push-relabel solver, in its four
    compile-time variants. Every variant keeps an `inqueue` flag per vertex and
    ignores a push of a vertex already queued, so the queue never holds a vertex
    twice and never outgrows its V+1 cells. */
module VertexQueue {
  import opened Base
  import Ring
  import Heap

  /** QTYPE 0: FIFO ring; 1: max-heap on the current height, recording cell
      indices in `vertexPtr`; 2: max-heap on the initial distance; 3: max-heap on a
      layer label. */
  datatype Policy = Fifo | ByHeight | ByDistance | ByLabel

  /** The queue array and its bookkeeping; `ptr` is `vertexPtr` and `rank` the
      frozen key of QTYPE 2 and 3. */
  datatype Queue = Queue(policy: Policy, slots: seq<int>, size: int, front: int, back: int,
                         inqueue: seq<bool>, ptr: seq<int>, rank: seq<int>)

  /** The key a heap variant orders by. */
  function Key(q: Queue, height: seq<int>): seq<int>
  {
    if q.policy == ByHeight then height else q.rank
  }

  function AsRing(q: Queue): Ring.Ring
  {
    Ring.Ring(q.slots, q.front, q.back, q.size)
  }

  predicate Shaped(q: Queue, V: int)
  {
    && V >= 1 && |q.slots| == V + 1 && |q.inqueue| == V && |q.ptr| == V && |q.rank| == V
    && AllBelow(q.slots, V)
    && (q.policy == Fifo ==> Ring.Valid(AsRing(q), V))
    && (q.policy != Fifo ==> 0 <= q.size <= V)
    && Heap.InRange(q.ptr, V + 1)
  }

  /** The queued vertices: front first for the ring, cells 1 .. size for a heap. */
  function Items(q: Queue, V: int): (s: seq<int>)
    requires Shaped(q, V)
    ensures |s| == q.size && AllBelow(s, V)
  {
    if q.policy == Fifo then
      var s := Ring.Items(AsRing(q), V);
      Ring.ItemsBelow(AsRing(q), V);
      s
    else
      Heap.Items(q.slots, q.size)
  }

  /** The queue invariant: no vertex twice, `inqueue` flags exactly the queued
      vertices, and a heap variant is in heap order under its key. */
  predicate Valid(q: Queue, V: int, height: seq<int>)
  {
    && Shaped(q, V) && |height| == V
    && Flagged(q, V)
    && (q.policy != Fifo ==> Heap.IsHeap(Heap.MaxFirst, Key(q, height), q.slots, q.size))
  }

  /** The empty queue; `rank` is the frozen key of QTYPE 2 and 3. */
  function Empty(policy: Policy, V: int, rank: seq<int>): (q: Queue)
    requires V >= 1 && |rank| == V
    ensures Shaped(q, V) && forall height :: |height| == V ==> Valid(q, V, height)
    ensures Items(q, V) == [] && q.policy == policy && q.rank == rank
  {
    Queue(policy, seq(V + 1, _ => 0), 0, 0, 0, seq(V, _ => false), seq(V, _ => 1), rank)
  }

  /** The flags track the queued vertices, each queued once. */
  predicate Flagged(q: Queue, V: int)
    requires Shaped(q, V)
  {
    Distinct(Items(q, V)) && forall v :: 0 <= v < V ==> (q.inqueue[v] <==> v in Items(q, V))
  }

  /** Queueing one more vertex and flagging it keeps the flags exact. */
  lemma Added(q: Queue, r: Queue, V: int, u: int)
    requires Shaped(q, V) && Shaped(r, V) && Flagged(q, V) && 0 <= u < V && !q.inqueue[u]
    requires r.inqueue == q.inqueue[u := true]
    requires multiset(Items(r, V)) == multiset(Items(q, V)) + multiset{u}
    ensures Flagged(r, V)
  {
    DistinctMultiset(Items(q, V));
    DistinctMultiset(Items(r, V));
    forall v | 0 <= v < V
      ensures r.inqueue[v] <==> v in Items(r, V)
    {
      assert v in Items(r, V) <==> v in multiset(Items(r, V));
      assert v in Items(q, V) <==> v in multiset(Items(q, V));
    }
  }

  /** Dequeuing a vertex and clearing its flag keeps the flags exact. */
  lemma Removed(q: Queue, r: Queue, V: int, u: int)
    requires Shaped(q, V) && Shaped(r, V) && Flagged(q, V) && 0 <= u < V && q.inqueue[u]
    requires r.inqueue == q.inqueue[u := false]
    requires multiset(Items(r, V)) == multiset(Items(q, V)) - multiset{u}
    ensures Flagged(r, V)
  {
    DistinctMultiset(Items(q, V));
    DistinctMultiset(Items(r, V));
    forall v | 0 <= v < V
      ensures r.inqueue[v] <==> v in Items(r, V)
    {
      assert v in Items(r, V) <==> v in multiset(Items(r, V));
      assert v in Items(q, V) <==> v in multiset(Items(q, V));
    }
  }

  /** A vertex keyed at least as high as every occupied heap cell is keyed at least as
      high as every queued vertex. */
  lemma CellsToItems(slots: seq<int>, size: int, key: seq<int>, u: int)
    requires 0 <= size < |slots| && Heap.Keyed(key, slots) && 0 <= u < |key|
    requires forall i :: 1 <= i <= size ==> Heap.Above(Heap.MaxFirst, key[u], key[slots[i]])
    ensures forall w :: w in Heap.Items(slots, size) ==> key[w] <= key[u]
  {
    forall w | w in Heap.Items(slots, size)
      ensures key[w] <= key[u]
    {
      var i :| 0 <= i < size && Heap.Items(slots, size)[i] == w;
      assert slots[i + 1] == w;
    }
  }

  /** `quePush`: nothing when u is already queued; otherwise u is appended at the
      back of the ring, or inserted into the heap and sifted up. */
  method Push(q: Queue, V: int, height: seq<int>, u: int) returns (r: Queue)
    requires Valid(q, V, height) && 0 <= u < V
    ensures Valid(r, V, height) && r.policy == q.policy && r.rank == q.rank
    ensures q.inqueue[u] ==> r == q
    ensures !q.inqueue[u] ==> r.inqueue == q.inqueue[u := true]
    ensures !q.inqueue[u] ==> multiset(Items(r, V)) == multiset(Items(q, V)) + multiset{u}
    ensures !q.inqueue[u] && q.policy == Fifo ==> Items(r, V) == Items(q, V) + [u]
  {
    if q.inqueue[u] {
      return q;
    }
    var items := Items(q, V);
    RoomFor(items, V, u);
    if q.policy == Fifo {
      var ring := Ring.Append(AsRing(q), V, u);
      r := q.(slots := ring.slots, back := ring.back, size := ring.size, inqueue := q.inqueue[u := true]);
      assert AsRing(r) == ring;
    } else {
      var s, size, p := Heap.Insert(Heap.MaxFirst, Key(q, height), q.slots, q.size, u, q.ptr, q.policy == ByHeight);
      r := q.(slots := s, size := size, ptr := p, inqueue := q.inqueue[u := true]);
    }
    Added(q, r, V, u);
  }

  /** `quePop` of the ring: the front vertex leaves. */
  method PopFront(q: Queue, V: int, height: seq<int>) returns (r: Queue, u: int)
    requires Valid(q, V, height) && q.policy == Fifo && q.size > 0
    ensures Valid(r, V, height) && r.policy == q.policy && r.rank == q.rank
    ensures 0 <= u < V && q.inqueue[u] && r.inqueue == q.inqueue[u := false]
    ensures u == Items(q, V)[0] && Items(r, V) == Items(q, V)[1..]
  {
    var items := Items(q, V);
    var res := Ring.Dequeue(AsRing(q), V);
    var ring := res.0;
    u := res.1;
    r := q.(front := ring.front, size := ring.size, inqueue := q.inqueue[u := false]);
    assert AsRing(r) == ring;
    assert items == [u] + items[1..];
    Removed(q, r, V, u);
  }

  /** `quePop` of a heap: the root leaves, the last vertex moves to the root and sifts down. */
  method PopRoot(q: Queue, V: int, height: seq<int>) returns (r: Queue, u: int)
    requires Valid(q, V, height) && q.policy != Fifo && q.size > 0
    ensures Valid(r, V, height) && r.policy == q.policy && r.rank == q.rank
    ensures 0 <= u < V && q.inqueue[u] && r.inqueue == q.inqueue[u := false]
    ensures multiset(Items(r, V)) == multiset(Items(q, V)) - multiset{u}
    ensures forall w :: w in Items(q, V) ==> Key(q, height)[w] <= Key(q, height)[u]
  {
    var items := Items(q, V);
    var s, size, p;
    s, size, p, u := Heap.RemoveTop(Heap.MaxFirst, Key(q, height), q.slots, q.size, q.ptr, q.policy == ByHeight);
    r := q.(slots := s, size := size, ptr := p, inqueue := q.inqueue[u := false]);
    assert items[0] == u;
    CellsToItems(q.slots, q.size, Key(q, height), u);
    Removed(q, r, V, u);
  }

  /** `quePop`: -1 and no change when the queue is empty; otherwise the front of the
      ring or the root of the heap, with its `inqueue` flag cleared. */
  method Pop(q: Queue, V: int, height: seq<int>) returns (r: Queue, u: int)
    requires Valid(q, V, height)
    ensures Valid(r, V, height) && r.policy == q.policy && r.rank == q.rank
    ensures q.size == 0 ==> u == -1 && r == q
    ensures q.size > 0 ==> 0 <= u < V && q.inqueue[u] && r.inqueue == q.inqueue[u := false]
    ensures q.size > 0 ==> multiset(Items(r, V)) == multiset(Items(q, V)) - multiset{u}
    ensures q.size > 0 && q.policy == Fifo ==> u == Items(q, V)[0] && Items(r, V) == Items(q, V)[1..]
    ensures q.size > 0 && q.policy != Fifo ==>
      forall w :: w in Items(q, V) ==> Key(q, height)[w] <= Key(q, height)[u]
  {
    if q.size == 0 {
      return q, -1;
    }
    if q.policy == Fifo {
      r, u := PopFront(q, V, height);
      var items := Items(q, V);
      assert items == [u] + items[1..];
    } else {
      r, u := PopRoot(q, V, height);
    }
  }

  /** `queIncreaseKey` (QTYPE 1): when u is queued, sift up from the cell `vertexPtr`
      records for it. Heap order under the raised height is restored when that cell
      does hold u. */
  method IncreaseKey(q: Queue, V: int, height: seq<int>, u: int, ghost h0: seq<int>) returns (r: Queue)
    requires Shaped(q, V) && |height| == V && 0 <= u < V
    ensures Shaped(r, V) && r.policy == q.policy && r.rank == q.rank && r.inqueue == q.inqueue
    ensures q.ptr[u] <= q.size ==> multiset(Items(r, V)) == multiset(Items(q, V))
    ensures q.policy != ByHeight || !q.inqueue[u] ==> r == q
    ensures Valid(q, V, h0) && height == h0[u := height[u]] && height[u] >= h0[u]
      && q.ptr[u] <= q.size && q.slots[q.ptr[u]] == u
      ==> Valid(r, V, height)
  {
    if q.policy != ByHeight || !q.inqueue[u] {
      return q;
    }
    var at := q.ptr[u];
    if Valid(q, V, h0) && height == h0[u := height[u]] && height[u] >= h0[u] && at <= q.size && q.slots[at] == u {
      Heap.RaisedKey(Heap.MaxFirst, h0, q.slots, q.size, at, height[u]);
    }
    var s := Heap.IncreaseKey(Heap.MaxFirst, height, q.slots, q.size, at);
    r := q.(slots := s);
    assert Shaped(r, V);
    if Valid(q, V, h0) && at <= q.size {
      Rearranged(q, r, V);
    }
  }

  /** Reordering the queued vertices without changing their flags keeps the flags exact. */
  lemma Rearranged(q: Queue, r: Queue, V: int)
    requires Shaped(q, V) && Shaped(r, V) && Flagged(q, V) && r.inqueue == q.inqueue
    requires multiset(Items(r, V)) == multiset(Items(q, V))
    ensures Flagged(r, V)
  {
    DistinctMultiset(Items(q, V));
    DistinctMultiset(Items(r, V));
    forall v | 0 <= v < V
      ensures r.inqueue[v] <==> v in Items(r, V)
    {
      assert v in Items(r, V) <==> v in multiset(Items(r, V));
      assert v in Items(q, V) <==> v in multiset(Items(q, V));
    }
  }

  /** A height change of a vertex that is not queued keeps the queue valid. */
  lemma RelabelOutside(q: Queue, V: int, height: seq<int>, u: int, k: int)
    requires Valid(q, V, height) && 0 <= u < V && !q.inqueue[u]
    ensures Valid(q, V, height[u := k])
  {
    if q.policy == ByHeight {
      Heap.KeyOutside(Heap.MaxFirst, height, q.slots, q.size, u, k);
    }
  }
}
